=== FILE: README.md ===
# Tasks app core, modelled in Dafny

This project models the decision logic of the "tasks" Android app and of its
developer launcher script. On the app side it covers:

- the task view model: workspace filtering, checklist toggling, auto-completion, and the insert/update checklist sync against a Room-like store;
- the timeline: partitioning, sorting, grouping by day, the span of days shown, the flattened item list with headers, summary and rows, and the two scroll-index searches;
- the task editors (bottom sheet and full screen), including how a missing date is saved;
- the date/time picker sheet with its Tomorrow, Next week and custom date/time choices;
- the main task screen's search bar, workspace grid and timeline hand-offs;
- the habit creator form and its save payload;
- the habit dashboard's header figures and the habit detail sheet's controls;
- the courses list and the course creator sheet;
- the workspace selection sheet;
- the calendar week strip.

On the script side it covers `launch.py`: emulator detection, image listing and choice, boot mode, the build task, the interactive menu and the whole session over one input stream.

Each component is one module of pure functions over immutable datatypes. Its
screens are state machines: a state, an event type and a `Step` function.
The model makes these choices:

- Time is an integer count of milliseconds since the epoch, in one fixed zone with no daylight-saving shifts (`Clock`).
- A day is identified by its epoch-day key. The timeline's "yyyy-MM-dd" keys become these integers.
- The current time is a parameter wherever the app reads the clock.
- Subprocess results and console input are values handed to the launcher functions. Each is either a completed call with its output, or a raised exception.
- The database is a pair of maps from ids to rows, with the next free ids, in `ViewModel`.

Where the app's behaviour looks unintended (see "## Findings"), the model
keeps both the behaviour as written and a corrected version. The calendar
strip's cells draw their letters as written, and its `Step` is the
corrected one beside `StepAsWritten`.

Python `strip`, `lower` and `int`, Kotlin `isBlank`, integer division and the
signed 32-bit ARGB colour conversion are written out explicitly. The model
does not rely on Dafny's own versions of these.

## Model

| member | source | states |
|---|---|---|
| Launcher.IsEmulatorRunning | launch.py:17-22 | A failed `adb devices` call means not running; a completed one means running exactly when its output mentions both an emulator and a device |
| Launcher.ReadinessWithHeader | launch.py:17-20 | Whenever adb prints its usual header, readiness reduces to the word "emulator" appearing in the output |
| Launcher.PyStrip | launch.py:109 | Python `strip()`: the result is the input with exactly its leading and trailing whitespace removed, and is empty exactly for all-whitespace input |
| Launcher.PyStripAround | launch.py:109 | Stripping whitespace padding from a trimmed body gives back the body |
| Launcher.ParseAvds | launch.py:35 | The image list holds only non-empty, single-line names, at most one per line of the stripped output |
| Launcher.ParseAvdsListing | launch.py:35 | Names listed one per line, with any whitespace around the listing, are parsed back as exactly those names in order |
| Launcher.SplitLinesJoin | launch.py:35 | Splitting lines inverts joining non-empty break-free lines with newlines |
| Launcher.PyInt | launch.py:49 | Python `int()` accepts exactly an optionally signed decimal literal (single underscores between digits) once the whitespace `int()` skips is removed from both ends: ASCII blanks and non-ASCII spaces, but not the separators U+001C to U+001F; an accepted text contains a digit, and only a leading minus gives a negative value |
| Launcher.PyIntPadded | launch.py:49 | Padding a literal with `int()` whitespace on either side does not change what `int()` reads |
| Launcher.PyIntKeepsSeparators | launch.py:49 | A leading U+001C makes `int()` raise, although `strip()` would remove it |
| Launcher.PyIntOfDecimal | launch.py:49 | Python `int()` reads every decimal numeral, negative ones included, back as its value |
| Launcher.SelectDevice | launch.py:48-52 | The chosen image is always one of the listed ones: the first on a blank or non-numeric answer, otherwise the Python-indexed entry k-1 when it exists and the first when it does not |
| Launcher.SelectByNumber | launch.py:48-52 | Answering k for 1 <= k <= count picks the k-th listed image |
| Launcher.SelectZeroIsLast | launch.py:48-52 | Answering 0 picks the last image, through Python's negative indexing |
| Launcher.SelectSeparatorIsFirst | launch.py:48-52 | An answer led by an ASCII separator is not a number to `int()`, so the bare except picks the first image |
| Launcher.BootFlags | launch.py:60-71 | Boot answer 2 gives exactly the no-snapshot flag, 3 exactly the wipe flag, anything else no flag, in both directions |
| Launcher.LaunchArgv | launch.py:62-71 | The emulator command line is the binary, `-avd` and the target, plus the boot flag exactly when the answer is 2 or 3 |
| Launcher.LaunchSequence | launch.py:24-78 | The devices probe comes first; the run stops exactly when an emulator is running, the list tool is missing or no image is listed; it raises exactly when the listing fails otherwise, or once prompted the boot read, the spawn or the wait raises; a launch spawns the image chosen by the device answer with the boot answer's flag, then waits for the device |
| Launcher.LaunchReached | launch.py:40-78 | With no emulator running, images listed, the device prompt answered k and the boot prompt answered, the k-th image is launched with that boot mode |
| Launcher.RunBuildTask | launch.py:80-95 | A clean install runs uninstall before install; the outcome is success, failure or crash exactly according to the install step alone |
| Launcher.UninstallIrrelevant | launch.py:83-95 | The uninstall step's result never changes the build outcome |
| Launcher.Dispatch | launch.py:114-124 | Each of q, 1, 2, 3, 4 selects its own command, in both directions, and every other token is ignored |
| Launcher.MenuTokens | launch.py:109-123 | Input is stripped and lower-cased before dispatch, so " Q " quits while "quit" is ignored |
| Launcher.MenuStep | launch.py:108-112 | End of input or an interrupt quits; a line is dispatched on its stripped lower-case token |
| Launcher.MenuLoopActions | launch.py:97-124 | Reference loop over the commands read: the actions are the non-ignored commands before the first quit, in order |
| Launcher.MenuLoopIgnoresLater | launch.py:97-124 | Reference loop: commands after a quit have no effect |
| Launcher.CommandStep | launch.py:80-124 | A build raises exactly when its install call does, the adb restart exactly when either call does, q and unknown lines never; only a launch that prompts consumes further reads, exactly two |
| Launcher.StepMatchesOperations | launch.py:24-95 | The menu's view of a launch raises exactly when the launch sequence, fed the next two reads, ends crashed, and a build's exactly when the build task crashes |
| Launcher.MenuSession | launch.py:97-124 | Only actions are recorded, never more than the reads; the script crashes only after starting an action, and runs out of input only when the input closed |
| Launcher.MenuSessionIgnoresLater | launch.py:97-124 | A session that stopped, by q, closed input or an exception, before reading past its input is unchanged by more input |
| Launcher.QuietSessionIsMenuLoop | launch.py:97-124 | With an emulator up and the install and adb calls never raising, the session performs exactly the reference loop's actions and never crashes |
| Launcher.LaunchConsumesPrompts | launch.py:48-60 | A launch that prompts and succeeds takes the next two reads as its device and boot answers; the menu resumes after them |
| Launcher.LaunchThenQuit | launch.py:97-124 | Reads 2, 1, 1, q with no emulator running and images listed: one launch, then the script quits |
| Launcher.MenuStopsAtEof | launch.py:110-112 | Reaching end of input or an interrupt at the prompt performs no action |
| Launcher.StartupDecision | launch.py:127-130 | With an emulator already running the menu opens directly; otherwise it launches first exactly for the answer "y" in any case, and an end of input at the prompt crashes |
| Launcher.StartupAnswers | launch.py:129 | "Y" launches, while " y" and "yes" do not, since that answer is lower-cased but not stripped |
| Launcher.ScriptRun | launch.py:126-132 | The script crashes with nothing done exactly when the startup question is asked and its read fails; a yes starts with a launch; with an emulator running the script is the menu session |
| Clock.IsSameDay | app/src/main/java/com/example/tasks/ui/components/CalendarStrip.kt:194-197 | Two instants are on the same day exactly when they have the same day key |
| Clock.SameDayEquivalence | app/src/main/java/com/example/tasks/ui/components/CalendarStrip.kt:194-197 | Being on the same day is reflexive, symmetric and transitive |
| Clock.MakeTime | app/src/main/java/com/example/tasks/ui/DateTimePickerBottomSheet.kt:174-213 | An instant built from a day, hour, minute and sub-minute part reads back as exactly those parts |
| ViewModel.FilteredTasks | app/src/main/java/com/example/tasks/ui/TasksViewModel.kt:23-34 | Workspace -1 shows every task; any other id shows the filter of all tasks by that workspace, so the same tasks in the same order with the same multiplicity |
| ViewModel.InsertTask | app/src/main/java/com/example/tasks/ui/TasksViewModel.kt:44 | Inserting with replace-on-conflict stores the task under a non-zero id: a fresh id for an unsaved task, its own id otherwise; nothing else changes |
| ViewModel.UpdateTask | app/src/main/java/com/example/tasks/ui/TasksViewModel.kt:48 | An update replaces a stored task with the same id and changes nothing else |
| ViewModel.InsertItem | app/src/main/java/com/example/tasks/ui/TasksViewModel.kt:69 | A checklist item is stored under a non-zero id, fresh for an unsaved item; no task and no other item changes |
| ViewModel.UpdateItem | app/src/main/java/com/example/tasks/ui/TasksViewModel.kt:78 | An update replaces a stored item with the same id and changes nothing else |
| ViewModel.UpdateTaskStatus | app/src/main/java/com/example/tasks/ui/TasksViewModel.kt:90 | Only the completion flag of the given task changes |
| ViewModel.CheckTaskCompletion | app/src/main/java/com/example/tasks/ui/TasksViewModel.kt:86-95 | A task becomes completed when its non-empty checklist is all done; a task is never un-completed and no other task changes |
| ViewModel.CheckTaskCompletionIdempotent | app/src/main/java/com/example/tasks/ui/TasksViewModel.kt:86-95 | Running the completion check twice gives the same store as running it once |
| ViewModel.ToggleChecklistItem | app/src/main/java/com/example/tasks/ui/TasksViewModel.kt:76-84 | Only the toggled item's done flag flips; unchecking never touches tasks, and checking can only complete that item's own task |
| ViewModel.ToggleTwice | app/src/main/java/com/example/tasks/ui/TasksViewModel.kt:76-84 | Toggling an item and then toggling it back restores every checklist item |
| ViewModel.CheckingLastItemCompletes | app/src/main/java/com/example/tasks/ui/TasksViewModel.kt:76-95 | Checking the last open item of a task completes that task |
| ViewModel.InsertItems | app/src/main/java/com/example/tasks/ui/TasksViewModel.kt:97-102 | Every submitted item is stored under the task; saved items keep their ids, unsaved ones get ids at or above the next free id, and untouched items stay as they were |
| ViewModel.InsertNewItems | app/src/main/java/com/example/tasks/ui/TasksViewModel.kt:97-102 | The i-th unsaved item gets the id next-free + i, never used before, and is stored as submitted, re-tagged to the task; the next free id rises by their number |
| ViewModel.InsertNewIdsIncrease | app/src/main/java/com/example/tasks/ui/TasksViewModel.kt:97-102 | Unsaved items receive strictly increasing, hence distinct, ids |
| ViewModel.InsertTaskWithChecklist | app/src/main/java/com/example/tasks/ui/TasksViewModel.kt:97-102 | The task is stored under its returned id, and every item added or changed belongs to that task |
| ViewModel.NewChecklistAttached | app/src/main/java/com/example/tasks/ui/TasksViewModel.kt:97-102 | A new task saved with n unsaved items has at least n items attached, each a copy of one submitted item |
| ViewModel.PlanSync | app/src/main/java/com/example/tasks/ui/TasksViewModel.kt:116-119 | The edited checklist splits, as a permutation, into unsaved and saved items; exactly the stored items missing from it are deleted, and nothing that is kept is deleted |
| ViewModel.UpdateItems | app/src/main/java/com/example/tasks/ui/TasksViewModel.kt:124-126 | Stored items named in the list take a submitted value, the rest are unchanged, and no id is added or removed |
| ViewModel.ApplySync | app/src/main/java/com/example/tasks/ui/TasksViewModel.kt:121-129 | Deleted ids are gone, submitted stored items take a submitted value, untouched items survive, and any item not stored before belongs to the task |
| ViewModel.ApplySyncInsertsNew | app/src/main/java/com/example/tasks/ui/TasksViewModel.kt:121-123 | The sync stores the i-th unsaved item under next-free + i, re-tagged with the task, unless an update names that id; the next free id rises by their number |
| ViewModel.UpdateTaskWithChecklist | app/src/main/java/com/example/tasks/ui/TasksViewModel.kt:104-132 | The edited task is stored with its own fields and is completed exactly when the edit marked it so or its saved checklist is non-empty and all done; other tasks are unchanged; items the edit dropped are deleted, named stored items take a submitted value, other items survive, and any new item belongs to the task; UpdateInsertsNewItems gives where the unsaved lines go |
| ViewModel.UpdateInsertsNewItems | app/src/main/java/com/example/tasks/ui/TasksViewModel.kt:104-123 | Saving an edit inserts each unsaved checklist line under the next fresh id, in order, re-tagged with the task, unless the list also names that id; the next free id rises by their number |
| ViewModel.SaveUnchangedChecklist | app/src/main/java/com/example/tasks/ui/TasksViewModel.kt:104-132 | Saving an edit with the checklist exactly as stored leaves every checklist item unchanged |
| Timeline.Partition | app/src/main/java/com/example/tasks/ui/TimelineView.kt:87-89 | Tasks split, as a permutation, into dated ones (deadline not 0) and unplanned ones (deadline 0) |
| Timeline.SortByDeadline | app/src/main/java/com/example/tasks/ui/TimelineView.kt:91-96 | The dated tasks are ordered by deadline and are a permutation of the input |
| Timeline.SortStable | app/src/main/java/com/example/tasks/ui/TimelineView.kt:91-96 | The sort is stable: tasks sharing a deadline keep their relative order |
| Timeline.GroupingCorrect | app/src/main/java/com/example/tasks/ui/TimelineView.kt:91-96 | Each day's group holds exactly that day's tasks, with multiplicity, ordered by deadline |
| Timeline.Earliest | app/src/main/java/com/example/tasks/ui/TimelineView.kt:103 | The earliest deadline is a lower bound attained by some task, or now without tasks |
| Timeline.Latest | app/src/main/java/com/example/tasks/ui/TimelineView.kt:104 | The latest deadline is an upper bound attained by some task, or now without tasks |
| Timeline.TimelineSpan | app/src/main/java/com/example/tasks/ui/TimelineView.kt:106-120 | The span covers every deadline, starts no later than a month ago and ends no earlier than 15 days from now |
| Timeline.DateList | app/src/main/java/com/example/tasks/ui/TimelineView.kt:122-144 | The timeline's days are exactly the consecutive day keys from the span's first to its last day |
| Timeline.DayRangeMembers | app/src/main/java/com/example/tasks/ui/TimelineView.kt:140-143 | A day is listed exactly when it lies between the first and last day |
| Timeline.DatesCover | app/src/main/java/com/example/tasks/ui/TimelineView.kt:106-144 | Every dated task's day, today, and the next 15 days appear among the timeline's days |
| Timeline.DayItemsSize | app/src/main/java/com/example/tasks/ui/TimelineView.kt:191-219 | A day contributes a header first, a summary only on today, then one row per task of that day |
| Timeline.DayRow | app/src/main/java/com/example/tasks/ui/TimelineView.kt:191-219 | The j-th task of a day sits right after the header and, on today, the summary |
| Timeline.LayoutConcat | app/src/main/java/com/example/tasks/ui/TimelineView.kt:191-242 | The timeline built from two runs of days is the concatenation of the two timelines |
| Timeline.HeaderPosition | app/src/main/java/com/example/tasks/ui/TimelineView.kt:191-242 | Day k's header sits right after the items of all earlier days |
| Timeline.RowPosition | app/src/main/java/com/example/tasks/ui/TimelineView.kt:191-242 | The j-th task of day k sits at its computed position in the whole timeline |
| Timeline.FullLayout | app/src/main/java/com/example/tasks/ui/TimelineView.kt:245-280 | The dated timeline is a prefix of the full list, and without unplanned tasks it is the whole list |
| Timeline.Summarize | app/src/main/java/com/example/tasks/ui/TimelineView.kt:205-217 | The cards show exactly the number of open tasks due today, of overdue tasks among all tasks, and of open unplanned tasks, each as the size of a filter |
| Timeline.OpenCountIsCount | app/src/main/java/com/example/tasks/ui/TimelineView.kt:208-213 | Counting open tasks one by one gives the size of their filter |
| Timeline.OverdueCountIsCount | app/src/main/java/com/example/tasks/ui/TimelineView.kt:207 | Counting overdue tasks one by one gives the size of their filter |
| Timeline.OverdueOnlyPlanned | app/src/main/java/com/example/tasks/ui/TimelineView.kt:207-212 | Only dated tasks can be overdue |
| Timeline.OpenSplit | app/src/main/java/com/example/tasks/ui/TimelineView.kt:207-212 | Overdue and unplanned-open tasks together never exceed the open tasks |
| Timeline.IndexForDate | app/src/main/java/com/example/tasks/ui/TimelineView.kt:334-356 | The scroll index is the number of items before the date's first occurrence, and when the date is shown the item there is its header |
| Timeline.IndexForTaskId | app/src/main/java/com/example/tasks/ui/TimelineView.kt:358-381 | The index is -1 exactly when no shown day holds the task; otherwise the item there is the task's row, on the first day holding it |
| Timeline.IndexOfTask | app/src/main/java/com/example/tasks/ui/TimelineView.kt:367 | The index of the first entry with the id, or -1 exactly when none has it |
| TaskEditor.InitialDeadline | app/src/main/java/com/example/tasks/ui/NewTaskBottomSheet.kt:80-88 | Editing shows the task's deadline, with 0 shown as no date; a new task shows the date it was opened for |
| TaskEditor.DeadlineRoundTrip | app/src/main/java/com/example/tasks/ui/NewTaskBottomSheet.kt:80-88 | Opening a task and saving without touching the date keeps its deadline, 0 included |
| TaskEditor.DateRoundTrip | app/src/main/java/com/example/tasks/ui/NewTaskBottomSheet.kt:158 | Any date other than 0 survives a save and a reopen |
| TaskEditor.FindWorkspace | app/src/main/java/com/example/tasks/ui/NewTaskBottomSheet.kt:91-96 | The preselected workspace is a listed one with the wanted id, and is missing exactly when no listed workspace has it |
| TaskEditor.Preselect | app/src/main/java/com/example/tasks/ui/NewTaskBottomSheet.kt:91-96 | The task's own workspace wins over the one the sheet was opened with |
| TaskEditor.OpenSheet | app/src/main/java/com/example/tasks/ui/NewTaskBottomSheet.kt:78-109 | The sheet opens on the task's title, priority and deadline, or empty for a new task, with the given checklist; the workspace is the listed one whose id is the task's workspace id, else the initial id, and there is none exactly when that id is missing, -1 or not listed |
| TaskEditor.OpenScreen | app/src/main/java/com/example/tasks/ui/NewTaskScreen.kt:90-109 | The full screen opens on the edited task, else on a restored draft, else empty |
| TaskEditor.SaveSheet | app/src/main/java/com/example/tasks/ui/NewTaskBottomSheet.kt:155-162 | A blank title saves nothing; otherwise the payload carries the form, with no date saved as 0 |
| TaskEditor.SaveScreen | app/src/main/java/com/example/tasks/ui/NewTaskScreen.kt:133-140 | A blank title saves nothing; otherwise no date is saved as the current time |
| TaskEditor.SheetEditUntouched | app/src/main/java/com/example/tasks/ui/NewTaskBottomSheet.kt:78-162 | Opening a task in the sheet and saving at once gives back its title, priority and deadline |
| TaskEditor.ScreenEditKeepsDeadline | app/src/main/java/com/example/tasks/ui/NewTaskScreen.kt:90-140 | The full screen keeps an edited task's deadline, even a deadline of 0 |
| TaskEditor.ScreenNewTaskDefaultsToNow | app/src/main/java/com/example/tasks/ui/NewTaskScreen.kt:133-140 | A new task with no date chosen is saved for now |
| TaskEditor.ClearDate | app/src/main/java/com/example/tasks/ui/NewTaskBottomSheet.kt:223 | Clearing the date removes the selection and changes nothing else |
| TaskEditor.PickDate | app/src/main/java/com/example/tasks/ui/NewTaskBottomSheet.kt:306 | The picker's result replaces the selection and nothing else |
| TaskEditor.ToggleAt | app/src/main/java/com/example/tasks/ui/NewTaskBottomSheet.kt:247-249 | Only item i's done flag flips |
| TaskEditor.ToggleAtInvolution | app/src/main/java/com/example/tasks/ui/NewTaskBottomSheet.kt:247-249 | Toggling the same item twice restores the list |
| TaskEditor.RemoveAt | app/src/main/java/com/example/tasks/ui/NewTaskBottomSheet.kt:255 | Removing item i keeps the others in order |
| TaskEditor.AddItem | app/src/main/java/com/example/tasks/ui/NewTaskBottomSheet.kt:339-341 | A new line is appended unsaved and not done, after the existing ones |
| TaskEditor.AddThenRemove | app/src/main/java/com/example/tasks/ui/NewTaskBottomSheet.kt:339-341 | Removing the line just added gives back the list |
| TaskEditor.ScreenItemTaskId | app/src/main/java/com/example/tasks/ui/NewTaskScreen.kt:400-402 | The full screen tags new lines with the edited task's id, else 0 |
| TaskEditor.PriorityLabel | app/src/main/java/com/example/tasks/ui/NewTaskBottomSheet.kt:266 | Priorities 0 to 3 have a label, 0 is "Set priority" and the others name their priority |
| TaskEditor.PriorityLabelInjective | app/src/main/java/com/example/tasks/ui/NewTaskBottomSheet.kt:266 | Distinct priorities get distinct labels |
| TaskScreen.TimelineModeOf | app/src/main/java/com/example/tasks/ui/TaskScreen.kt:116 | Only the stored string "COLOR" selects colour mode |
| TaskScreen.ExitSearch | app/src/main/java/com/example/tasks/ui/TaskScreen.kt:146-148 | The back arrow closes search and clears the query |
| TaskScreen.MatchCounter | app/src/main/java/com/example/tasks/ui/TaskScreen.kt:157 | The counter reads 0/0 without matches, else the 1-based position over the count |
| TaskScreen.MatchCounterReadsBack | app/src/main/java/com/example/tasks/ui/TaskScreen.kt:157 | The counter text parses back as the 1-based position and the number of matches |
| TaskScreen.ClearQuery | app/src/main/java/com/example/tasks/ui/TaskScreen.kt:167 | The clear button empties the query and keeps search open or closed |
| TaskScreen.EnterSearch | app/src/main/java/com/example/tasks/ui/TaskScreen.kt:201 | The search icon opens search with the current query |
| TaskScreen.ChecklistForEdit | app/src/main/java/com/example/tasks/ui/TaskScreen.kt:261-263 | Editing hands over the checklist of the first entry with the task's id, or none |
| TaskScreen.AddAtDate | app/src/main/java/com/example/tasks/ui/TaskScreen.kt:265-268 | Day 0 (the unplanned section) opens the editor without a date, any other day with that date |
| TaskScreen.AddAtDateRoundTrip | app/src/main/java/com/example/tasks/ui/TaskScreen.kt:265-268 | Saving straight away stores the tapped day's date, 0 included |
| TaskScreen.ScrollTarget | app/src/main/java/com/example/tasks/ui/TaskScreen.kt:269 | The timeline scrolls to the current match exactly when searching with matches |
| TaskScreen.VisibleWorkspaces | app/src/main/java/com/example/tasks/ui/TaskScreen.kt:285 | The grid shows exactly the archived or exactly the active workspaces, per the toggle, in list order and with their multiplicity, as the filter of the list by that state |
| TaskScreen.ArchiveTogglePartition | app/src/main/java/com/example/tasks/ui/TaskScreen.kt:285 | The two toggle states together show every workspace exactly once |
| TaskScreen.WorkspaceStats | app/src/main/java/com/example/tasks/ui/TaskScreen.kt:288-290 | A card's total is the number of tasks in the workspace and its completed count the number of those that are completed, as filters over all tasks; zero exactly when none is there, and equal exactly when all are done |
| TaskScreen.StatsMatchFilter | app/src/main/java/com/example/tasks/ui/TaskScreen.kt:288-290 | A card's total equals the size of the task list the view model shows for that workspace |
| DatePicker.OpenSheet | app/src/main/java/com/example/tasks/ui/DateTimePickerBottomSheet.kt:58 | The sheet opens on the date it was given |
| DatePicker.Tomorrow | app/src/main/java/com/example/tasks/ui/DateTimePickerBottomSheet.kt:101-107 | Tomorrow is the next day at the same time, on the following weekday |
| DatePicker.NextWeek | app/src/main/java/com/example/tasks/ui/DateTimePickerBottomSheet.kt:111-118 | Next week is the first Monday strictly after today, between 1 and 7 days ahead, at the same time of day |
| DatePicker.MondayWeek | app/src/main/java/com/example/tasks/ui/DateTimePickerBottomSheet.kt:111-118 | No other Monday falls within the six days after a Monday |
| DatePicker.CustomDate | app/src/main/java/com/example/tasks/ui/DateTimePickerBottomSheet.kt:174-186 | The picked day keeps the hour and minute of the current selection, or of now |
| DatePicker.CustomTime | app/src/main/java/com/example/tasks/ui/DateTimePickerBottomSheet.kt:198-213 | The chosen hour and minute on the selection's day, or today |
| DatePicker.CustomTimeUnchanged | app/src/main/java/com/example/tasks/ui/DateTimePickerBottomSheet.kt:198-213 | Confirming the time the dialog opened with changes nothing |
| DatePicker.DateThenTime | app/src/main/java/com/example/tasks/ui/DateTimePickerBottomSheet.kt:174-213 | Choosing a day and then a time yields exactly that day at that time |
| DatePicker.Step | app/src/main/java/com/example/tasks/ui/DateTimePickerBottomSheet.kt:58-213 | Select hands back the selection and Cancel nothing; today picks now, tomorrow the next day and next week the coming Monday at now's time of day; no date clears the selection; the custom date replaces the day and the custom time the hour and minute |
| DatePicker.NextMondayFacts | app/src/main/java/com/example/tasks/ui/DateTimePickerBottomSheet.kt:110-117 | The next-week shortcut lands on a Monday within the coming seven days, after today, at now's time of day |
| DatePicker.SelectImmediately | app/src/main/java/com/example/tasks/ui/DateTimePickerBottomSheet.kt:161-163 | Opening and selecting at once hands back the initial date unchanged |
| HabitForm.InitValid | app/src/main/java/com/example/tasks/ui/components/AddHabitSheet.kt:41-57 | The form's starting state satisfies the form invariant |
| HabitForm.Step | app/src/main/java/com/example/tasks/ui/components/AddHabitSheet.kt:157-244 | Every control keeps the invariant; the target never drops below 1, the weekly goal stays within 1 to 7, and a day tap toggles only that day |
| HabitForm.StepSetsField | app/src/main/java/com/example/tasks/ui/components/AddHabitSheet.kt:110-320 | Each remaining control sets its own field: name, description, unit (only with a target above 1), interval (only for repeat intervals), reminder switch and time (only while on), priority, icon and colour chips |
| HabitForm.StepTextFrame | app/src/main/java/com/example/tasks/ui/components/AddHabitSheet.kt:110-270 | Editing a text field or the reminder switch changes that field and nothing else |
| HabitForm.StepStepperFrame | app/src/main/java/com/example/tasks/ui/components/AddHabitSheet.kt:157-244 | A stepper changes its own number and nothing else, and nothing at all when its row is hidden |
| HabitForm.StepChoiceFrame | app/src/main/java/com/example/tasks/ui/components/AddHabitSheet.kt:180-320 | A chip changes its own choice and nothing else; a day chip does nothing unless specific days are chosen |
| HabitForm.Run | app/src/main/java/com/example/tasks/ui/components/AddHabitSheet.kt:41-244 | Any sequence of edits keeps the form invariant |
| HabitForm.TargetUpDown | app/src/main/java/com/example/tasks/ui/components/AddHabitSheet.kt:157-171 | Raising then lowering the target gets back to where it was |
| HabitForm.ToggleDayTwice | app/src/main/java/com/example/tasks/ui/components/AddHabitSheet.kt:221-230 | Tapping a day twice restores the chosen days |
| HabitForm.Save | app/src/main/java/com/example/tasks/ui/components/AddHabitSheet.kt:327-351 | A blank name saves nothing; otherwise the payload carries the form, with unit, reminder time and description only when they apply, and the colour as a negative 32-bit ARGB value |
| HabitForm.DaysRoundTrip | app/src/main/java/com/example/tasks/ui/components/AddHabitSheet.kt:338 | The comma-joined day string parses back as the days in tap order |
| HabitForm.SavedDaysReadBack | app/src/main/java/com/example/tasks/ui/components/AddHabitSheet.kt:327-351 | The saved day string reads back as the chosen days |
| HabitStats.Percent | app/src/main/java/com/example/tasks/ui/HabitDashboard.kt:78 | Kotlin integer percentage: the floor of part*100/total, within 0 to 100, and 0 for an empty whole |
| HabitStats.PercentMonotone | app/src/main/java/com/example/tasks/ui/HabitDashboard.kt:78 | A larger share never yields a smaller percentage |
| HabitStats.CompletionRate | app/src/main/java/com/example/tasks/ui/HabitDashboard.kt:77-78 | The completion rate is the floor of the percentage of habits completed today |
| HabitStats.CompletionRateExtremes | app/src/main/java/com/example/tasks/ui/HabitDashboard.kt:77-78 | All habits done gives 100 and none done gives 0 |
| HabitStats.BestStreak | app/src/main/java/com/example/tasks/ui/HabitDashboard.kt:79 | The best streak is the maximum streak, attained by some habit, or 0 without habits |
| HabitStats.BestStreakOrderFree | app/src/main/java/com/example/tasks/ui/HabitDashboard.kt:79 | The best streak does not depend on the order of the habits |
| HabitStats.HabitColor | app/src/main/java/com/example/tasks/data/Habit.kt:26 | The stored colour's low 32 bits read as a signed ARGB value |
| HabitStats.SavedColorShown | app/src/main/java/com/example/tasks/data/Habit.kt:26 | A colour saved by the habit form is shown as saved |
| HabitStats.StreakCards | app/src/main/java/com/example/tasks/ui/HabitDashboard.kt:63-70 | One card per habit, in order, with its name, streak and colour |
| HabitStats.BestStreakOnACard | app/src/main/java/com/example/tasks/ui/HabitDashboard.kt:63-79 | The header's best streak is shown on some card and no card shows more |
| HabitStats.EffectiveProgress | app/src/main/java/com/example/tasks/ui/components/HabitDetailBottomSheet.kt:31-32 | Progress counts only on the day it was recorded |
| HabitStats.DetailControls | app/src/main/java/com/example/tasks/ui/components/HabitDetailBottomSheet.kt:129-213 | A target above 1 gets a minus/plus counter with Goal Met once done; any other habit gets one toggle whose caption says whether it is done |
| HabitStats.WeekCircles | app/src/main/java/com/example/tasks/ui/components/HabitDetailBottomSheet.kt:118-119 | Seven circles, the sixth showing completion today |
| Courses.AttendanceOf | app/src/main/java/com/example/tasks/ui/CoursesScreen.kt:57-58 | Held classes are the non-cancelled records, and attended ones never exceed them |
| Courses.AttendanceAppend | app/src/main/java/com/example/tasks/ui/CoursesScreen.kt:57-58 | One more record adds one held class unless cancelled, and one attended class exactly when present |
| Courses.Percentage | app/src/main/java/com/example/tasks/ui/CoursesScreen.kt:59 | Attendance is within 0 to 100, and 100 or 0 exactly when all or none of the held classes were attended |
| Courses.CoursesScreen | app/src/main/java/com/example/tasks/ui/CoursesScreen.kt:37-47 | No courses shows the empty message; otherwise one card per course, keyed by its id |
| Courses.CardKeysDistinct | app/src/main/java/com/example/tasks/ui/CoursesScreen.kt:37-47 | Distinct course ids give distinct card keys |
| Courses.DayName | app/src/main/java/com/example/tasks/ui/components/AddCourseSheet.kt:101-103 | Each day of the week gets its three-letter name from the Sunday-first table, and any other number reads Sun |
| Courses.DayNameInjective | app/src/main/java/com/example/tasks/ui/components/AddCourseSheet.kt:101-103 | Distinct days of the week get distinct names |
| Courses.ScheduleText | app/src/main/java/com/example/tasks/ui/components/AddCourseSheet.kt:101-112 | A class line reads, at fixed offsets, as the day name, a space, the start time, " - " and the end time |
| Courses.OpenDialog | app/src/main/java/com/example/tasks/ui/components/AddCourseSheet.kt:152-154 | The class dialog opens on Monday, 09:00 to 10:00 |
| Courses.DialogStep | app/src/main/java/com/example/tasks/ui/components/AddCourseSheet.kt:165 | Choosing a day changes only the day, and the day stays a weekday |
| Courses.Confirm | app/src/main/java/com/example/tasks/ui/components/AddCourseSheet.kt:194 | The confirmed class has the dialog's day and times |
| Courses.OpenSheet | app/src/main/java/com/example/tasks/ui/components/AddCourseSheet.kt:30-34 | The course sheet opens empty, with the first colour |
| Courses.RemoveFirst | app/src/main/java/com/example/tasks/ui/components/AddCourseSheet.kt:112 | Removing a class drops its first occurrence only |
| Courses.RemoveFirstMultiset | app/src/main/java/com/example/tasks/ui/components/AddCourseSheet.kt:112 | Removing a class removes exactly one copy of it |
| Courses.AddThenRemove | app/src/main/java/com/example/tasks/ui/components/AddCourseSheet.kt:112-139 | Removing a class just added gives back the classes |
| Courses.Step | app/src/main/java/com/example/tasks/ui/components/AddCourseSheet.kt:112-139 | Adding appends the confirmed class, removing drops one, and other edits keep the classes |
| Courses.Save | app/src/main/java/com/example/tasks/ui/components/AddCourseSheet.kt:122-125 | A blank name saves nothing; otherwise the payload carries the form, with the colour as a negative 32-bit ARGB value |
| Courses.SavedClassesAreWeekdays | app/src/main/java/com/example/tasks/ui/components/AddCourseSheet.kt:30-194 | Every class a sheet can save falls on Monday to Friday |
| WorkspaceSheet.Open | app/src/main/java/com/example/tasks/ui/WorkspaceSelectionBottomSheet.kt:59-60 | The sheet opens on the list with an empty name |
| WorkspaceSheet.Title | app/src/main/java/com/example/tasks/ui/WorkspaceSelectionBottomSheet.kt:76 | The title names the mode, in both directions |
| WorkspaceSheet.PaletteColor | app/src/main/java/com/example/tasks/ui/WorkspaceSelectionBottomSheet.kt:83-100 | Palette entries are stored as negative signed ARGB values of the palette |
| WorkspaceSheet.ListRows | app/src/main/java/com/example/tasks/ui/WorkspaceSelectionBottomSheet.kt:167-192 | The list shows No Workspace first, then each workspace in order |
| WorkspaceSheet.ListRowsCover | app/src/main/java/com/example/tasks/ui/WorkspaceSelectionBottomSheet.kt:167-192 | Every row is No Workspace or a workspace, and every workspace has a row |
| WorkspaceSheet.Step | app/src/main/java/com/example/tasks/ui/WorkspaceSelectionBottomSheet.kt:105-209 | Create with a non-blank name reports it with its colour and returns to an empty list; Cancel returns to the list keeping the name; opening the form and picking a chip set that palette colour; the name field works only in the form; selections come only from the list |
| WorkspaceSheet.CreatedAreWellFormed | app/src/main/java/com/example/tasks/ui/WorkspaceSelectionBottomSheet.kt:105-209 | Every workspace the sheet asks to create has a non-blank name and a palette colour |
| WorkspaceSheet.CreateRoundTrip | app/src/main/java/com/example/tasks/ui/WorkspaceSelectionBottomSheet.kt:150-155 | Naming a workspace and creating it reports exactly that name and the picked colour |
| CalendarStrip.WeekOffset | app/src/main/java/com/example/tasks/ui/components/CalendarStrip.kt:51-53 | Only the middle page shows the current week |
| CalendarStrip.WeekStart | app/src/main/java/com/example/tasks/ui/components/CalendarStrip.kt:120-128 | The week start is the latest first-day-of-week on or before today, at the same time of day |
| CalendarStrip.WeekDates | app/src/main/java/com/example/tasks/ui/components/CalendarStrip.kt:120-128 | A page shows seven consecutive days from its week's start |
| CalendarStrip.WeekDatesConsecutive | app/src/main/java/com/example/tasks/ui/components/CalendarStrip.kt:120-128 | A page starts on the locale's first day of the week and its days follow one another |
| CalendarStrip.NextPageIsNextWeek | app/src/main/java/com/example/tasks/ui/components/CalendarStrip.kt:120-128 | Swiping one page shows each column a week later |
| CalendarStrip.InitialPageShowsToday | app/src/main/java/com/example/tasks/ui/components/CalendarStrip.kt:120-128 | The initial page shows today exactly once |
| CalendarStrip.HeaderOnPage | app/src/main/java/com/example/tasks/ui/components/CalendarStrip.kt:64-68 | The month header's date is the page's date in today's column |
| CalendarStrip.ColumnLetterMismatch | app/src/main/java/com/example/tasks/ui/components/CalendarStrip.kt:135-142 | With Monday as first day, the first column shows a Monday under S |
| CalendarStrip.ColumnLetter | app/src/main/java/com/example/tasks/ui/components/CalendarStrip.kt:135-142 | Corrected: column i is labelled with the list's letter i places after the locale's first day, which is the initial of the day it shows |
| CalendarStrip.ColumnDayOfWeek | app/src/main/java/com/example/tasks/ui/components/CalendarStrip.kt:120-128 | Column i of any page shows the day of the week i days after the locale's first day |
| CalendarStrip.WeekdayLetter | app/src/main/java/com/example/tasks/ui/components/CalendarStrip.kt:139 | A day's initial, by name, is the Sunday-first letter list at that day |
| CalendarStrip.ColumnLetterSundayFirst | app/src/main/java/com/example/tasks/ui/components/CalendarStrip.kt:135-142 | For Sunday-first weeks the corrected labels are the written ones |
| CalendarStrip.DayCell | app/src/main/java/com/example/tasks/ui/components/CalendarStrip.kt:137-149 | A cell carries the letter at its position in the Sunday-first list, is selected or today exactly by day, and has a dot exactly when today and unselected |
| CalendarStrip.Init | app/src/main/java/com/example/tasks/ui/components/CalendarStrip.kt:56 | The strip starts on today with the picker closed |
| CalendarStrip.Step | app/src/main/java/com/example/tasks/ui/components/CalendarStrip.kt:76-186 | Corrected: tapping a cell selects its date, a picked date is selected at the current time of day, opening the sheet selects nothing, and the reported key is always the selected day |
| CalendarStrip.TapSelectsOnlyThatCell | app/src/main/java/com/example/tasks/ui/components/CalendarStrip.kt:146-149 | After a tap, the tapped cell is the page's only selected cell |
| CalendarStrip.StepAsWritten | app/src/main/java/com/example/tasks/ui/components/CalendarStrip.kt:60-186 | As written: opening the sheet after a date was picked in it selects that date again, reports it and closes the sheet; otherwise it agrees with the corrected step |
| CalendarStrip.ReopenReplaysPick | app/src/main/java/com/example/tasks/ui/components/CalendarStrip.kt:60-186 | Pick a date, tap a day, reopen the sheet: the old pick is selected and reported again and the sheet is closed |
| CalendarStrip.ReopenShowsPicker | app/src/main/java/com/example/tasks/ui/components/CalendarStrip.kt:60-186 | Corrected, the same events leave the sheet open on the tapped day and report nothing |
| CalendarStrip.OpeningKeepsSelection | app/src/main/java/com/example/tasks/ui/components/CalendarStrip.kt:64-79 | Corrected, opening the sheet reports nothing and keeps the selection |

## Left out

- Process I/O: console prints, emoji messages, `platform.system()` and the SDK path lookup through `ANDROID_HOME`. The launcher is given the platform, the emulator binary's path and each tool's answer as parameters.
- The emulator process started by `Popen` is never waited on. `adb wait-for-device` (launch.py:77) is the last call of the launch sequence. Only whether the spawn and the wait raise is modelled, not exit codes or timing.
- A Ctrl-C while a tool is running is not modelled. End of input and Ctrl-C are modelled only at the script's own prompts.
- Launcher.PyInt: digits are ASCII `0`-`9` only. Python's `int()` also accepts other Unicode decimal digits, such as Arabic-Indic ones, which the model rejects.
- Launcher.SelectDevice: as `Launcher.PyInt` reads ASCII digits only, an answer written in non-ASCII decimal digits selects by number in Python but falls back to the first image in the model.
- Launcher.PyLower: lowers ASCII letters only, where Python's `str.lower()` is Unicode-aware. The answers compared afterwards (`q`, `1` to `4`, `y`) are ASCII, but a non-ASCII capital letter is left unchanged.
- Launcher.MenuLoopActions: states the reference loop, in which every line read is a menu command. In the script a launch reads two more lines and an exception ends the run; that session is `Launcher.MenuSession`, and `Launcher.QuietSessionIsMenuLoop` says when the two agree.
- Launcher.MenuLoopIgnoresLater: about the same reference loop, where a "q" is always a quit. For the script's session the corresponding fact is `Launcher.MenuSessionIgnoresLater`.
- Coroutine interleaving: each view-model operation runs in `viewModelScope.launch` and suspends at every repository call, so two saves or toggles can interleave (a toggle's completion check could read a checklist between a sync's inserts and its deletes). The model takes each view-model call as one atomic step on the store.
- Time zones and daylight saving: every instant is read in one fixed zone, and the several clock reads of one composition are taken as one instant.
- Month names, "MMMM yyyy" headers, day-of-month numbers and other display text: these are formatting only. Month arithmetic (`Calendar.add(MONTH, -1)`) is the parameter `monthAgo` of `Timeline.TimelineSpan`.
- Compose layout, colours derived from floats, progress-bar fractions, animations and pager scrolling: presentation only.
- Courses.Percentage: the attendance percentage is an exact real. The app's `Float` rounding is not modelled.
- The workspace sheet's random initial colour: it is an argument of the event that opens create mode.
- The habit detail sheet's placeholder statistics ("Total Completions", "Success Rate"): they are constants in the app and carry no logic.
- HabitForm.Step: `targetValue++` and `repeatInterval++` on a Kotlin `Int` wrap at 2^31. The model treats both as unbounded, so the lower bounds `targetValue >= 1` and `repeatInterval >= 1` that `HabitForm.Valid` states and `HabitForm.Run` preserves hold only while neither stepper has been raised past 2^31 - 1.
- ViewModel.PlanSync: requires that no stored item id is 0. The store never hands out id 0.
- TaskScreen.ScrollTarget: requires the current match index to lie within the matches. The view model's `navigateNextMatch` and search bookkeeping are not part of this model.
- Room foreign keys, cascading deletes, Flow emission order and the order in which the DAO returns checklist items: the store keeps items in a map keyed by id.
- The draft store (`TaskDraft` persistence) and `TasksRepository`: these are not part of this model. A restored draft is an argument of `TaskEditor.OpenScreen`.
- Duplicate `LazyColumn` keys: the app would crash on them. `Courses.CardKeysDistinct` assumes distinct course ids instead.
- Notifications, settings, preferences storage and the remaining screens (the settings screen, the priority and checklist sheets, the summary and workspace cards) are outside the modelled core.

Where the launcher script and its usual description differ, the model follows the code:

- Answering "0" at the image prompt picks the last image, through Python's negative indexing (`Launcher.SelectZeroIsLast`).
- The launch prompts read from the same input as the menu, so the two lines after a `2` answer the device and boot-mode questions (`Launcher.LaunchConsumesPrompts`).
- End of input at the boot-mode prompt or at the startup prompt is not caught, and the script stops with an exception (`Launcher.StartupDecision`, `Launcher.ScriptRun`). So does a failing `adb` call behind `3`, a failing spawn or wait, and a Gradle call that cannot be started (`Launcher.CommandStep`).
- Only a missing `emulator` binary is caught when listing images. A call to Gradle that raises anything other than a failed-process error ends the script (`Launcher.RunBuildTask`).
- The menu accepts only `q` to quit; "quit" is ignored (`Launcher.MenuTokens`).

## Findings

| source | as written | input that shows it | evidently intended | confidence | as-written member | corrected member |
|---|---|---|---|---|---|---|
| app/src/main/java/com/example/tasks/ui/components/CalendarStrip.kt:135-142 | The weekday letter above each column is chosen by the column's position, from a Sunday-first list, while the columns start on the locale's first day of the week | A locale whose week starts on Monday: the first column shows a Monday under "S" | Each column is labelled with the initial of the weekday it shows | medium, not executed | CalendarStrip.ColumnLetterMismatch | CalendarStrip.ColumnLetter |
| app/src/main/java/com/example/tasks/ui/components/CalendarStrip.kt:60-186 | The picker's state is remembered for the whole strip, outside the sheet, so the effect keyed on its selected date runs again each time the sheet opens | Pick a date in the sheet, tap another day, then tap the header: the old date is selected and reported again and the sheet closes at once | Opening the sheet shows the picker and changes nothing until a new date is chosen | medium, not executed | CalendarStrip.ReopenReplaysPick | CalendarStrip.OpeningKeepsSelection |

=== FILE: calendar_strip.dfy ===
/**
  The week strip above the timeline: a pager of 1000 weeks centred on the
  current one, seven day cells per page, tapping a cell or choosing a date
  in the pull-up picker to select a day, and the day key it reports.
  The current time and the locale's first day of the week are parameters.
*/
module CalendarStrip {
  import opened Common
  import opened Clock

  const TotalPages: int := 1000
  const InitialPage: int := TotalPages / 2

  /** How many weeks a page lies away from the current week. */
  function WeekOffset(page: int): (k: int)
    ensures k == 0 <==> page == InitialPage
  {
    page - InitialPage
  }

  /** How far into its week a day of the week lies, for a given first day. */
  function DaysIntoWeek(w: int, firstDay: int): (n: int)
    ensures 0 <= n < 7
  {
    (w - firstDay + 7) % 7
  }

  /** Going back as many days as a day lies into its week lands on the first day of the week. */
  lemma BackToFirstDay(d: int, firstDay: int)
    requires Sunday <= firstDay <= Saturday
    ensures DayOfWeekOfDay(d - DaysIntoWeek(DayOfWeekOfDay(d), firstDay)) == firstDay
  {
    var n := DaysIntoWeek(DayOfWeekOfDay(d), firstDay);
    assert (d - n + 4) % 7 == ((d + 4) % 7 - n + 7) % 7;
  }

  /** The start of the week containing `now` (same time of day). */
  function WeekStart(now: int, firstDay: int): (t: int)
    requires Sunday <= firstDay <= Saturday
    ensures DayOfWeek(t) == firstDay
    ensures EpochDay(t) <= EpochDay(now) < EpochDay(t) + 7
    ensures EpochDay(now) - EpochDay(t) == DaysIntoWeek(DayOfWeek(now), firstDay)
    ensures TimeOfDay(t) == TimeOfDay(now)
  {
    var n := DaysIntoWeek(DayOfWeek(now), firstDay);
    ShiftDays(now, -n);
    BackToFirstDay(EpochDay(now), firstDay);
    now + (-n) * MsPerDay
  }

  /** The seven dates page `page` shows, from its first day on, all at now's time of day. */
  function WeekDates(now: int, firstDay: int, page: int): (r: seq<int>)
    requires Sunday <= firstDay <= Saturday
    ensures |r| == 7
    ensures forall i :: 0 <= i < 7 ==>
      && EpochDay(r[i]) == EpochDay(WeekStart(now, firstDay)) + 7 * WeekOffset(page) + i
      && TimeOfDay(r[i]) == TimeOfDay(now)
  {
    var start := WeekStart(now, firstDay);
    var r := seq(7, i requires 0 <= i < 7 => WeekDay(start, 7 * WeekOffset(page) + i));
    assert forall i :: 0 <= i < 7 ==> r[i] == WeekDay(start, 7 * WeekOffset(page) + i);
    r
  }

  /** `start` moved by `n` whole days. */
  function WeekDay(start: int, n: int): (t: int)
    ensures EpochDay(t) == EpochDay(start) + n && TimeOfDay(t) == TimeOfDay(start)
  {
    ShiftDays(start, n);
    start + n * MsPerDay
  }

  /** A page's days are consecutive, and its first day is the locale's first day of the week. */
  lemma WeekDatesConsecutive(now: int, firstDay: int, page: int)
    requires Sunday <= firstDay <= Saturday
    ensures DayOfWeek(WeekDates(now, firstDay, page)[0]) == firstDay
    ensures forall i :: 0 <= i < 6 ==> EpochDay(WeekDates(now, firstDay, page)[i + 1]) == EpochDay(WeekDates(now, firstDay, page)[i]) + 1
  {
    var start := WeekStart(now, firstDay);
    WeekLaterSameDay(EpochDay(start), WeekOffset(page));
  }

  /** Swiping one page on shows the same columns exactly a week later. */
  lemma NextPageIsNextWeek(now: int, firstDay: int, page: int, i: int)
    requires Sunday <= firstDay <= Saturday && 0 <= i < 7
    ensures EpochDay(WeekDates(now, firstDay, page + 1)[i]) == EpochDay(WeekDates(now, firstDay, page)[i]) + 7
  {
  }

  /** The initial page shows today exactly once. */
  lemma InitialPageShowsToday(now: int, firstDay: int)
    requires Sunday <= firstDay <= Saturday
    ensures forall i :: 0 <= i < 7 ==> (IsSameDay(WeekDates(now, firstDay, InitialPage)[i], now) <==> i == DaysIntoWeek(DayOfWeek(now), firstDay))
  {
  }

  /**
    The month header's reference instant for a page: now moved by the
    page's week offset. It is the page's date in today's column.
  */
  function HeaderInstant(now: int, page: int): (t: int)
    ensures EpochDay(t) == EpochDay(now) + 7 * WeekOffset(page) && TimeOfDay(t) == TimeOfDay(now)
  {
    WeekDay(now, 7 * WeekOffset(page))
  }

  lemma HeaderOnPage(now: int, firstDay: int, page: int)
    requires Sunday <= firstDay <= Saturday
    ensures HeaderInstant(now, page) == WeekDates(now, firstDay, page)[DaysIntoWeek(DayOfWeek(now), firstDay)]
  {
    var t := HeaderInstant(now, page);
    var u := WeekDates(now, firstDay, page)[DaysIntoWeek(DayOfWeek(now), firstDay)];
    assert t == EpochDay(t) * MsPerDay + TimeOfDay(t);
    assert u == EpochDay(u) * MsPerDay + TimeOfDay(u);
  }

  // ---------------------------------------------------------------------------
  // Column letters

  /** The letters above the columns, written for weeks that start on Sunday. */
  const ColumnLetters: seq<string> := ["S", "M", "T", "W", "T", "F", "S"]

  /** As the strip labels column `i`: by position, whatever day it shows. */
  function ColumnLetterAsWritten(i: int): (s: string)
    requires 0 <= i < 7
    ensures |s| == 1
  {
    ColumnLetters[i]
  }

  /** The initial of a day of the week. */
  function WeekdayLetter(w: int): (s: string)
    requires Sunday <= w <= Saturday
    ensures s == ColumnLetters[w - Sunday]
  {
    match w
    case 1 => "S"
    case 2 => "M"
    case 3 => "T"
    case 4 => "W"
    case 5 => "T"
    case 6 => "F"
    case _ => "S"
  }

  /** With Monday as the first day of the week, the first column shows a Monday under "S". */
  lemma ColumnLetterMismatch(now: int)
    ensures DayOfWeek(WeekDates(now, Monday, InitialPage)[0]) == Monday
    ensures ColumnLetterAsWritten(0) == "S" && WeekdayLetter(Monday) == "M"
  {
    WeekDatesConsecutive(now, Monday, InitialPage);
  }

  /**
    Corrected: column `i` is labelled with the initial of the day it shows,
    which is the list's letter `i` places after the locale's first day.
  */
  function ColumnLetter(now: int, firstDay: int, page: int, i: int): (s: string)
    requires Sunday <= firstDay <= Saturday && 0 <= i < 7
    ensures s == ColumnLetters[(firstDay - Sunday + i) % 7]
  {
    ColumnDayOfWeek(now, firstDay, page, i);
    WeekdayLetter(DayOfWeek(WeekDates(now, firstDay, page)[i]))
  }

  /** Column `i` of any page shows the day of the week `i` days after the first day. */
  lemma {:induction false} ColumnDayOfWeek(now: int, firstDay: int, page: int, i: int)
    requires Sunday <= firstDay <= Saturday && 0 <= i < 7
    ensures DayOfWeek(WeekDates(now, firstDay, page)[i]) == (firstDay - Sunday + i) % 7 + Sunday
  {
    var d0 := EpochDay(WeekDates(now, firstDay, page)[0]);
    WeekDatesConsecutive(now, firstDay, page);
    assert EpochDay(WeekDates(now, firstDay, page)[i]) == d0 + i;
    assert DayOfWeekOfDay(d0) == firstDay;
    ModSevenShift(d0 + 4, i);
  }

  lemma ModSevenShift(x: int, i: int)
    ensures (x + i) % 7 == (x % 7 + i) % 7
  {
  }

  /** For weeks starting on Sunday the corrected labels are the written ones. */
  lemma ColumnLetterSundayFirst(now: int, page: int, i: int)
    requires 0 <= i < 7
    ensures ColumnLetter(now, Sunday, page, i) == ColumnLetterAsWritten(i)
  {
  }

  // ---------------------------------------------------------------------------
  // Selection

  /**
    How a day cell is drawn: its letter (by position, as written), selected,
    today, and the small dot for an unselected today.
  */
  datatype Cell = Cell(letter: string, isSelected: bool, isToday: bool, dot: bool)

  function DayCell(now: int, firstDay: int, page: int, i: int, selected: int): (c: Cell)
    requires Sunday <= firstDay <= Saturday && 0 <= i < 7
    ensures c.isSelected <==> EpochDay(WeekDates(now, firstDay, page)[i]) == EpochDay(selected)
    ensures c.isToday <==> EpochDay(WeekDates(now, firstDay, page)[i]) == EpochDay(now)
    ensures c.dot <==> c.isToday && !c.isSelected
    ensures c.letter == ColumnLetters[i]
  {
    var date := WeekDates(now, firstDay, page)[i];
    var sel := IsSameDay(date, selected);
    var today := IsSameDay(date, now);
    Cell(ColumnLetterAsWritten(i), sel, today, today && !sel)
  }

  /** The strip's state: the selected date, and whether the pull-up picker is open. */
  datatype Strip = Strip(selected: int, pickerOpen: bool)

  /** The strip starts with now selected and the picker closed. */
  function Init(now: int): (s: Strip)
    ensures IsSameDay(s.selected, now) && !s.pickerOpen
  {
    Strip(now, false)
  }

  datatype Event =
    | Drag(amount: real)
    | TapHeader
    | TapDay(page: int, index: int)
    | PickerChose(millis: int)
    | PickerDismissed

  /** An upward drag of more than 10 units opens the picker. */
  predicate SwipedUp(amount: real) {
    amount < -10.0
  }

  /**
    One event. Tapping a cell selects its date and reports its day key.
    A date chosen in the picker (a UTC midnight) is selected at the
    current time of day, reported as its day key, and closes the picker.
  */
  function Step(s: Strip, now: int, firstDay: int, e: Event): (r: (Strip, Option<int>))
    requires Sunday <= firstDay <= Saturday
    requires e.TapDay? ==> 0 <= e.index < 7
    ensures r.1.Some? ==> r.1.value == EpochDay(r.0.selected)
    ensures r.1.Some? <==> e.TapDay? || (e.PickerChose? && s.pickerOpen)
    ensures e.TapDay? ==> r.0.selected == WeekDates(now, firstDay, e.page)[e.index]
    ensures e.PickerChose? && s.pickerOpen ==> EpochDay(r.0.selected) == EpochDay(e.millis) && TimeOfDay(r.0.selected) == TimeOfDay(now) && !r.0.pickerOpen
    ensures r.1.None? ==> r.0.selected == s.selected
    ensures e.Drag? ==> r.0.pickerOpen == (s.pickerOpen || SwipedUp(e.amount))
  {
    match e
    case Drag(a) => (s.(pickerOpen := s.pickerOpen || SwipedUp(a)), None)
    case TapHeader => (s.(pickerOpen := true), None)
    case TapDay(page, i) =>
      var date := WeekDates(now, firstDay, page)[i];
      (s.(selected := date), Some(EpochDay(date)))
    case PickerChose(millis) =>
      if s.pickerOpen then
        var t := MakeTime(EpochDay(millis), HourOf(now), MinuteOf(now), SubMinute(now));
        Decompose(now);
        (Strip(t, false), Some(EpochDay(millis)))
      else (s, None)
    case PickerDismissed => (s.(pickerOpen := false), None)
  }

  /** After tapping a cell, it is the one selected cell of its page. */
  lemma TapSelectsOnlyThatCell(s: Strip, now: int, firstDay: int, page: int, i: int)
    requires Sunday <= firstDay <= Saturday && 0 <= i < 7
    ensures var r := Step(s, now, firstDay, TapDay(page, i));
      forall j :: 0 <= j < 7 ==> (DayCell(now, firstDay, page, j, r.0.selected).isSelected <==> j == i)
  {
  }

  // ---------------------------------------------------------------------------
  // The picker's remembered pick, as written

  /** Events that open the picker sheet. */
  predicate Opens(e: Event) {
    e.TapHeader? || (e.Drag? && SwipedUp(e.amount))
  }

  /**
    The strip as written also carries the picker's state, which is kept
    across openings of the sheet: the last date chosen in it, if any.
  */
  datatype Remembered = Remembered(strip: Strip, pick: Option<int>)

  /**
    One event, as written. Opening the sheet with a date already chosen in
    it re-runs the picker's effect on entry: that date is selected again at
    the current time of day, reported, and the sheet closes. Every other
    event does what `Step` does, and a choice in the open sheet is kept.
  */
  function StepAsWritten(m: Remembered, now: int, firstDay: int, e: Event): (r: (Remembered, Option<int>))
    requires Sunday <= firstDay <= Saturday
    requires e.TapDay? ==> 0 <= e.index < 7
    ensures !m.strip.pickerOpen && Opens(e) && m.pick.Some? ==>
      && r.1 == Some(EpochDay(m.pick.value))
      && EpochDay(r.0.strip.selected) == EpochDay(m.pick.value)
      && TimeOfDay(r.0.strip.selected) == TimeOfDay(now)
      && !r.0.strip.pickerOpen
    ensures !(!m.strip.pickerOpen && Opens(e) && m.pick.Some?) ==>
      r.0.strip == Step(m.strip, now, firstDay, e).0 && r.1 == Step(m.strip, now, firstDay, e).1
    ensures r.0.pick == if e.PickerChose? && m.strip.pickerOpen then Some(e.millis) else m.pick
  {
    var (strip, reported) := Step(m.strip, now, firstDay, e);
    var pick := if e.PickerChose? && m.strip.pickerOpen then Some(e.millis) else m.pick;
    if !m.strip.pickerOpen && Opens(e) && m.pick.Some? then
      var (replayed, again) := Step(strip, now, firstDay, PickerChose(m.pick.value));
      (Remembered(replayed, pick), again)
    else
      (Remembered(strip, pick), reported)
  }

  /**
    Pick a date in the sheet, tap a day, then reopen the sheet: as written
    the old pick comes back, is reported and closes the sheet at once.
  */
  lemma ReopenReplaysPick(now: int, firstDay: int, millis: int, page: int, i: int)
    requires Sunday <= firstDay <= Saturday && 0 <= i < 7
    ensures
      var a1 := StepAsWritten(Remembered(Init(now), None), now, firstDay, TapHeader).0;
      var a2 := StepAsWritten(a1, now, firstDay, PickerChose(millis)).0;
      var a3 := StepAsWritten(a2, now, firstDay, TapDay(page, i)).0;
      var r := StepAsWritten(a3, now, firstDay, TapHeader);
      r.1 == Some(EpochDay(millis)) && EpochDay(r.0.strip.selected) == EpochDay(millis) && !r.0.strip.pickerOpen
  {
  }

  /** Corrected, the same events leave the sheet open on the tapped day, reporting nothing. */
  lemma ReopenShowsPicker(now: int, firstDay: int, millis: int, page: int, i: int)
    requires Sunday <= firstDay <= Saturday && 0 <= i < 7
    ensures
      var s1 := Step(Init(now), now, firstDay, TapHeader).0;
      var s2 := Step(s1, now, firstDay, PickerChose(millis)).0;
      var s3 := Step(s2, now, firstDay, TapDay(page, i)).0;
      var r := Step(s3, now, firstDay, TapHeader);
      r.1.None? && r.0.pickerOpen && r.0.selected == WeekDates(now, firstDay, page)[i]
  {
  }

  /** Corrected, opening the sheet never selects or reports anything. */
  lemma OpeningKeepsSelection(s: Strip, now: int, firstDay: int, e: Event)
    requires Sunday <= firstDay <= Saturday && Opens(e)
    ensures Step(s, now, firstDay, e).1.None? && Step(s, now, firstDay, e).0.selected == s.selected
    ensures Step(s, now, firstDay, e).0.pickerOpen
  {
  }
}

=== FILE: clock.dfy ===
/**
  Wall-clock arithmetic shared by the screens. A time is a count of
  milliseconds since 1970-01-01T00:00 in one fixed zone without daylight
  saving, so every day is exactly `MsPerDay` long. A day key (what the app
  formats as "yyyy-MM-dd") is the number of whole days since the epoch;
  days of the week follow `java.util.Calendar` (SUNDAY = 1 .. SATURDAY = 7);
  years and days of the year follow the proleptic Gregorian calendar.
*/
module Clock {

  const MsPerMinute: int := 60_000
  const MsPerHour: int := 3_600_000
  const MsPerDay: int := 86_400_000

  const Sunday: int := 1
  const Monday: int := 2
  const Tuesday: int := 3
  const Wednesday: int := 4
  const Thursday: int := 5
  const Friday: int := 6
  const Saturday: int := 7

  /** The day key of a time: whole days since the epoch, rounding down. */
  function EpochDay(t: int): int {
    t / MsPerDay
  }

  /** Milliseconds elapsed since the start of the day. */
  function TimeOfDay(t: int): (ms: int)
    ensures 0 <= ms < MsPerDay
    ensures t == EpochDay(t) * MsPerDay + ms
  {
    t % MsPerDay
  }

  /** Calendar.HOUR_OF_DAY */
  function HourOf(t: int): (h: int)
    ensures 0 <= h < 24
  {
    TimeOfDay(t) / MsPerHour
  }

  /** Calendar.MINUTE */
  function MinuteOf(t: int): (m: int)
    ensures 0 <= m < 60
  {
    (TimeOfDay(t) % MsPerHour) / MsPerMinute
  }

  /** Seconds and milliseconds below the minute. */
  function SubMinute(t: int): (s: int)
    ensures 0 <= s < MsPerMinute
  {
    TimeOfDay(t) % MsPerMinute
  }

  /** Assembles a time from its day key, hour, minute and sub-minute part. */
  function MakeTime(day: int, hour: int, minute: int, sub: int): (t: int)
    requires 0 <= hour < 24 && 0 <= minute < 60 && 0 <= sub < MsPerMinute
    ensures EpochDay(t) == day
    ensures HourOf(t) == hour && MinuteOf(t) == minute && SubMinute(t) == sub
  {
    var tod := hour * MsPerHour + minute * MsPerMinute + sub;
    assert 0 <= tod < MsPerDay;
    var t := day * MsPerDay + tod;
    TimeOfDayOf(day, tod);
    assert (tod % MsPerHour) / MsPerMinute == minute;
    t
  }

  lemma {:induction false} TimeOfDayOf(day: int, tod: int)
    requires 0 <= tod < MsPerDay
    ensures EpochDay(day * MsPerDay + tod) == day
    ensures TimeOfDay(day * MsPerDay + tod) == tod
  {
    var t := day * MsPerDay + tod;
    var q, r := t / MsPerDay, t % MsPerDay;
    assert t == q * MsPerDay + r && 0 <= r < MsPerDay;
    assert (q - day) * MsPerDay == tod - r;
  }

  /** Every time splits uniquely into day, hour, minute and the rest. */
  lemma Decompose(t: int)
    ensures t == MakeTime(EpochDay(t), HourOf(t), MinuteOf(t), SubMinute(t))
  {
  }

  /** Shifting by whole days moves the day key and keeps the time of day. */
  lemma {:induction false} ShiftDays(t: int, n: int)
    ensures EpochDay(t + n * MsPerDay) == EpochDay(t) + n
    ensures TimeOfDay(t + n * MsPerDay) == TimeOfDay(t)
    ensures HourOf(t + n * MsPerDay) == HourOf(t) && MinuteOf(t + n * MsPerDay) == MinuteOf(t)
  {
    var tod := TimeOfDay(t);
    assert t + n * MsPerDay == (EpochDay(t) + n) * MsPerDay + tod;
    TimeOfDayOf(EpochDay(t) + n, tod);
  }

  /** Calendar.DAY_OF_WEEK: 1970-01-01 was a Thursday. */
  function DayOfWeekOfDay(day: int): (w: int)
    ensures Sunday <= w <= Saturday
  {
    (day + 4) % 7 + 1
  }

  function DayOfWeek(t: int): (w: int)
    ensures Sunday <= w <= Saturday
  {
    DayOfWeekOfDay(EpochDay(t))
  }

  /** The day after a given day is the next day of the week, Saturday wrapping to Sunday. */
  lemma NextDayOfWeek(day: int)
    ensures DayOfWeekOfDay(day + 1) == (if DayOfWeekOfDay(day) == Saturday then Sunday else DayOfWeekOfDay(day) + 1)
  {
  }

  /** Seven days later is the same day of the week. */
  lemma WeekLaterSameDay(day: int, weeks: int)
    ensures DayOfWeekOfDay(day + 7 * weeks) == DayOfWeekOfDay(day)
  {
  }

  // ---------------------------------------------------------------------------
  // Civil year and day of the year

  predicate IsLeapYear(y: int) {
    y % 4 == 0 && (y % 100 != 0 || y % 400 == 0)
  }

  function YearLength(y: int): (n: int)
    ensures n == 365 || n == 366
  {
    if IsLeapYear(y) then 366 else 365
  }

  /** Day key of January 1st of year `y`. */
  function DaysBeforeYear(y: int): (d: int)
    ensures y == 1970 ==> d == 0
    decreases if y >= 1970 then y - 1970 else 1970 - y
  {
    if y == 1970 then 0
    else if y > 1970 then DaysBeforeYear(y - 1) + YearLength(y - 1)
    else DaysBeforeYear(y + 1) - YearLength(y)
  }

  lemma {:induction false} DaysBeforeNextYear(y: int)
    ensures DaysBeforeYear(y + 1) == DaysBeforeYear(y) + YearLength(y)
    decreases if y >= 1970 then y - 1970 else 1970 - y
  {
  }

  /** Walks forward a year at a time from `y` while the offset exceeds the year. */
  function CivilUp(y: int, offset: int): (r: (int, int))
    requires offset >= 0
    ensures DaysBeforeYear(r.0) + r.1 - 1 == DaysBeforeYear(y) + offset
    ensures 1 <= r.1 <= YearLength(r.0)
    decreases offset
  {
    if offset < YearLength(y) then (y, offset + 1)
    else
      DaysBeforeNextYear(y);
      CivilUp(y + 1, offset - YearLength(y))
  }

  /** Walks backward a year at a time from `y` while the offset is negative. */
  function CivilDown(y: int, offset: int): (r: (int, int))
    requires offset < YearLength(y)
    ensures DaysBeforeYear(r.0) + r.1 - 1 == DaysBeforeYear(y) + offset
    ensures 1 <= r.1 <= YearLength(r.0)
    decreases -offset
  {
    if offset >= 0 then (y, offset + 1)
    else
      DaysBeforeNextYear(y - 1);
      CivilDown(y - 1, offset + YearLength(y - 1))
  }

  /** Calendar.YEAR and Calendar.DAY_OF_YEAR of a day key. */
  function CivilOfDay(day: int): (r: (int, int))
    ensures DaysBeforeYear(r.0) + r.1 - 1 == day
    ensures 1 <= r.1 <= YearLength(r.0)
  {
    if day >= 0 then CivilUp(1970, day) else CivilDown(1970, day)
  }

  function YearOf(t: int): int {
    CivilOfDay(EpochDay(t)).0
  }

  function DayOfYear(t: int): (n: int)
    ensures 1 <= n <= 366
  {
    CivilOfDay(EpochDay(t)).1
  }

  /**
    `isSameDay`: same year and same day of the year, which is exactly
    having the same day key.
  */
  function IsSameDay(t1: int, t2: int): (r: bool)
    ensures r <==> EpochDay(t1) == EpochDay(t2)
  {
    YearOf(t1) == YearOf(t2) && DayOfYear(t1) == DayOfYear(t2)
  }

  /** Being on the same day is an equivalence relation. */
  lemma SameDayEquivalence(a: int, b: int, c: int)
    ensures IsSameDay(a, a)
    ensures IsSameDay(a, b) ==> IsSameDay(b, a)
    ensures IsSameDay(a, b) && IsSameDay(b, c) ==> IsSameDay(a, c)
  {
  }
}

=== FILE: common.dfy ===
/**
  Shared vocabulary: an Option type, order-preserving filtering and counting
  (Kotlin `filter` / `count`), Kotlin's notion of a blank string, decimal
  rendering and parsing of integers, joining and splitting on a separator,
  and the truncation of a 64-bit colour value to a signed 32-bit `Int`.
*/
module Common {

  datatype Option<+T> = None | Some(value: T) {
    /** Kotlin's elvis operator `x ?: default`. */
    function GetOr(default: T): T {
      match this
      case Some(v) => v
      case None => default
    }
  }

  /** Kotlin's `?:` on two nullable values: the first one that is not null. */
  function OrElse<T>(a: Option<T>, b: Option<T>): (r: Option<T>)
    ensures a.Some? ==> r == a
    ensures a.None? ==> r == b
  {
    if a.Some? then a else b
  }

  // ---------------------------------------------------------------------------
  // Filtering and counting

  /** The elements of `s` satisfying `p`, in their original order. */
  function Filter<T>(s: seq<T>, p: T -> bool): (r: seq<T>)
    ensures |r| <= |s|
    ensures forall i :: 0 <= i < |r| ==> p(r[i])
    ensures forall x :: x in r ==> x in s
  {
    if |s| == 0 then []
    else if p(s[0]) then [s[0]] + Filter(s[1..], p)
    else Filter(s[1..], p)
  }

  /** How many elements of `s` satisfy `p`. */
  function Count<T>(s: seq<T>, p: T -> bool): (n: nat)
    ensures n <= |s|
  {
    |Filter(s, p)|
  }

  lemma {:induction false} FilterMembership<T>(s: seq<T>, p: T -> bool, x: T)
    ensures x in Filter(s, p) <==> x in s && p(x)
  {
    if |s| > 0 {
      FilterMembership(s[1..], p, x);
      assert s == [s[0]] + s[1..];
    }
  }

  lemma {:induction false} FilterConcat<T>(a: seq<T>, b: seq<T>, p: T -> bool)
    ensures Filter(a + b, p) == Filter(a, p) + Filter(b, p)
  {
    if |a| == 0 {
      assert a + b == b;
    } else {
      assert (a + b)[1..] == a[1..] + b;
      FilterConcat(a[1..], b, p);
    }
  }

  /** Filtering twice is filtering once with the conjunction. */
  lemma {:induction false} FilterFilter<T>(s: seq<T>, p: T -> bool, q: T -> bool)
    ensures Filter(Filter(s, p), q) == Filter(s, x => p(x) && q(x))
  {
    if |s| > 0 {
      FilterFilter(s[1..], p, q);
    }
  }

  /** Filtering with predicates that agree on `s` gives the same result. */
  lemma {:induction false} FilterExt<T>(s: seq<T>, p: T -> bool, q: T -> bool)
    requires forall i :: 0 <= i < |s| ==> p(s[i]) == q(s[i])
    ensures Filter(s, p) == Filter(s, q)
  {
    if |s| > 0 {
      FilterExt(s[1..], p, q);
    }
  }

  /** A predicate and its negation split `s` without losing or adding anything. */
  lemma {:induction false} FilterSplit<T>(s: seq<T>, p: T -> bool)
    ensures multiset(Filter(s, p)) + multiset(Filter(s, x => !p(x))) == multiset(s)
    ensures |Filter(s, p)| + |Filter(s, x => !p(x))| == |s|
  {
    if |s| > 0 {
      FilterSplit(s[1..], p);
      assert s == [s[0]] + s[1..];
    }
  }

  /** When every element passes, filtering changes nothing. */
  lemma {:induction false} FilterAll<T>(s: seq<T>, p: T -> bool)
    requires forall i :: 0 <= i < |s| ==> p(s[i])
    ensures Filter(s, p) == s
  {
    if |s| > 0 {
      FilterAll(s[1..], p);
    }
  }

  /** When no element passes, the result is empty. */
  lemma {:induction false} FilterNone<T>(s: seq<T>, p: T -> bool)
    requires forall i :: 0 <= i < |s| ==> !p(s[i])
    ensures Filter(s, p) == []
  {
    if |s| > 0 {
      FilterNone(s[1..], p);
    }
  }

  /** Concatenation is associative. */
  lemma ConcatAssoc<T>(a: seq<T>, b: seq<T>, c: seq<T>)
    ensures a + (b + c) == (a + b) + c
  {
  }

  /** The `o`-th element of the middle part of `a + b + c`. */
  lemma MiddleIndex<T>(a: seq<T>, b: seq<T>, c: seq<T>, o: int)
    requires 0 <= o < |b|
    ensures |a| + o < |a + b + c| && (a + b + c)[|a| + o] == b[o]
  {
  }

  lemma {:induction false} CountMonotone<T>(s: seq<T>, p: T -> bool, q: T -> bool)
    requires forall i :: 0 <= i < |s| ==> p(s[i]) ==> q(s[i])
    ensures Count(s, p) <= Count(s, q)
  {
    if |s| > 0 {
      CountMonotone(s[1..], p, q);
    }
  }

  // ---------------------------------------------------------------------------
  // Blank strings (Kotlin `isBlank` / `isNotBlank`)

  /**
    Kotlin's `Char.isWhitespace()`: Java's `Character.isWhitespace` or
    `Character.isSpaceChar`, i.e. the ASCII controls TAB..CR and FS..US,
    the space separators (including the no-break ones) and the line and
    paragraph separators.
  */
  predicate IsWhitespace(c: char) {
    || ('\t' <= c <= '\r')
    || ('\U{1C}' <= c <= '\U{1F}')
    || c == ' ' || c == '\U{A0}' || c == '\U{1680}'
    || ('\U{2000}' <= c <= '\U{200A}')
    || c == '\U{2028}' || c == '\U{2029}' || c == '\U{202F}' || c == '\U{205F}' || c == '\U{3000}'
  }

  /** Kotlin `CharSequence.isBlank()`: empty or only whitespace. */
  predicate IsBlank(s: string) {
    forall i :: 0 <= i < |s| ==> IsWhitespace(s[i])
  }

  /** Searches for a non-whitespace character; the reference is `IsBlank`. */
  function FirstNonBlank(s: string): (k: int)
    ensures -1 <= k < |s|
    ensures k == -1 <==> IsBlank(s)
    ensures k >= 0 ==> !IsWhitespace(s[k]) && forall j :: 0 <= j < k ==> IsWhitespace(s[j])
  {
    if |s| == 0 then -1
    else if !IsWhitespace(s[0]) then 0
    else
      var k := FirstNonBlank(s[1..]);
      if k == -1 then -1 else k + 1
  }

  // ---------------------------------------------------------------------------
  // Decimal rendering and parsing

  predicate IsDigit(c: char) {
    '0' <= c <= '9'
  }

  function DigitChar(d: nat): (c: char)
    requires d < 10
    ensures IsDigit(c)
  {
    ['0', '1', '2', '3', '4', '5', '6', '7', '8', '9'][d]
  }

  function DigitValue(c: char): (d: nat)
    requires IsDigit(c)
    ensures d < 10 && DigitChar(d) == c
  {
    (c as int - '0' as int) as nat
  }

  /** Kotlin/Java `toString()` of a non-negative integer: no leading zeros. */
  function NatToString(n: nat): (s: string)
    ensures |s| > 0
    ensures forall i :: 0 <= i < |s| ==> IsDigit(s[i])
    ensures n > 0 ==> s[0] != '0'
    decreases n
  {
    if n < 10 then [DigitChar(n)] else NatToString(n / 10) + [DigitChar(n % 10)]
  }

  /** Kotlin/Java `toString()` of an integer: a minus sign for negatives. */
  function IntToString(n: int): (s: string)
    ensures |s| > 0
    ensures n < 0 <==> s[0] == '-'
  {
    if n < 0 then "-" + NatToString(-n) else NatToString(n)
  }

  /** The value of a non-empty string of decimal digits. */
  function DigitsValue(s: string): (n: nat)
    requires forall i :: 0 <= i < |s| ==> IsDigit(s[i])
  {
    if |s| == 0 then 0 else 10 * DigitsValue(s[..|s| - 1]) + DigitValue(s[|s| - 1])
  }

  /** Decimal parse: a non-empty digit string, else nothing. */
  function ParseNat(s: string): (r: Option<nat>)
    ensures r.Some? <==> |s| > 0 && forall i :: 0 <= i < |s| ==> IsDigit(s[i])
  {
    if |s| > 0 && forall i :: 0 <= i < |s| ==> IsDigit(s[i]) then Some(DigitsValue(s)) else None
  }

  /** Decimal parse with an optional leading minus sign. */
  function ParseInt(s: string): (r: Option<int>)
    ensures r.Some? && r.value < 0 ==> |s| > 0 && s[0] == '-'
    ensures |s| > 0 && s[0] != '-' ==> (r.Some? <==> ParseNat(s).Some?)
  {
    if |s| > 0 && s[0] == '-' then
      match ParseNat(s[1..])
      case Some(n) => Some(-(n as int))
      case None => None
    else
      match ParseNat(s)
      case Some(n) => Some(n as int)
      case None => None
  }

  lemma {:induction false} NatToStringRoundTrip(n: nat)
    ensures ParseNat(NatToString(n)) == Some(n)
    decreases n
  {
    var s := NatToString(n);
    if n >= 10 {
      NatToStringRoundTrip(n / 10);
      var p := NatToString(n / 10);
      assert s[..|s| - 1] == p;
      assert DigitsValue(s) == 10 * DigitsValue(p) + DigitValue(DigitChar(n % 10));
    } else {
      assert s[..0] == [];
    }
  }

  /** Rendering then parsing an integer gives it back. */
  lemma IntToStringRoundTrip(n: int)
    ensures ParseInt(IntToString(n)) == Some(n)
  {
    var s := IntToString(n);
    if n < 0 {
      var t := NatToString(-n);
      NatToStringRoundTrip(-n);
      assert s == "-" + t;
      assert s[1..] == t;
      assert ParseNat(s[1..]) == Some(-n);
    } else {
      NatToStringRoundTrip(n);
      assert s == NatToString(n);
      assert IsDigit(s[0]);
    }
  }

  // ---------------------------------------------------------------------------
  // Joining and splitting on a one-character separator

  /** Kotlin `joinToString(sep)` over strings. */
  function Join(parts: seq<string>, sep: char): (s: string)
  {
    if |parts| == 0 then ""
    else if |parts| == 1 then parts[0]
    else parts[0] + [sep] + Join(parts[1..], sep)
  }

  /** Kotlin `split(sep)`: at least one piece, separators removed. */
  function Split(s: string, sep: char): (parts: seq<string>)
    ensures |parts| >= 1
    ensures forall i, j :: 0 <= i < |parts| && 0 <= j < |parts[i]| ==> parts[i][j] != sep
    decreases |s|
  {
    if |s| == 0 then [""]
    else if s[0] == sep then [""] + Split(s[1..], sep)
    else
      var rest := Split(s[1..], sep);
      [[s[0]] + rest[0]] + rest[1..]
  }

  lemma {:induction false} SplitPrefix(a: string, b: string, sep: char)
    requires forall j :: 0 <= j < |a| ==> a[j] != sep
    ensures Split(a + [sep] + b, sep) == [a] + Split(b, sep)
    ensures Split(a, sep) == [a]
    decreases |a|
  {
    if |a| == 0 {
      assert a + [sep] + b == [sep] + b;
      assert ([sep] + b)[1..] == b;
    } else {
      assert (a + [sep] + b)[1..] == a[1..] + [sep] + b;
      SplitPrefix(a[1..], b, sep);
      assert [a[0]] + a[1..] == a;
    }
  }

  /** Splitting a join recovers the pieces when none of them holds the separator. */
  lemma {:induction false} SplitJoin(parts: seq<string>, sep: char)
    requires |parts| >= 1
    requires forall i, j :: 0 <= i < |parts| && 0 <= j < |parts[i]| ==> parts[i][j] != sep
    ensures Split(Join(parts, sep), sep) == parts
  {
    if |parts| == 1 {
      SplitPrefix(parts[0], "", sep);
    } else {
      SplitJoin(parts[1..], sep);
      SplitPrefix(parts[0], Join(parts[1..], sep), sep);
      assert [parts[0]] + parts[1..] == parts;
    }
  }

  // ---------------------------------------------------------------------------
  // 32-bit truncation

  const TwoTo32: int := 0x1_0000_0000
  const TwoTo31: int := 0x8000_0000

  /**
    Kotlin `Long.toInt()` for a value in the unsigned 32-bit range (an ARGB
    colour literal such as `0xFF2196F3`): the low 32 bits read as a signed
    `Int`, so an opaque colour (alpha 0xFF) becomes negative.
  */
  function ToInt32(u: int): (r: int)
    requires 0 <= u < TwoTo32
    ensures -TwoTo31 <= r < TwoTo31
    ensures r % TwoTo32 == u
    ensures u >= TwoTo31 <==> r < 0
  {
    if u >= TwoTo31 then u - TwoTo32 else u
  }
}

=== FILE: courses.dfy ===
/**
  The courses screen (one card per course, with its attendance counts) and
  the course creator sheet: colour choice, the class-time list built from
  the "Add Class Time" dialog, and the save guard. Weekdays use the
  calendar numbering Sunday = 1 .. Saturday = 7.
*/
module Courses {
  import opened Common
  import opened Entities
  import opened Clock

  // ---------------------------------------------------------------------------
  // Course cards

  predicate IsCancelled(r: AttendanceRecord) {
    r.status == "CANCELLED"
  }

  predicate IsHeld(r: AttendanceRecord) {
    r.status != "CANCELLED"
  }

  predicate IsPresent(r: AttendanceRecord) {
    r.status == "PRESENT"
  }

  /** A card's counts: classes that took place, and those attended. */
  datatype Attendance = Attendance(totalClasses: nat, attended: nat)

  /**
    Cancelled classes do not count; a class is attended when marked
    present, so attended classes are among the classes held.
  */
  function AttendanceOf(records: seq<AttendanceRecord>): (a: Attendance)
    ensures a.attended <= a.totalClasses <= |records|
    ensures a.totalClasses + Count(records, IsCancelled) == |records|
    ensures a.totalClasses == 0 ==> a.attended == 0
  {
    CountMonotone(records, IsPresent, IsHeld);
    HeldOrCancelled(records);
    Attendance(Count(records, IsHeld), Count(records, IsPresent))
  }

  /** Every record is either held or cancelled. */
  lemma {:induction false} HeldOrCancelled(records: seq<AttendanceRecord>)
    ensures Count(records, IsHeld) + Count(records, IsCancelled) == |records|
  {
    if |records| > 0 {
      HeldOrCancelled(records[1..]);
    }
  }

  /** A record's effect on the counts: each record moves at most one of them, by one. */
  lemma {:induction false} AttendanceAppend(records: seq<AttendanceRecord>, r: AttendanceRecord)
    ensures var before, after := AttendanceOf(records), AttendanceOf(records + [r]);
      && after.totalClasses == before.totalClasses + (if IsHeld(r) then 1 else 0)
      && after.attended == before.attended + (if IsPresent(r) then 1 else 0)
  {
    FilterConcat(records, [r], IsHeld);
    FilterConcat(records, [r], IsPresent);
    assert [r][1..] == [];
  }

  /**
    The card's percentage, taken as an exact ratio (the app computes it in
    single-precision floating point): 0 when no class was held.
  */
  function Percentage(a: Attendance): (p: real)
    requires a.attended <= a.totalClasses
    ensures 0.0 <= p <= 100.0
    ensures a.totalClasses == 0 ==> p == 0.0
    ensures a.totalClasses > 0 ==> (p == 100.0 <==> a.attended == a.totalClasses)
    ensures a.totalClasses > 0 ==> (p == 0.0 <==> a.attended == 0)
  {
    if a.totalClasses > 0 then
      var ratio := a.attended as real / a.totalClasses as real;
      RatioBounds(a.attended, a.totalClasses);
      ratio * 100.0
    else 0.0
  }

  lemma RatioBounds(part: nat, whole: nat)
    requires 0 < part <= whole || (part == 0 && whole > 0)
    ensures var q := part as real / whole as real;
      0.0 <= q <= 1.0 && (q == 1.0 <==> part == whole) && (q == 0.0 <==> part == 0)
  {
    var q := part as real / whole as real;
    assert q * whole as real == part as real;
  }

  /** The screen below its title: a placeholder, or one card per course keyed by its id. */
  datatype CoursesView = NoCourses | Cards(keys: seq<int>)

  function CoursesScreen(courses: seq<Course>): (v: CoursesView)
    ensures v.NoCourses? <==> |courses| == 0
    ensures v.Cards? ==> |v.keys| == |courses| && forall i :: 0 <= i < |courses| ==> v.keys[i] == courses[i].id
  {
    if |courses| == 0 then NoCourses
    else Cards(seq(|courses|, i requires 0 <= i < |courses| => courses[i].id))
  }

  /** Courses with distinct ids give cards with distinct keys. */
  lemma CardKeysDistinct(courses: seq<Course>)
    requires forall i, j :: 0 <= i < j < |courses| ==> courses[i].id != courses[j].id
    ensures CoursesScreen(courses).Cards? ==> forall i, j :: 0 <= i < j < |courses| ==> CoursesScreen(courses).keys[i] != CoursesScreen(courses).keys[j]
  {
  }

  // ---------------------------------------------------------------------------
  // Day names

  /** The three-letter names of the days of the week, Sunday first. */
  const DayNames: seq<string> := ["Sun", "Mon", "Tue", "Wed", "Thu", "Fri", "Sat"]

  /** A class time's day label: Monday..Saturday by name, anything else "Sun". */
  function DayName(day: int): (n: string)
    ensures Sunday <= day <= Saturday ==> n == DayNames[day - Sunday]
    ensures n == "Sun" <==> !(Monday <= day <= Saturday)
    ensures |n| == 3
  {
    if day == Monday then "Mon"
    else if day == Tuesday then "Tue"
    else if day == Wednesday then "Wed"
    else if day == Thursday then "Thu"
    else if day == Friday then "Fri"
    else if day == Saturday then "Sat"
    else "Sun"
  }

  /** Different days of the week get different labels. */
  lemma DayNameInjective(a: int, b: int)
    requires Sunday <= a <= Saturday && Sunday <= b <= Saturday
    requires DayName(a) == DayName(b)
    ensures a == b
  {
  }

  /**
    A class time as listed on the sheet: "Mon 09:00 - 10:00". The line
    reads back as the day label, a space, the start time, " - " and the
    end time, at fixed offsets from the length of the start time.
  */
  function ScheduleText(s: ClassSchedule): (t: string)
    ensures |t| == 3 + 1 + |s.startTime| + 3 + |s.endTime|
    ensures t[..3] == DayName(s.dayOfWeek) && t[3] == ' '
    ensures t[4..4 + |s.startTime|] == s.startTime
    ensures t[4 + |s.startTime|..7 + |s.startTime|] == " - "
    ensures t[7 + |s.startTime|..] == s.endTime
  {
    DayName(s.dayOfWeek) + " " + s.startTime + " - " + s.endTime
  }

  // ---------------------------------------------------------------------------
  // "Add Class Time" dialog

  /** The days the dialog offers, with their chip letters: Monday to Friday. */
  const DialogDays: seq<int> := [Monday, Tuesday, Wednesday, Thursday, Friday]
  const DialogLetters: seq<string> := ["M", "T", "W", "T", "F"]

  datatype Dialog = Dialog(selectedDay: int, startTime: string, endTime: string)

  /** The dialog opens on Monday, 09:00 to 10:00. */
  function OpenDialog(): (d: Dialog)
    ensures d.selectedDay in DialogDays && d.selectedDay == Monday
    ensures d.startTime == "09:00" && d.endTime == "10:00"
  {
    Dialog(Monday, "09:00", "10:00")
  }

  predicate DialogValid(d: Dialog) {
    d.selectedDay in DialogDays
  }

  datatype DialogEvent = ChooseDay(index: int) | EditStart(text: string) | EditEnd(text: string)

  /** Chips select their day; the time fields take any text. */
  function DialogStep(d: Dialog, e: DialogEvent): (r: Dialog)
    requires e.ChooseDay? ==> 0 <= e.index < |DialogDays|
    ensures DialogValid(d) ==> DialogValid(r)
    ensures e.ChooseDay? ==> r.selectedDay == DialogDays[e.index] && r.startTime == d.startTime && r.endTime == d.endTime
    ensures !e.ChooseDay? ==> r.selectedDay == d.selectedDay
  {
    match e
    case ChooseDay(i) => d.(selectedDay := DialogDays[i])
    case EditStart(t) => d.(startTime := t)
    case EditEnd(t) => d.(endTime := t)
  }

  /** "Add": the dialog's choice as a class time. */
  function Confirm(d: Dialog): (s: ClassSchedule)
    ensures s.dayOfWeek == d.selectedDay && s.startTime == d.startTime && s.endTime == d.endTime
  {
    ClassSchedule(d.selectedDay, d.startTime, d.endTime)
  }

  // ---------------------------------------------------------------------------
  // The sheet

  /** The sheet's colour choices. */
  const CourseColors: seq<int> := [0xFF2196F3, 0xFFF44336, 0xFF4CAF50, 0xFFFF9800, 0xFF9C27B0]

  datatype Sheet = Sheet(name: string, professor: string, location: string, color: int, schedules: seq<ClassSchedule>)

  /** Empty fields, the blue colour, no class times. */
  function OpenSheet(): (s: Sheet)
    ensures s.color == CourseColors[0] && s.schedules == [] && s.name == ""
  {
    Sheet("", "", "", 0xFF2196F3, [])
  }

  /** Position of the first element equal to `x`. */
  function FirstIndex(s: seq<ClassSchedule>, x: ClassSchedule): (k: nat)
    requires x in s
    ensures k < |s| && s[k] == x
    ensures forall j :: 0 <= j < k ==> s[j] != x
    decreases |s|
  {
    if s[0] == x then 0
    else
      assert x in s[1..] by {
        assert s == [s[0]] + s[1..];
      }
      1 + FirstIndex(s[1..], x)
  }

  /** Kotlin `list - element`: drops the first equal element only, keeping the rest in order. */
  function RemoveFirst(s: seq<ClassSchedule>, x: ClassSchedule): (r: seq<ClassSchedule>)
    ensures x !in s ==> r == s
    ensures x in s ==> r == s[..FirstIndex(s, x)] + s[FirstIndex(s, x) + 1..]
    decreases |s|
  {
    if |s| == 0 then s
    else if s[0] == x then s[1..]
    else
      var rest := RemoveFirst(s[1..], x);
      assert s == [s[0]] + s[1..];
      if x in s then
        assert x in s[1..];
        var k := FirstIndex(s[1..], x);
        assert FirstIndex(s, x) == k + 1;
        SliceCons(s, k);
        [s[0]] + rest
      else
        [s[0]] + rest
  }

  lemma SliceCons(s: seq<ClassSchedule>, k: nat)
    requires k + 1 < |s|
    ensures s[..k + 1] + s[k + 2..] == [s[0]] + (s[1..][..k] + s[1..][k + 1..])
  {
    assert s[..k + 1] == [s[0]] + s[1..][..k];
    assert s[k + 2..] == s[1..][k + 1..];
  }

  /** Removing takes away exactly one copy of a listed element and nothing else. */
  lemma {:induction false} RemoveFirstMultiset(s: seq<ClassSchedule>, x: ClassSchedule)
    ensures multiset(RemoveFirst(s, x)) == multiset(s) - multiset{x}
  {
    if x in s {
      var k := FirstIndex(s, x);
      assert s == s[..k] + [x] + s[k + 1..];
      assert multiset(s) == multiset(s[..k]) + multiset{x} + multiset(s[k + 1..]);
    } else {
      assert multiset(s)[x] == 0;
    }
  }

  /** Adding a class time and removing it again restores the list, or (if it was already listed) its contents. */
  lemma {:induction false} AddThenRemove(s: seq<ClassSchedule>, x: ClassSchedule)
    ensures multiset(RemoveFirst(s + [x], x)) == multiset(s)
    ensures x !in s ==> RemoveFirst(s + [x], x) == s
  {
    RemoveFirstMultiset(s + [x], x);
    assert multiset(s + [x]) == multiset(s) + multiset{x};
    if x !in s && |s| > 0 {
      assert (s + [x])[1..] == s[1..] + [x];
      assert x !in s[1..];
      AddThenRemove(s[1..], x);
      assert s == [s[0]] + s[1..];
    }
  }

  datatype SheetEvent =
    | SetName(text: string)
    | SetProfessor(text: string)
    | SetLocation(text: string)
    | ChooseColor(index: int)
    | AddClass(dialog: Dialog)
    | RemoveClass(schedule: ClassSchedule)

  /** The sheet invariant: a palette colour, and only class times the dialog can produce. */
  predicate Valid(s: Sheet) {
    && s.color in CourseColors
    && forall c :: c in s.schedules ==> c.dayOfWeek in DialogDays
  }

  predicate ValidEvent(e: SheetEvent) {
    match e
    case ChooseColor(i) => 0 <= i < |CourseColors|
    case AddClass(d) => DialogValid(d)
    case _ => true
  }

  /** One edit on the sheet; class times are appended at the end or removed by value. */
  function Step(s: Sheet, e: SheetEvent): (r: Sheet)
    requires ValidEvent(e)
    ensures Valid(s) ==> Valid(r)
    ensures e.AddClass? ==> r.schedules == s.schedules + [Confirm(e.dialog)]
    ensures e.RemoveClass? ==> r.schedules == RemoveFirst(s.schedules, e.schedule)
    ensures !e.AddClass? && !e.RemoveClass? ==> r.schedules == s.schedules
  {
    match e
    case SetName(t) => s.(name := t)
    case SetProfessor(t) => s.(professor := t)
    case SetLocation(t) => s.(location := t)
    case ChooseColor(i) => s.(color := CourseColors[i])
    case AddClass(d) => s.(schedules := s.schedules + [Confirm(d)])
    case RemoveClass(c) =>
      var r := RemoveFirst(s.schedules, c);
      RemoveFirstMultiset(s.schedules, c);
      assert forall x :: x in r ==> x in s.schedules by {
        forall x | x in r ensures x in s.schedules {
          assert x in multiset(r);
        }
      }
      s.(schedules := r)
  }

  /** Any run of edits from the opened sheet keeps the invariant. */
  function Run(s: Sheet, events: seq<SheetEvent>): (r: Sheet)
    requires forall i :: 0 <= i < |events| ==> ValidEvent(events[i])
    ensures Valid(s) ==> Valid(r)
    decreases |events|
  {
    if |events| == 0 then s else Run(Step(s, events[0]), events[1..])
  }

  /** What "Save Course" hands on. */
  datatype Payload = Payload(name: string, professor: string, location: string, colorHex: int, schedules: seq<ClassSchedule>)

  /**
    Saving needs a non-blank name; the colour is sent as the signed ARGB
    value widened to a Long, and the class times as listed.
  */
  function Save(s: Sheet): (r: Option<Payload>)
    requires Valid(s)
    ensures r.Some? <==> !IsBlank(s.name)
    ensures r.Some? ==> r.value.name == s.name && r.value.professor == s.professor && r.value.location == s.location
    ensures r.Some? ==> r.value.schedules == s.schedules
    ensures r.Some? ==> r.value.colorHex < 0 && r.value.colorHex % TwoTo32 == s.color
  {
    if IsBlank(s.name) then None
    else Some(Payload(s.name, s.professor, s.location, ToInt32(s.color), s.schedules))
  }

  /** A course saved from the sheet never lists a class on a weekend day. */
  lemma SavedClassesAreWeekdays(events: seq<SheetEvent>)
    requires forall i :: 0 <= i < |events| ==> ValidEvent(events[i])
    ensures var s := Run(OpenSheet(), events);
      Save(s).Some? ==> forall c :: c in Save(s).value.schedules ==> DayName(c.dayOfWeek) != "Sun" && DayName(c.dayOfWeek) != "Sat"
  {
    assert Valid(OpenSheet());
    var s := Run(OpenSheet(), events);
    assert Valid(s);
    if Save(s).Some? {
      forall c | c in Save(s).value.schedules
        ensures DayName(c.dayOfWeek) != "Sun" && DayName(c.dayOfWeek) != "Sat"
      {
        assert c.dayOfWeek in DialogDays;
        DialogDayNames(c.dayOfWeek);
      }
    }
  }

  lemma DialogDayNames(day: int)
    requires day in DialogDays
    ensures DayName(day) != "Sun" && DayName(day) != "Sat"
  {
  }
}

=== FILE: date_picker.dfy ===
/**
  The date-and-time picker sheet: the shortcut rows (today, tomorrow, next
  Monday), the custom date and custom time dialogs that each replace one
  half of the selection, "no date", and the Select / Cancel buttons. The
  current time is a parameter; the sheet reads the clock several times
  within one composition, and those reads are taken to be one instant.
*/
module DatePicker {
  import opened Common
  import opened Clock

  /** "Today": the current instant. */
  function Today(now: int): int {
    now
  }

  /** "Tomorrow": the same time of day, one calendar day later. */
  function Tomorrow(now: int): (t: int)
    ensures EpochDay(t) == EpochDay(Today(now)) + 1
    ensures TimeOfDay(t) == TimeOfDay(Today(now))
    ensures DayOfWeek(t) == (if DayOfWeek(now) == Saturday then Sunday else DayOfWeek(now) + 1)
  {
    ShiftDays(now, 1);
    NextDayOfWeek(EpochDay(now));
    now + MsPerDay
  }

  /** Days from a weekday to the next Monday after it: 1..6, or 7 from a Monday. */
  function DaysToNextMonday(w: int): (n: int)
    requires Sunday <= w <= Saturday
    ensures 1 <= n <= 7
  {
    var n := (Monday - w + 7) % 7;
    if n == 0 then 7 else n
  }

  /** The reference answer for "next week": a closed form in now's day of the week. */
  function NextMondayOf(now: int): int {
    now + DaysToNextMonday(DayOfWeek(now)) * MsPerDay
  }

  /**
    "Next week": step a day at a time from now until a Monday; if that is
    now itself (today is Monday) add a week. The result is the first
    Monday strictly after now, at now's time of day.
  */
  method NextWeek(now: int) returns (t: int)
    ensures DayOfWeek(t) == Monday
    ensures now < t <= now + 7 * MsPerDay
    ensures (t - now) % MsPerDay == 0 && TimeOfDay(t) == TimeOfDay(now)
    ensures DayOfWeek(now) == Monday <==> t == now + 7 * MsPerDay
    ensures forall d :: EpochDay(now) < d < EpochDay(t) ==> DayOfWeekOfDay(d) != Monday
    ensures t == NextMondayOf(now)
  {
    var k := 0;
    t := now;
    ShiftDays(now, 0);
    while DayOfWeek(t) != Monday
      invariant 0 <= k <= 6
      invariant t == now + k * MsPerDay
      invariant EpochDay(t) == EpochDay(now) + k && TimeOfDay(t) == TimeOfDay(now)
      invariant forall d :: EpochDay(now) <= d < EpochDay(now) + k ==> DayOfWeekOfDay(d) != Monday
      invariant (DayOfWeekOfDay(EpochDay(now)) - Monday + 7) % 7 + k <= 7
      invariant k > 0 ==> DayOfWeekOfDay(EpochDay(now)) != Monday
      decreases 7 - k
    {
      NextDayOfWeek(EpochDay(now) + k);
      k := k + 1;
      t := t + MsPerDay;
      ShiftDays(now, k);
    }
    if t <= now {
      t := t + 7 * MsPerDay;
      ShiftDays(now, 7);
      WeekLaterSameDay(EpochDay(now), 1);
      MondayWeek(EpochDay(now));
      k := 7;
    }
    assert t - now == k * MsPerDay;
    assert k == DaysToNextMonday(DayOfWeek(now));
  }

  /** The six days after a Monday are not Mondays. */
  lemma MondayWeek(day: int)
    requires DayOfWeekOfDay(day) == Monday
    ensures forall d :: day < d < day + 7 ==> DayOfWeekOfDay(d) != Monday
  {
    forall d | day < d < day + 7 ensures DayOfWeekOfDay(d) != Monday {
      assert (d + 4) % 7 == ((day + 4) % 7 + (d - day)) % 7;
    }
  }

  /** The closed form lands on a Monday within the coming week, at now's time of day. */
  lemma NextMondayFacts(now: int)
    ensures DayOfWeek(NextMondayOf(now)) == Monday
    ensures EpochDay(now) < EpochDay(NextMondayOf(now)) <= EpochDay(now) + 7
    ensures TimeOfDay(NextMondayOf(now)) == TimeOfDay(now)
  {
    var n := DaysToNextMonday(DayOfWeek(now));
    ShiftDays(now, n);
    var d := EpochDay(now);
    assert (d + n + 4) % 7 == ((d + 4) % 7 + n) % 7;
  }

  /**
    The custom date dialog's OK: the picked day at the hour and minute of
    the current selection (or of now when there is none). A dialog with
    no day picked leaves the selection alone.
  */
  function CustomDate(selected: Option<int>, now: int, picked: Option<int>): (r: Option<int>)
    ensures picked.None? ==> r == selected
    ensures picked.Some? ==>
      && r.Some?
      && EpochDay(r.value) == EpochDay(picked.value)
      && HourOf(r.value) == HourOf(selected.GetOr(now))
      && MinuteOf(r.value) == MinuteOf(selected.GetOr(now))
      && SubMinute(r.value) == SubMinute(picked.value)
  {
    match picked
    case None => selected
    case Some(day) =>
      var base := selected.GetOr(now);
      Some(MakeTime(EpochDay(day), HourOf(base), MinuteOf(base), SubMinute(day)))
  }

  /**
    The custom time dialog's OK: the day (and seconds) of the current
    selection, or of now, with the chosen hour and minute.
  */
  function CustomTime(selected: Option<int>, now: int, hour: int, minute: int): (r: int)
    requires 0 <= hour < 24 && 0 <= minute < 60
    ensures EpochDay(r) == EpochDay(selected.GetOr(now))
    ensures HourOf(r) == hour && MinuteOf(r) == minute
    ensures SubMinute(r) == SubMinute(selected.GetOr(now))
  {
    var base := selected.GetOr(now);
    MakeTime(EpochDay(base), hour, minute, SubMinute(base))
  }

  /** Confirming the time dialog with the hour and minute it opened with changes nothing. */
  lemma CustomTimeUnchanged(selected: int, now: int)
    ensures CustomTime(Some(selected), now, HourOf(selected), MinuteOf(selected)) == selected
  {
    Decompose(selected);
  }

  /** Choosing a day and then a time yields exactly that day at that time. */
  lemma DateThenTime(selected: Option<int>, now: int, day: int, hour: int, minute: int)
    requires 0 <= hour < 24 && 0 <= minute < 60
    ensures var d := CustomDate(selected, now, Some(day));
      var t := CustomTime(d, now, hour, minute);
      EpochDay(t) == EpochDay(day) && HourOf(t) == hour && MinuteOf(t) == minute
  {
  }

  // ---------------------------------------------------------------------------
  // The sheet

  /** Open with a selection, or closed after emitting a value (or nothing). */
  datatype Sheet = Open(selected: Option<int>) | Closed(emitted: Option<Option<int>>)

  datatype Event =
    | PickToday
    | PickTomorrow
    | PickNextWeek
    | PickNoDate
    | CustomDateOk(picked: Option<int>)
    | CustomTimeOk(hour: int, minute: int)
    | Select
    | Cancel

  /** The sheet opens on the date it was given. */
  function OpenSheet(initialDate: Option<int>): (s: Sheet)
    ensures s.Open? && s.selected == initialDate
  {
    Open(initialDate)
  }

  /**
    One event at time `now`. Select emits the selection and closes;
    Cancel closes without emitting.
  */
  function Step(s: Sheet, now: int, e: Event): (r: Sheet)
    requires e.CustomTimeOk? ==> 0 <= e.hour < 24 && 0 <= e.minute < 60
    ensures s.Closed? ==> r == s
    ensures s.Open? && e.Select? ==> r == Closed(Some(s.selected))
    ensures s.Open? && e.Cancel? ==> r == Closed(None)
    ensures s.Open? && !e.Select? && !e.Cancel? ==> r.Open?
    ensures s.Open? && e.PickToday? ==> r.selected == Some(now)
    ensures s.Open? && e.PickNoDate? ==> r.selected.None?
    ensures s.Open? && e.PickTomorrow? ==>
      r.selected.Some? && EpochDay(r.selected.value) == EpochDay(now) + 1 && TimeOfDay(r.selected.value) == TimeOfDay(now)
    ensures s.Open? && e.PickNextWeek? ==>
      && r.selected.Some? && DayOfWeek(r.selected.value) == Monday
      && EpochDay(now) < EpochDay(r.selected.value) <= EpochDay(now) + 7
      && TimeOfDay(r.selected.value) == TimeOfDay(now)
    ensures s.Open? && e.CustomDateOk? && e.picked.None? ==> r.selected == s.selected
    ensures s.Open? && e.CustomDateOk? && e.picked.Some? ==>
      && r.selected.Some? && EpochDay(r.selected.value) == EpochDay(e.picked.value)
      && HourOf(r.selected.value) == HourOf(s.selected.GetOr(now))
      && MinuteOf(r.selected.value) == MinuteOf(s.selected.GetOr(now))
    ensures s.Open? && e.CustomTimeOk? ==>
      && r.selected.Some? && EpochDay(r.selected.value) == EpochDay(s.selected.GetOr(now))
      && HourOf(r.selected.value) == e.hour && MinuteOf(r.selected.value) == e.minute
  {
    NextMondayFacts(now);
    match s
    case Closed(_) => s
    case Open(sel) =>
      match e
      case PickToday => Open(Some(Today(now)))
      case PickTomorrow => Open(Some(Tomorrow(now)))
      case PickNextWeek => Open(Some(NextMondayOf(now)))
      case PickNoDate => Open(None)
      case CustomDateOk(picked) => Open(CustomDate(sel, now, picked))
      case CustomTimeOk(h, m) => Open(Some(CustomTime(sel, now, h, m)))
      case Select => Closed(Some(sel))
      case Cancel => Closed(None)
  }

  /** Opening and selecting at once hands back the initial date unchanged. */
  lemma SelectImmediately(initialDate: Option<int>, now: int)
    ensures Step(OpenSheet(initialDate), now, Select) == Closed(Some(initialDate))
  {
  }
}

=== FILE: entities.dfy ===
/**
  The records the app stores. Each record carries the union of the fields
  the screens read or write, even where the stored entity class has fewer
  (a task's priority, tags and notification pin are written by the full
  screen editor). Times are milliseconds (see `Clock`); the "yyyy-MM-dd"
  strings of habits and attendance are day keys.
*/
module Entities {
  import opened Common

  /** A to-do item. `deadline == 0` means "no date" (an unplanned task). */
  datatype Task = Task(
    id: int,
    title: string,
    description: string,
    deadline: int,
    isCompleted: bool,
    workspaceId: Option<int>,
    priority: int,
    tags: string,
    pinAsNotification: bool)

  /** One line of a task's checklist; `id == 0` marks an item not yet stored. */
  datatype ChecklistItem = ChecklistItem(id: int, taskId: int, text: string, isCompleted: bool)

  /** A group of tasks with a display colour (ARGB) and an archive flag. */
  datatype Workspace = Workspace(id: int, name: string, color: int, isArchived: bool)

  /** The stored default colour of a workspace, opaque light grey. */
  const DefaultWorkspaceColor: int := 0xFFCCCCCC

  /** A task together with the checklist items whose `taskId` is the task's id. */
  datatype TaskWithChecklist = TaskWithChecklist(task: Task, checklist: seq<ChecklistItem>)

  /** A daily habit. `lastCompletedDate` and `progressDate` are day keys. */
  datatype Habit = Habit(
    id: string,
    name: string,
    iconName: string,
    colorHex: int,
    streak: int,
    lastCompletedDate: Option<int>,
    targetValue: int,
    currentProgress: int,
    progressDate: Option<int>,
    unit: Option<string>)

  /** A habit is completed today when its last completion is today's key. */
  predicate CompletedToday(h: Habit, today: int) {
    h.lastCompletedDate == Some(today)
  }

  /** One weekly class slot; times are "HH:mm" strings. */
  datatype ClassSchedule = ClassSchedule(dayOfWeek: int, startTime: string, endTime: string)

  /** A course; the schedule is kept as a list rather than its JSON encoding. */
  datatype Course = Course(
    id: int,
    name: string,
    professor: string,
    location: string,
    colorHex: int,
    schedule: seq<ClassSchedule>)

  /** One attendance entry; `status` is "PRESENT", "ABSENT" or "CANCELLED". */
  datatype AttendanceRecord = AttendanceRecord(id: int, courseId: int, date: int, status: string)
}

=== FILE: habit_form.dfy ===
/**
  The "New Habit" sheet as a state machine: the form state, the events its
  controls raise, the invariant every reachable state keeps (steppers in
  range, choices drawn from their fixed lists, the day set within Monday=1
  .. Sunday=7 without repeats), and the payload the save button hands on.
*/
module HabitForm {
  import opened Common

  const FrequencyTypes: seq<string> := ["DAILY", "WEEKLY_GOAL", "SPECIFIC_DAYS", "REPEAT_INTERVAL"]
  const Priorities: seq<string> := ["LOW", "MEDIUM", "HIGH"]
  const IconNames: seq<string> := ["WaterDrop", "MenuBook", "FitnessCenter", "DirectionsRun", "SelfImprovement", "Brush", "Code", "NightsStay"]
  /** The colour chips, as ARGB literals. */
  const Palette: seq<int> := [0xFF2196F3, 0xFFFF9800, 0xFF4CAF50, 0xFFF44336, 0xFF9C27B0, 0xFF009688]

  /**
    The form. The day set is kept in insertion order, as Kotlin's set
    keeps it, because the payload lists the days in that order.
  */
  datatype State = State(
    name: string,
    iconName: string,
    color: int,
    targetValue: int,
    unit: string,
    frequencyType: string,
    frequencyGoal: int,
    frequencyDays: seq<int>,
    repeatInterval: int,
    isReminderOn: bool,
    reminderTime: string,
    priority: string,
    description: string)

  function Init(): State {
    State("", "WaterDrop", 0xFF2196F3, 1, "", "DAILY", 1, [], 1, false, "09:00", "MEDIUM", "")
  }

  predicate NoRepeats(s: seq<int>) {
    forall i, j :: 0 <= i < j < |s| ==> s[i] != s[j]
  }

  predicate IsWeekDay(k: int) {
    1 <= k <= 7
  }

  predicate Valid(s: State) {
    && s.targetValue >= 1
    && 1 <= s.frequencyGoal <= 7
    && s.repeatInterval >= 1
    && s.frequencyType in FrequencyTypes
    && s.priority in Priorities
    && s.iconName in IconNames
    && s.color in Palette
    && NoRepeats(s.frequencyDays)
    && forall d :: d in s.frequencyDays ==> IsWeekDay(d)
  }

  lemma InitValid()
    ensures Valid(Init())
  {
  }

  /** What the user can do; chip choices carry the chip's position in its row. */
  datatype Event =
    | SetName(text: string)
    | SetDescription(text: string)
    | TargetDown
    | TargetUp
    | SetUnit(text: string)
    | ChooseFrequency(index: int)
    | GoalDown
    | GoalUp
    | TapDay(day: int)
    | IntervalDown
    | IntervalUp
    | SetReminder(on: bool)
    | SetReminderTime(text: string)
    | ChoosePriority(index: int)
    | ChooseIcon(index: int)
    | ChooseColor(index: int)

  /** Events the sheet's controls can raise: chip positions within their rows, day chips 1..7. */
  predicate ValidEvent(e: Event) {
    match e
    case ChooseFrequency(i) => 0 <= i < |FrequencyTypes|
    case TapDay(k) => IsWeekDay(k)
    case ChoosePriority(i) => 0 <= i < |Priorities|
    case ChooseIcon(i) => 0 <= i < |IconNames|
    case ChooseColor(i) => 0 <= i < |Palette|
    case _ => true
  }

  /**
    Tapping day `k`: removes it when present, otherwise appends it. Only
    `k`'s membership changes; the others keep their order.
  */
  function ToggleDay(days: seq<int>, k: int): (r: seq<int>)
    requires NoRepeats(days)
    ensures NoRepeats(r)
    ensures k in r <==> k !in days
    ensures forall j :: j != k ==> (j in r <==> j in days)
  {
    if k in days then RemoveValue(days, k) else days + [k]
  }

  /** The set difference `days - k` on a list without repeats. */
  function RemoveValue(days: seq<int>, k: int): (r: seq<int>)
    requires NoRepeats(days)
    ensures NoRepeats(r)
    ensures k !in r
    ensures forall j :: j != k ==> (j in r <==> j in days)
    ensures |r| <= |days|
  {
    if |days| == 0 then []
    else if days[0] == k then RemoveValue(days[1..], k)
    else
      var rest := RemoveValue(days[1..], k);
      assert days[0] !in days[1..];
      [days[0]] + rest
  }

  /** Tapping a day twice leaves the same days selected (the order may change). */
  lemma ToggleDayTwice(days: seq<int>, k: int)
    requires NoRepeats(days)
    ensures forall j :: j in ToggleDay(ToggleDay(days, k), k) <==> j in days
  {
  }

  /** Tapping an unselected day and then tapping it again restores the list exactly. */
  lemma {:induction false} ToggleNewDayTwice(days: seq<int>, k: int)
    requires NoRepeats(days) && k !in days
    ensures ToggleDay(ToggleDay(days, k), k) == days
  {
    RemoveAppended(days, k);
  }

  lemma {:induction false} RemoveAppended(days: seq<int>, k: int)
    requires NoRepeats(days + [k]) && k !in days
    ensures RemoveValue(days + [k], k) == days
  {
    if |days| > 0 {
      assert (days + [k])[1..] == days[1..] + [k];
      RemoveAppended(days[1..], k);
      assert [days[0]] + days[1..] == days;
    }
  }

  /**
    One event: it sets its own field and leaves every other field alone.
    Controls that are not on screen in the current state change nothing.
  */
  function Step(s: State, e: Event): (r: State)
    requires Valid(s) && ValidEvent(e)
    ensures Valid(r)
    ensures e.TargetDown? ==> r.targetValue == (if s.targetValue > 1 then s.targetValue - 1 else 1)
    ensures e.TargetUp? ==> r.targetValue == s.targetValue + 1
    ensures e.GoalDown? && s.frequencyType == "WEEKLY_GOAL" ==> r.frequencyGoal == (if s.frequencyGoal > 1 then s.frequencyGoal - 1 else 1)
    ensures e.GoalUp? && s.frequencyType == "WEEKLY_GOAL" ==> r.frequencyGoal == (if s.frequencyGoal < 7 then s.frequencyGoal + 1 else 7)
    ensures e.TapDay? && s.frequencyType == "SPECIFIC_DAYS" ==>
      (e.day in r.frequencyDays <==> e.day !in s.frequencyDays)
      && forall j :: j != e.day ==> (j in r.frequencyDays <==> j in s.frequencyDays)
    ensures e.ChooseFrequency? ==> r.frequencyType == FrequencyTypes[e.index]
    ensures !e.TapDay? ==> r.frequencyDays == s.frequencyDays
    ensures !e.SetName? ==> r.name == s.name
  {
    if IsStepper(e) then StepStepper(s, e)
    else if IsChoice(e) then StepChoice(s, e)
    else StepText(s, e)
  }

  predicate IsStepper(e: Event) {
    e.TargetDown? || e.TargetUp? || e.GoalDown? || e.GoalUp? || e.IntervalDown? || e.IntervalUp?
  }

  predicate IsChoice(e: Event) {
    e.ChooseFrequency? || e.TapDay? || e.ChoosePriority? || e.ChooseIcon? || e.ChooseColor?
  }

  /** The `-` and `+` buttons of the target, weekly goal and interval rows. */
  function StepStepper(s: State, e: Event): (r: State)
    requires Valid(s) && IsStepper(e)
    ensures Valid(r)
    ensures e.TargetDown? ==> r.targetValue == (if s.targetValue > 1 then s.targetValue - 1 else 1)
    ensures e.TargetUp? ==> r.targetValue == s.targetValue + 1
    ensures e.GoalDown? && s.frequencyType == "WEEKLY_GOAL" ==> r.frequencyGoal == (if s.frequencyGoal > 1 then s.frequencyGoal - 1 else 1)
    ensures e.GoalUp? && s.frequencyType == "WEEKLY_GOAL" ==> r.frequencyGoal == (if s.frequencyGoal < 7 then s.frequencyGoal + 1 else 7)
    ensures r.frequencyType == s.frequencyType && r.frequencyDays == s.frequencyDays && r.name == s.name
  {
    match e
    case TargetDown => if s.targetValue > 1 then s.(targetValue := s.targetValue - 1) else s
    case TargetUp => s.(targetValue := s.targetValue + 1)
    case GoalDown =>
      if s.frequencyType == "WEEKLY_GOAL" && s.frequencyGoal > 1 then s.(frequencyGoal := s.frequencyGoal - 1) else s
    case GoalUp =>
      if s.frequencyType == "WEEKLY_GOAL" && s.frequencyGoal < 7 then s.(frequencyGoal := s.frequencyGoal + 1) else s
    case IntervalDown =>
      if s.frequencyType == "REPEAT_INTERVAL" && s.repeatInterval > 1 then s.(repeatInterval := s.repeatInterval - 1) else s
    case IntervalUp =>
      if s.frequencyType == "REPEAT_INTERVAL" then s.(repeatInterval := s.repeatInterval + 1) else s
  }

  /** The frequency, day, priority, icon and colour chips. */
  function StepChoice(s: State, e: Event): (r: State)
    requires Valid(s) && ValidEvent(e) && IsChoice(e)
    ensures Valid(r)
    ensures e.TapDay? && s.frequencyType == "SPECIFIC_DAYS" ==>
      (e.day in r.frequencyDays <==> e.day !in s.frequencyDays)
      && forall j :: j != e.day ==> (j in r.frequencyDays <==> j in s.frequencyDays)
    ensures e.ChooseFrequency? ==> r.frequencyType == FrequencyTypes[e.index]
    ensures !e.TapDay? ==> r.frequencyDays == s.frequencyDays
    ensures r.name == s.name
  {
    match e
    case ChooseFrequency(i) => s.(frequencyType := FrequencyTypes[i])
    case TapDay(k) =>
      if s.frequencyType == "SPECIFIC_DAYS" then s.(frequencyDays := ToggleDay(s.frequencyDays, k)) else s
    case ChoosePriority(i) => s.(priority := Priorities[i])
    case ChooseIcon(i) => s.(iconName := IconNames[i])
    case ChooseColor(i) => s.(color := Palette[i])
  }

  /** The text fields, the unit field and the reminder switch and time. */
  function StepText(s: State, e: Event): (r: State)
    requires Valid(s) && !IsStepper(e) && !IsChoice(e)
    ensures Valid(r)
    ensures r.frequencyType == s.frequencyType && r.frequencyDays == s.frequencyDays
    ensures r.targetValue == s.targetValue && r.frequencyGoal == s.frequencyGoal
    ensures !e.SetName? ==> r.name == s.name
  {
    match e
    case SetName(t) => s.(name := t)
    case SetDescription(t) => s.(description := t)
    case SetUnit(t) => if s.targetValue > 1 then s.(unit := t) else s
    case SetReminder(on) => s.(isReminderOn := on)
    case SetReminderTime(t) => if s.isReminderOn then s.(reminderTime := t) else s
  }

  /** What each remaining event sets, in the state it is raised in. */
  lemma StepSetsField(s: State, e: Event)
    requires Valid(s) && ValidEvent(e)
    ensures var r := Step(s, e);
      && (e.SetName? ==> r.name == e.text)
      && (e.SetDescription? ==> r.description == e.text)
      && (e.SetUnit? ==> r.unit == (if s.targetValue > 1 then e.text else s.unit))
      && (e.IntervalDown? && s.frequencyType == "REPEAT_INTERVAL" ==> r.repeatInterval == (if s.repeatInterval > 1 then s.repeatInterval - 1 else 1))
      && (e.IntervalUp? && s.frequencyType == "REPEAT_INTERVAL" ==> r.repeatInterval == s.repeatInterval + 1)
      && (e.SetReminder? ==> r.isReminderOn == e.on)
      && (e.SetReminderTime? ==> r.reminderTime == (if s.isReminderOn then e.text else s.reminderTime))
      && (e.ChoosePriority? ==> r.priority == Priorities[e.index])
      && (e.ChooseIcon? ==> r.iconName == IconNames[e.index])
      && (e.ChooseColor? ==> r.color == Palette[e.index])
  {
  }

  /** Text fields and the reminder switch: each event changes its own field only. */
  lemma StepTextFrame(s: State, e: Event)
    requires Valid(s) && ValidEvent(e)
    ensures var r := Step(s, e);
      && (e.SetName? ==> r.(name := s.name) == s)
      && (e.SetDescription? ==> r.(description := s.description) == s)
      && (e.SetUnit? ==> r.(unit := s.unit) == s)
      && (e.SetReminder? ==> r.(isReminderOn := s.isReminderOn) == s)
      && (e.SetReminderTime? ==> r.(reminderTime := s.reminderTime) == s)
  {
  }

  /** The steppers change their own number only, and nothing when their row is hidden. */
  lemma StepStepperFrame(s: State, e: Event)
    requires Valid(s) && ValidEvent(e)
    ensures var r := Step(s, e);
      && ((e.TargetDown? || e.TargetUp?) ==> r.(targetValue := s.targetValue) == s)
      && ((e.GoalDown? || e.GoalUp?) ==> r.(frequencyGoal := s.frequencyGoal) == s)
      && ((e.GoalDown? || e.GoalUp?) && s.frequencyType != "WEEKLY_GOAL" ==> r == s)
      && ((e.IntervalDown? || e.IntervalUp?) ==> r.(repeatInterval := s.repeatInterval) == s)
      && ((e.IntervalDown? || e.IntervalUp?) && s.frequencyType != "REPEAT_INTERVAL" ==> r == s)
  {
  }

  /** The chip rows and the day chips change their own choice only. */
  lemma StepChoiceFrame(s: State, e: Event)
    requires Valid(s) && ValidEvent(e)
    ensures var r := Step(s, e);
      && (e.ChooseFrequency? ==> r.(frequencyType := s.frequencyType) == s)
      && (e.TapDay? ==> r.(frequencyDays := s.frequencyDays) == s)
      && (e.TapDay? && s.frequencyType != "SPECIFIC_DAYS" ==> r == s)
      && (e.ChoosePriority? ==> r.(priority := s.priority) == s)
      && (e.ChooseIcon? ==> r.(iconName := s.iconName) == s)
      && (e.ChooseColor? ==> r.(color := s.color) == s)
  {
  }

  /** Any sequence of events from the initial form keeps the invariant. */
  function Run(s: State, events: seq<Event>): (r: State)
    requires Valid(s)
    requires forall i :: 0 <= i < |events| ==> ValidEvent(events[i])
    ensures Valid(r)
    decreases |events|
  {
    if |events| == 0 then s else Run(Step(s, events[0]), events[1..])
  }

  /** Raising then lowering the target gets back to where it was. */
  lemma TargetUpDown(s: State)
    requires Valid(s)
    ensures Step(Step(s, TargetUp), TargetDown) == s
  {
  }

  // ---------------------------------------------------------------------------
  // Save

  datatype Payload = Payload(
    name: string,
    iconName: string,
    color: int,
    targetValue: int,
    unit: Option<string>,
    frequencyType: string,
    frequencyGoal: int,
    frequencyDays: string,
    repeatInterval: int,
    reminderTime: Option<string>,
    priority: string,
    description: Option<string>)

  /** `joinToString(",")` of the day numbers. */
  function JoinDays(days: seq<int>): (r: string)
    ensures |days| == 0 ==> r == ""
  {
    Join(DayStrings(days), ',')
  }

  function DayStrings(days: seq<int>): (r: seq<string>)
    ensures |r| == |days|
    ensures forall i :: 0 <= i < |days| ==> r[i] == IntToString(days[i])
  {
    seq(|days|, i requires 0 <= i < |days| => IntToString(days[i]))
  }

  /** Reads a day list back: split on commas, parse each piece. */
  function ParseDays(text: string): (r: Option<seq<int>>)
    ensures r.Some? ==> |r.value| == |Split(text, ',')|
  {
    ParseAll(Split(text, ','))
  }

  function ParseAll(parts: seq<string>): (r: Option<seq<int>>)
    ensures r.Some? ==> |r.value| == |parts|
    ensures r.Some? ==> forall i :: 0 <= i < |parts| ==> ParseInt(parts[i]) == Some(r.value[i])
  {
    if |parts| == 0 then Some([])
    else
      match ParseInt(parts[0])
      case None => None
      case Some(d) =>
        match ParseAll(parts[1..])
        case None => None
        case Some(rest) => Some([d] + rest)
  }

  /** A non-empty day list survives `joinToString(",")` and a split-and-parse. */
  lemma DaysRoundTrip(days: seq<int>)
    requires |days| >= 1
    ensures ParseDays(JoinDays(days)) == Some(days)
  {
    var parts := DayStrings(days);
    forall i, j | 0 <= i < |parts| && 0 <= j < |parts[i]| ensures parts[i][j] != ',' {
      IntToStringChars(days[i]);
    }
    SplitJoin(parts, ',');
    ParseAllRoundTrip(days);
  }

  lemma IntToStringChars(n: int)
    ensures forall j :: 0 <= j < |IntToString(n)| ==> IntToString(n)[j] != ','
  {
    if n < 0 {
      assert forall j :: 1 <= j < |IntToString(n)| ==> IntToString(n)[j] == NatToString(-n)[j - 1];
    }
  }

  lemma {:induction false} ParseAllRoundTrip(days: seq<int>)
    ensures ParseAll(DayStrings(days)) == Some(days)
  {
    if |days| > 0 {
      var parts := DayStrings(days);
      IntToStringRoundTrip(days[0]);
      assert ParseInt(parts[0]) == Some(days[0]);
      DayStringsTail(days);
      ParseAllRoundTrip(days[1..]);
      assert ParseAll(parts[1..]) == Some(days[1..]);
      assert [days[0]] + days[1..] == days;
    }
  }

  lemma DayStringsTail(days: seq<int>)
    requires |days| > 0
    ensures DayStrings(days)[1..] == DayStrings(days[1..])
  {
  }

  /**
    The save button: nothing for a blank name. Otherwise the unit only for
    a target above 1, the reminder time only when reminders are on, the
    description only when it is not blank, the days joined with commas,
    and the colour as a signed 32-bit ARGB value widened to a long.
  */
  function Save(s: State): (r: Option<Payload>)
    requires Valid(s)
    ensures r.Some? <==> !IsBlank(s.name)
    ensures r.Some? ==>
      && r.value.name == s.name && r.value.iconName == s.iconName
      && r.value.color < 0 && r.value.color % TwoTo32 == s.color
      && r.value.targetValue == s.targetValue
      && (r.value.unit.Some? <==> s.targetValue > 1)
      && (r.value.unit.Some? ==> r.value.unit.value == s.unit)
      && r.value.frequencyType == s.frequencyType && r.value.frequencyGoal == s.frequencyGoal
      && r.value.repeatInterval == s.repeatInterval
      && (r.value.reminderTime.Some? <==> s.isReminderOn)
      && (r.value.reminderTime.Some? ==> r.value.reminderTime.value == s.reminderTime)
      && r.value.priority == s.priority
      && (r.value.description.Some? <==> !IsBlank(s.description))
      && (r.value.description.Some? ==> r.value.description.value == s.description)
      && r.value.frequencyDays == JoinDays(s.frequencyDays)
  {
    if IsBlank(s.name) then None
    else
      Some(Payload(
        s.name, s.iconName, ToInt32(s.color), s.targetValue,
        if s.targetValue > 1 then Some(s.unit) else None,
        s.frequencyType, s.frequencyGoal, JoinDays(s.frequencyDays), s.repeatInterval,
        if s.isReminderOn then Some(s.reminderTime) else None,
        s.priority,
        if IsBlank(s.description) then None else Some(s.description)))
  }

  /** The saved day string reads back as the chosen days, in the order they were tapped. */
  lemma SavedDaysReadBack(s: State)
    requires Valid(s) && !IsBlank(s.name) && |s.frequencyDays| >= 1
    ensures ParseDays(Save(s).value.frequencyDays) == Some(s.frequencyDays)
  {
    DaysRoundTrip(s.frequencyDays);
  }
}

=== FILE: habit_stats.dfy ===
/**
  The habit dashboard's header figures (completion rate, best streak), its
  streak cards, and the habit detail sheet: today's effective progress and
  which controls it offers. Dates are day keys; `today` is a parameter.
*/
module HabitStats {
  import opened Common
  import opened Entities

  // ---------------------------------------------------------------------------
  // Dashboard header

  /** Integer percentage `part * 100 / total` (Kotlin `Int` division), 0 for an empty whole. */
  function Percent(part: nat, total: nat): (r: nat)
    requires part <= total
    ensures r <= 100
    ensures total == 0 ==> r == 0
    ensures total > 0 ==> r * total <= part * 100 < (r + 1) * total
    ensures part == 0 ==> r == 0
    ensures 0 < part == total ==> r == 100
  {
    if total > 0 then
      PercentBounds(part, total);
      part * 100 / total
    else 0
  }

  lemma PercentBounds(part: nat, total: nat)
    requires 0 < total && part <= total
    ensures var r := part * 100 / total;
      && 0 <= r <= 100
      && r * total <= part * 100 < (r + 1) * total
      && (part == total ==> r == 100)
  {
    var n := part * 100;
    var r := n / total;
    var m := n % total;
    assert n == r * total + m && 0 <= m < total;
    if r > 100 {
      assert false;
    }
    if part == total {
      assert n == 100 * total;
      if r < 100 {
        assert false;
      }
    }
  }

  /** Multiplying by a positive number keeps the order, both ways. */
  lemma ScaleStrict(a: int, b: int, c: int)
    requires c > 0
    ensures a * c < b * c <==> a < b
  {
    if a < b {
      assert b * c == a * c + (b - a) * c;
    } else {
      assert a * c == b * c + (a - b) * c;
    }
  }

  /** A larger share never yields a smaller percentage. */
  lemma {:induction false} PercentMonotone(a: nat, b: nat, total: nat)
    requires a <= b <= total
    ensures Percent(a, total) <= Percent(b, total)
  {
    if total > 0 {
      var ra, rb := Percent(a, total), Percent(b, total);
      assert ra * total <= a * 100 <= b * 100 < (rb + 1) * total;
      ScaleStrict(ra, rb + 1, total);
    }
  }

  /** How many habits are completed today. */
  function CompletedCount(habits: seq<Habit>, today: int): (n: nat)
    ensures n <= |habits|
  {
    Count(habits, h => CompletedToday(h, today))
  }

  /** The header's "Completion" figure. */
  function CompletionRate(habits: seq<Habit>, today: int): (r: nat)
    ensures r <= 100
    ensures |habits| == 0 ==> r == 0
    ensures |habits| > 0 ==> r * |habits| <= CompletedCount(habits, today) * 100 < (r + 1) * |habits|
  {
    Percent(CompletedCount(habits, today), |habits|)
  }

  /** Every habit done today gives 100; none done gives 0. */
  lemma CompletionRateExtremes(habits: seq<Habit>, today: int)
    ensures |habits| > 0 && (forall i :: 0 <= i < |habits| ==> CompletedToday(habits[i], today)) ==> CompletionRate(habits, today) == 100
    ensures (forall i :: 0 <= i < |habits| ==> !CompletedToday(habits[i], today)) ==> CompletionRate(habits, today) == 0
  {
    var p := h => CompletedToday(h, today);
    if forall i :: 0 <= i < |habits| ==> CompletedToday(habits[i], today) {
      FilterAll(habits, p);
    }
    if forall i :: 0 <= i < |habits| ==> !CompletedToday(habits[i], today) {
      FilterNone(habits, p);
    }
  }

  /** The header's "Best Streak": the largest streak, or 0 without habits. */
  function BestStreak(habits: seq<Habit>): (r: int)
    ensures |habits| == 0 ==> r == 0
    ensures forall i :: 0 <= i < |habits| ==> habits[i].streak <= r
    ensures |habits| > 0 ==> exists i :: 0 <= i < |habits| && habits[i].streak == r
    decreases |habits|
  {
    if |habits| == 0 then 0
    else if |habits| == 1 then habits[0].streak
    else
      var rest := BestStreak(habits[1..]);
      assert forall i :: 1 <= i < |habits| ==> habits[i] == habits[1..][i - 1];
      if habits[0].streak >= rest then habits[0].streak else rest
  }

  /** The best streak does not depend on the order of the list. */
  lemma BestStreakOrderFree(a: seq<Habit>, b: seq<Habit>)
    requires multiset(a) == multiset(b)
    ensures BestStreak(a) == BestStreak(b)
  {
    if |a| > 0 {
      var ra, rb := BestStreak(a), BestStreak(b);
      var i :| 0 <= i < |a| && a[i].streak == ra;
      var j :| 0 <= j < |b| && b[j].streak == rb;
      assert a[i] in multiset(b);
      assert b[j] in multiset(a);
    } else {
      assert |b| == |multiset(b)| == 0;
    }
  }

  /** A streak card shows a habit's name, streak and colour. */
  datatype StreakCard = StreakCard(name: string, streak: int, color: int)

  /** `Habit.color`: the stored Long's low 32 bits read as a signed ARGB `Int`. */
  function HabitColor(colorHex: int): (c: int)
    ensures -TwoTo31 <= c < TwoTo31
    ensures (c - colorHex) % TwoTo32 == 0
  {
    ToInt32(colorHex % TwoTo32)
  }

  /** A colour saved by the habit creator (a sign-extended ARGB value) is shown as saved. */
  lemma SavedColorShown(argb: int)
    requires 0 <= argb < TwoTo32
    ensures HabitColor(ToInt32(argb)) == ToInt32(argb)
  {
  }

  /** One streak card per habit, in list order. */
  function StreakCards(habits: seq<Habit>): (r: seq<StreakCard>)
    ensures |r| == |habits|
    ensures forall i :: 0 <= i < |habits| ==>
      r[i].name == habits[i].name && r[i].streak == habits[i].streak && (r[i].color - habits[i].colorHex) % TwoTo32 == 0
  {
    seq(|habits|, i requires 0 <= i < |habits| => StreakCard(habits[i].name, habits[i].streak, HabitColor(habits[i].colorHex)))
  }

  /** The best streak is the streak of one of the cards, and no card shows more. */
  lemma BestStreakOnACard(habits: seq<Habit>)
    requires |habits| > 0
    ensures exists c :: c in StreakCards(habits) && c.streak == BestStreak(habits)
    ensures forall c :: c in StreakCards(habits) ==> c.streak <= BestStreak(habits)
  {
    var cards := StreakCards(habits);
    var i :| 0 <= i < |habits| && habits[i].streak == BestStreak(habits);
    assert cards[i] in cards;
  }

  // ---------------------------------------------------------------------------
  // Habit detail sheet

  /** Progress counts only on the day it was recorded; on any other day it reads 0. */
  function EffectiveProgress(h: Habit, today: int): (p: int)
    ensures h.progressDate == Some(today) ==> p == h.currentProgress
    ensures h.progressDate != Some(today) ==> p == 0
  {
    if h.progressDate == Some(today) then h.currentProgress else 0
  }
  /** What the sheet's controls can emit: a progress delta, or the done/undone toggle. */
  datatype Action = ProgressChange(delta: int) | Toggle

  /** The sheet below the header. */
  datatype Controls =
    | Counter(progress: int, target: int, actions: seq<Action>, goalMet: bool)
    | ToggleButton(caption: string, actions: seq<Action>)

  /**
    A habit with a target above 1 gets a minus/plus counter around today's
    progress, with "Goal Met!" once completed today; any other habit gets a
    single toggle button.
  */
  function DetailControls(h: Habit, today: int): (c: Controls)
    ensures c.Counter? <==> h.targetValue > 1
    ensures c.Counter? ==> c.progress == EffectiveProgress(h, today) && c.target == h.targetValue
    ensures c.Counter? ==> c.actions == [ProgressChange(-1), ProgressChange(1)]
    ensures c.Counter? ==> (c.goalMet <==> CompletedToday(h, today))
    ensures c.ToggleButton? ==> c.actions == [Toggle]
    ensures c.ToggleButton? ==> (c.caption == "Mark Incomplete" <==> CompletedToday(h, today))
    ensures c.ToggleButton? && !CompletedToday(h, today) ==> c.caption == "Complete for Today"
  {
    if h.targetValue > 1 then
      Counter(EffectiveProgress(h, today), h.targetValue, [ProgressChange(-1), ProgressChange(1)], CompletedToday(h, today))
    else
      ToggleButton(if CompletedToday(h, today) then "Mark Incomplete" else "Complete for Today", [Toggle])
  }
  /**
    The "Last 7 Days" row. The sheet shows a fixed pattern; only the
    sixth circle follows the habit (its completion today).
  */
  function WeekCircles(h: Habit, today: int): (r: seq<bool>)
    ensures |r| == 7
    ensures r[5] == CompletedToday(h, today)
  {
    [true, true, false, true, true, CompletedToday(h, today), false]
  }
}

=== FILE: launcher.dfy ===
/**
  The developer launcher script: a readiness probe over `adb devices`, the
  emulator launch sequence (image listing, lenient device choice, boot
  mode), the clean-install build, the command menu and the startup prompt.

  External programs are not run. Each one is represented by what the script
  can observe of it (`ToolResult`), and each operation returns the argument
  vectors it would execute, in order, together with its outcome. Console
  input is a parameter; `None` stands for end of input at a prompt.
*/
module Launcher {
  import opened Common

  /** What a subprocess call gives back: it ran (exit code, captured stdout), or it raised. */
  datatype ToolResult = Completed(exitCode: int, stdout: string) | Raised(error: ToolError)

  datatype ToolError = FileNotFound | OtherError

  // ---------------------------------------------------------------------------
  // Python string helpers

  /** Python `str.isspace()` for one character. */
  predicate PyIsSpace(c: char) {
    IsWhitespace(c) || c == '\U{85}'
  }

  /** A line boundary for Python `str.splitlines()`. */
  predicate IsLineBreak(c: char) {
    || c == '\n' || c == '\r' || c == '\U{0B}' || c == '\U{0C}'
    || ('\U{1C}' <= c <= '\U{1E}')
    || c == '\U{85}' || c == '\U{2028}' || c == '\U{2029}'
  }

  lemma LineBreakIsSpace(c: char)
    ensures IsLineBreak(c) ==> PyIsSpace(c)
  {
  }

  /**
    Whitespace as `int()` skips it: CPython first turns every non-ASCII
    `isspace()` character into a space and then skips only the ASCII blanks
    tab to carriage return and space, so the separators U+001C to U+001F,
    which `str.strip()` drops, are not whitespace here.
  */
  predicate IntSpace(c: char) {
    c == ' ' || ('\t' <= c <= '\r') || (c > '\U{7F}' && PyIsSpace(c))
  }

  /** `int()`'s whitespace is Python whitespace without the four ASCII separators. */
  lemma IntSpaceIsPySpace(c: char)
    ensures IntSpace(c) <==> PyIsSpace(c) && !('\U{1C}' <= c <= '\U{1F}')
  {
  }

  /** Number of leading characters in the set `sp`. */
  function LeadingSpaces(s: string, sp: char -> bool): (k: nat)
    ensures k <= |s|
    ensures forall j :: 0 <= j < k ==> sp(s[j])
    ensures k < |s| ==> !sp(s[k])
  {
    if |s| == 0 || !sp(s[0]) then 0 else 1 + LeadingSpaces(s[1..], sp)
  }

  /** Length of `s` once its trailing characters in the set `sp` are dropped. */
  function TrimmedEnd(s: string, sp: char -> bool): (k: nat)
    ensures k <= |s|
    ensures forall j :: k <= j < |s| ==> sp(s[j])
    ensures k > 0 ==> !sp(s[k - 1])
  {
    if |s| == 0 || !sp(s[|s| - 1]) then |s| else TrimmedEnd(s[..|s| - 1], sp)
  }

  /** Drops the leading and trailing characters in the set `sp`. */
  function StripBy(s: string, sp: char -> bool): (r: string)
    ensures |r| <= |s|
    ensures |r| > 0 ==> !sp(r[0]) && !sp(r[|r| - 1])
    ensures |r| == 0 <==> forall j :: 0 <= j < |s| ==> sp(s[j])
    ensures LeadingSpaces(s, sp) + |r| <= |s|
    ensures r == s[LeadingSpaces(s, sp)..LeadingSpaces(s, sp) + |r|]
    ensures forall j :: LeadingSpaces(s, sp) + |r| <= j < |s| ==> sp(s[j])
  {
    var i := LeadingSpaces(s, sp);
    var k := TrimmedEnd(s[i..], sp);
    s[i..i + k]
  }

  /** Stripping removes exactly the padding around a body that neither begins nor ends with it. */
  lemma {:induction false} StripByAround(pre: string, body: string, post: string, sp: char -> bool)
    requires forall j :: 0 <= j < |pre| ==> sp(pre[j])
    requires forall j :: 0 <= j < |post| ==> sp(post[j])
    requires |body| > 0 ==> !sp(body[0]) && !sp(body[|body| - 1])
    ensures StripBy(pre + body + post, sp) == body
  {
    var s := pre + body + post;
    if |body| == 0 {
      assert forall j :: 0 <= j < |s| ==> sp(s[j]) by {
        forall j | 0 <= j < |s| ensures sp(s[j]) {
          if j < |pre| { assert s[j] == pre[j]; } else { assert s[j] == post[j - |pre|]; }
        }
      }
    } else {
      var i := LeadingSpaces(s, sp);
      assert s[|pre|] == body[0];
      assert forall j :: 0 <= j < |pre| ==> s[j] == pre[j];
      assert i == |pre|;
      var t := s[i..];
      assert t == body + post;
      var k := TrimmedEnd(t, sp);
      assert t[|body| - 1] == body[|body| - 1];
      assert forall j :: |body| <= j < |t| ==> t[j] == post[j - |body|];
      assert k == |body|;
      assert s[i..i + k] == body;
    }
  }

  /** Python `str.strip()`: drops leading and trailing whitespace. */
  function PyStrip(s: string): (r: string)
    ensures |r| <= |s|
    ensures |r| > 0 ==> !PyIsSpace(r[0]) && !PyIsSpace(r[|r| - 1])
    ensures |r| == 0 <==> forall j :: 0 <= j < |s| ==> PyIsSpace(s[j])
    ensures LeadingSpaces(s, PyIsSpace) + |r| <= |s|
    ensures r == s[LeadingSpaces(s, PyIsSpace)..LeadingSpaces(s, PyIsSpace) + |r|]
    ensures forall j :: LeadingSpaces(s, PyIsSpace) + |r| <= j < |s| ==> PyIsSpace(s[j])
  {
    StripBy(s, PyIsSpace)
  }

  /** Python whitespace around a body that neither begins nor ends with it is stripped exactly. */
  lemma PyStripAround(pre: string, body: string, post: string)
    requires forall j :: 0 <= j < |pre| ==> PyIsSpace(pre[j])
    requires forall j :: 0 <= j < |post| ==> PyIsSpace(post[j])
    requires |body| > 0 ==> !PyIsSpace(body[0]) && !PyIsSpace(body[|body| - 1])
    ensures PyStrip(pre + body + post) == body
  {
    StripByAround(pre, body, post, PyIsSpace);
  }

  /** Lower case of an ASCII letter; every other character is kept. */
  function LowerChar(c: char): char {
    if 'A' <= c <= 'Z' then (c as int + 32) as char else c
  }

  /** Python `str.lower()` on ASCII letters. */
  function PyLower(s: string): (r: string)
    ensures |r| == |s|
  {
    seq(|s|, j requires 0 <= j < |s| => LowerChar(s[j]))
  }

  /** `sub` occurs in `s` starting at position `i`. */
  predicate OccursAt(s: string, sub: string, i: int) {
    0 <= i <= |s| - |sub| && s[i..i + |sub|] == sub
  }

  /** Python `sub in s` for strings. */
  function Contains(s: string, sub: string): (r: bool)
    ensures r <==> exists i :: OccursAt(s, sub, i)
    decreases |s|
  {
    if |sub| > |s| then false
    else if s[..|sub|] == sub then
      assert OccursAt(s, sub, 0);
      true
    else
      var r := Contains(s[1..], sub);
      assert r ==> exists i :: OccursAt(s, sub, i) by {
        if r {
          var i :| OccursAt(s[1..], sub, i);
          assert OccursAt(s, sub, i + 1);
        }
      }
      assert (exists i :: OccursAt(s, sub, i)) ==> r by {
        if exists i :: OccursAt(s, sub, i) {
          var i :| OccursAt(s, sub, i);
          assert OccursAt(s[1..], sub, i - 1);
        }
      }
      r
  }

  /** Containment of substrings is transitive. */
  lemma {:induction false} ContainsTransitive(s: string, mid: string, sub: string)
    requires Contains(s, mid) && Contains(mid, sub)
    ensures Contains(s, sub)
  {
    var i :| OccursAt(s, mid, i);
    var j :| OccursAt(mid, sub, j);
    forall k | 0 <= k < |sub| ensures s[i + j..i + j + |sub|][k] == sub[k] {
      assert s[i + j..i + j + |sub|][k] == s[i..i + |mid|][j + k];
    }
    assert s[i + j..i + j + |sub|] == sub;
    assert OccursAt(s, sub, i + j);
  }

  // ---------------------------------------------------------------------------
  // Readiness probe

  const DevicesCall: seq<string> := ["adb", "devices"]

  /**
    `is_emulator_running`: the captured output of `adb devices` mentions both
    "emulator" and "device"; a call that raises means not running.
  */
  function IsEmulatorRunning(devices: ToolResult): (running: bool)
    ensures devices.Raised? ==> !running
    ensures devices.Completed? ==>
      (running <==> Contains(devices.stdout, "emulator") && Contains(devices.stdout, "device"))
  {
    match devices
    case Raised(_) => false
    case Completed(_, out) => Contains(out, "emulator") && Contains(out, "device")
  }

  /**
    `adb devices` always prints the header "List of devices attached", which
    itself contains "device"; so on real output readiness reduces to the
    word "emulator" appearing anywhere.
  */
  lemma ReadinessWithHeader(code: int, out: string)
    requires Contains(out, "List of devices attached")
    ensures IsEmulatorRunning(Completed(code, out)) <==> Contains(out, "emulator")
  {
    var header := "List of devices attached";
    assert OccursAt(header, "device", 8);
    ContainsTransitive(out, header, "device");
  }

  // ---------------------------------------------------------------------------
  // Emulator image listing

  /** Length of the first line of `s`, up to the first line boundary. */
  function LineEnd(s: string): (k: nat)
    ensures k <= |s|
    ensures forall j :: 0 <= j < k ==> !IsLineBreak(s[j])
    ensures k < |s| ==> IsLineBreak(s[k])
  {
    if |s| == 0 || IsLineBreak(s[0]) then 0 else 1 + LineEnd(s[1..])
  }

  /**
    Python `str.splitlines()`: the lines between boundaries, boundaries
    dropped, "\r\n" counting as one boundary, no empty line after a final
    boundary.
  */
  function SplitLines(s: string): (lines: seq<string>)
    ensures forall i, j :: 0 <= i < |lines| && 0 <= j < |lines[i]| ==> !IsLineBreak(lines[i][j])
    ensures |lines| == 0 <==> |s| == 0
    decreases |s|
  {
    if |s| == 0 then []
    else
      var k := LineEnd(s);
      if k == |s| then [s]
      else
        var skip := if s[k] == '\r' && k + 1 < |s| && s[k + 1] == '\n' then 2 else 1;
        [s[..k]] + SplitLines(s[k + skip..])
  }

  /** Lines without boundaries, joined with "\n", split back into themselves. */
  lemma {:induction false} SplitLinesJoin(lines: seq<string>)
    requires forall i :: 0 <= i < |lines| ==> |lines[i]| > 0
    requires forall i, j :: 0 <= i < |lines| && 0 <= j < |lines[i]| ==> !IsLineBreak(lines[i][j])
    ensures SplitLines(Join(lines, '\n')) == lines
  {
    if |lines| == 0 {
    } else if |lines| == 1 {
      assert LineEnd(lines[0]) == |lines[0]|;
    } else {
      var a, rest := lines[0], lines[1..];
      var s := Join(lines, '\n');
      assert s == a + ['\n'] + Join(rest, '\n');
      assert s[..|a|] == a;
      assert forall j :: 0 <= j < |a| ==> s[j] == a[j];
      assert s[|a|] == '\n';
      assert LineEnd(s) == |a|;
      assert s[|a| + 1..] == Join(rest, '\n');
      SplitLinesJoin(rest);
    }
  }

  predicate NonEmpty(line: string) {
    |line| > 0
  }

  /** The image names: `stdout.strip().splitlines()` without the empty lines. */
  function ParseAvds(stdout: string): (avds: seq<string>)
    ensures forall i :: 0 <= i < |avds| ==> |avds[i]| > 0
    ensures forall i, j :: 0 <= i < |avds| && 0 <= j < |avds[i]| ==> !IsLineBreak(avds[i][j])
    ensures |avds| <= |SplitLines(PyStrip(stdout))|
  {
    var lines := SplitLines(PyStrip(stdout));
    var avds := Filter(lines, NonEmpty);
    forall i | 0 <= i < |avds| ensures forall j :: 0 <= j < |avds[i]| ==> !IsLineBreak(avds[i][j]) {
      assert avds[i] in lines;
    }
    avds
  }

  /**
    Names free of whitespace, one per line with any surrounding whitespace
    (such as the trailing newline the emulator prints), are listed back
    exactly, in order.
  */
  lemma {:induction false} ParseAvdsListing(names: seq<string>, pre: string, post: string)
    requires forall i :: 0 <= i < |names| ==> |names[i]| > 0
    requires forall i, j :: 0 <= i < |names| && 0 <= j < |names[i]| ==> !PyIsSpace(names[i][j])
    requires forall j :: 0 <= j < |pre| ==> PyIsSpace(pre[j])
    requires forall j :: 0 <= j < |post| ==> PyIsSpace(post[j])
    ensures ParseAvds(pre + Join(names, '\n') + post) == names
  {
    var body := Join(names, '\n');
    if |names| > 0 {
      JoinEnds(names);
    }
    PyStripAround(pre, body, post);
    SplitLinesJoin(names);
    FilterAll(names, NonEmpty);
  }

  lemma {:induction false} JoinEnds(names: seq<string>)
    requires |names| > 0
    requires forall i :: 0 <= i < |names| ==> |names[i]| > 0
    ensures |Join(names, '\n')| > 0
    ensures Join(names, '\n')[0] == names[0][0]
    ensures Join(names, '\n')[|Join(names, '\n')| - 1] == names[|names| - 1][|names[|names| - 1]| - 1]
  {
    if |names| > 1 {
      JoinEnds(names[1..]);
    }
  }

  // ---------------------------------------------------------------------------
  // Python int()

  predicate IsDigitOrUnderscore(c: char) {
    IsDigit(c) || c == '_'
  }

  /**
    A decimal literal as `int()` accepts it: digits, with single underscores
    allowed between digits.
  */
  predicate WellFormedDigits(s: string) {
    && |s| > 0
    && IsDigit(s[0]) && IsDigit(s[|s| - 1])
    && (forall j :: 0 <= j < |s| ==> IsDigitOrUnderscore(s[j]))
    && (forall j :: 0 <= j < |s| - 1 ==> !(s[j] == '_' && s[j + 1] == '_'))
  }

  function DropUnderscores(s: string): (r: string)
    requires forall j :: 0 <= j < |s| ==> IsDigitOrUnderscore(s[j])
    ensures forall j :: 0 <= j < |r| ==> IsDigit(r[j])
    ensures (forall j :: 0 <= j < |s| ==> IsDigit(s[j])) ==> r == s
  {
    if |s| == 0 then ""
    else if s[0] == '_' then DropUnderscores(s[1..])
    else
      assert IsDigitOrUnderscore(s[0]);
      [s[0]] + DropUnderscores(s[1..])
  }

  /** Value of an unsigned literal, if well formed. */
  function PyDigits(s: string): (r: Option<nat>)
    ensures r.Some? <==> WellFormedDigits(s)
    ensures r.Some? && (forall j :: 0 <= j < |s| ==> IsDigit(s[j])) ==> r.value == DigitsValue(s)
  {
    if WellFormedDigits(s) then Some(DigitsValue(DropUnderscores(s))) else None
  }

  /** An optionally signed decimal literal. */
  predicate IntLiteral(t: string) {
    WellFormedDigits(t) || (|t| > 0 && (t[0] == '-' || t[0] == '+') && WellFormedDigits(t[1..]))
  }

  /** The text `int()` parses: `text` without its leading and trailing `IntSpace`. */
  function IntStrip(text: string): (r: string)
    ensures |r| <= |text|
    ensures |r| > 0 ==> !IntSpace(r[0]) && !IntSpace(r[|r| - 1])
    ensures |r| == 0 <==> forall j :: 0 <= j < |text| ==> IntSpace(text[j])
    ensures LeadingSpaces(text, IntSpace) + |r| <= |text|
    ensures r == text[LeadingSpaces(text, IntSpace)..LeadingSpaces(text, IntSpace) + |r|]
  {
    StripBy(text, IntSpace)
  }

  /** An optionally signed literal with nothing around it, as `int()` reads it after skipping blanks. */
  function ParseLiteral(t: string): (r: Option<int>)
    ensures r.Some? <==> IntLiteral(t)
    ensures r.Some? ==> exists j :: 0 <= j < |t| && IsDigit(t[j])
    ensures r.Some? ==> (r.value < 0 ==> t[0] == '-')
    ensures r.Some? && t[0] != '-' ==> r.value >= 0
  {
    if |t| > 0 && (t[0] == '-' || t[0] == '+') then
      match PyDigits(t[1..])
      case Some(n) =>
        assert t[1..][0] == t[1];
        Some(if t[0] == '-' then -(n as int) else n as int)
      case None => None
    else
      match PyDigits(t)
      case Some(n) =>
        assert IsDigit(t[0]);
        Some(n as int)
      case None => None
  }

  /**
    Python `int(text)` in base 10: surrounding `int()` whitespace ignored, an
    optional sign, then a well-formed literal; anything else raises (`None`).
  */
  function PyInt(text: string): (r: Option<int>)
    ensures r.Some? <==> IntLiteral(IntStrip(text))
    ensures r.Some? ==> exists j :: 0 <= j < |text| && IsDigit(text[j])
    ensures r.Some? ==> (r.value < 0 ==> IntStrip(text)[0] == '-')
    ensures r.Some? && IntStrip(text)[0] != '-' ==> r.value >= 0
  {
    DigitInside(text);
    ParseLiteral(IntStrip(text))
  }

  /** A digit of the stripped text is a digit of the text. */
  lemma DigitInside(text: string)
    ensures (exists k :: 0 <= k < |IntStrip(text)| && IsDigit(IntStrip(text)[k])) ==>
      exists j :: 0 <= j < |text| && IsDigit(text[j])
  {
    var t := IntStrip(text);
    if k :| 0 <= k < |t| && IsDigit(t[k]) {
      var i := LeadingSpaces(text, IntSpace);
      assert text[i + k] == t[k];
    }
  }

  /** Padding with blanks, newlines or non-ASCII spaces is ignored, as by `str.strip()`. */
  lemma PyIntPadded(pre: string, body: string, post: string)
    requires forall j :: 0 <= j < |pre| ==> IntSpace(pre[j])
    requires forall j :: 0 <= j < |post| ==> IntSpace(post[j])
    requires |body| > 0 ==> !IntSpace(body[0]) && !IntSpace(body[|body| - 1])
    ensures PyInt(pre + body + post) == PyInt(body)
  {
    StripByAround(pre, body, post, IntSpace);
    StripByAround("", body, "", IntSpace);
    assert "" + body + "" == body;
  }

  /**
    An ASCII separator is not skipped: `int("\x1c2")` raises, although
    `"\x1c2".strip()` is `"2"`.
  */
  lemma PyIntKeepsSeparators()
    ensures PyStrip("\U{1C}2") == "2"
    ensures PyInt("\U{1C}2") == None
  {
    var s := "\U{1C}2";
    PyStripAround([s[0]], [s[1]], "");
    assert [s[0]] + [s[1]] + "" == s;
    IntStripUnpadded(s);
    assert !IntLiteral(s);
  }


  /** `int()` reads back what `str()` prints. */
  lemma PyDigitsOfNat(m: nat)
    ensures PyDigits(NatToString(m)) == Some(m)
  {
    var d := NatToString(m);
    NatToStringRoundTrip(m);
    assert WellFormedDigits(d);
  }

  lemma IntStripUnpadded(s: string)
    requires |s| > 0 ==> !IntSpace(s[0]) && !IntSpace(s[|s| - 1])
    ensures IntStrip(s) == s
  {
    StripByAround("", s, "", IntSpace);
    assert "" + s + "" == s;
  }

  lemma {:induction false} PyIntOfNegative(m: nat)
    requires m > 0
    ensures PyInt("-" + NatToString(m)) == Some(-(m as int))
  {
    var digits := NatToString(m);
    var s := "-" + digits;
    assert s[|s| - 1] == digits[|digits| - 1];
    IntStripUnpadded(s);
    PyDigitsOfNat(m);
    assert s[1..] == digits;
  }

  lemma {:induction false} PyIntOfNonNegative(m: nat)
    ensures PyInt(NatToString(m)) == Some(m)
  {
    var d := NatToString(m);
    IntStripUnpadded(d);
    PyDigitsOfNat(m);
    var t := IntStrip(d);
    assert t == d;
    assert !(t[0] == '-' || t[0] == '+');
    assert PyDigits(t) == Some(m);
  }

  lemma PyIntOfDecimal(n: int)
    ensures PyInt(IntToString(n)) == Some(n)
  {
    if n < 0 {
      var m: nat := -n;
      PyIntOfNegative(m);
      calc {
        PyInt(IntToString(n));
        { assert IntToString(n) == "-" + NatToString(m); }
        PyInt("-" + NatToString(m));
      }
    } else {
      PyIntOfNonNegative(n);
    }
  }

  // ---------------------------------------------------------------------------
  // Device choice and boot mode

  /**
    The device prompt: `avds[int(answer) - 1]` with Python indexing, so
    negative positions count from the end and an answer of 0 picks the last
    image; any failure (end of input, not a number, out of range) picks the
    first image.
  */
  function SelectDevice(avds: seq<string>, answer: Option<string>): (target: string)
    requires |avds| > 0
    ensures target in avds
    ensures answer.None? ==> target == avds[0]
    ensures answer.Some? && PyInt(answer.value).None? ==> target == avds[0]
    ensures answer.Some? && PyInt(answer.value).Some? ==>
      var choice := PyInt(answer.value).value - 1;
      target == (if 0 <= choice < |avds| then avds[choice]
                 else if -|avds| <= choice < 0 then avds[|avds| + choice]
                 else avds[0])
  {
    match answer
    case None => avds[0]
    case Some(line) =>
      match PyInt(line)
      case None => avds[0]
      case Some(n) =>
        var choice := n - 1;
        if -|avds| <= choice < |avds| then avds[if choice < 0 then |avds| + choice else choice]
        else avds[0]
  }

  /** Typing the 1-based number shown next to an image selects that image. */
  lemma SelectByNumber(avds: seq<string>, k: int)
    requires 1 <= k <= |avds|
    ensures SelectDevice(avds, Some(IntToString(k))) == avds[k - 1]
  {
    PyIntOfDecimal(k);
  }

  /** Typing 0 selects the last image, not the first. */
  lemma SelectZeroIsLast(avds: seq<string>)
    requires |avds| > 0
    ensures SelectDevice(avds, Some("0")) == avds[|avds| - 1]
  {
    PyIntOfDecimal(0);
    assert IntToString(0) == "0";
  }
  /** An answer led by an ASCII separator is not a number, so the first image is chosen. */
  lemma SelectSeparatorIsFirst(avds: seq<string>)
    requires |avds| > 1
    ensures SelectDevice(avds, Some("\U{1C}2")) == avds[0]
  {
    PyIntKeepsSeparators();
  }


  /** The extra emulator flag for the trimmed boot-mode answer. */
  function BootFlags(answer: string): (flags: seq<string>)
    ensures PyStrip(answer) == "2" <==> flags == ["-no-snapshot-load"]
    ensures PyStrip(answer) == "3" <==> flags == ["-wipe-data"]
    ensures PyStrip(answer) != "2" && PyStrip(answer) != "3" <==> flags == []
  {
    var mode := PyStrip(answer);
    if mode == "2" then ["-no-snapshot-load"]
    else if mode == "3" then ["-wipe-data"]
    else []
  }

  /** The emulator command line. */
  function LaunchArgv(emulatorBin: string, target: string, bootAnswer: string): (argv: seq<string>)
    ensures |argv| == 3 || |argv| == 4
    ensures argv[..3] == [emulatorBin, "-avd", target]
    ensures |argv| == 4 <==> PyStrip(bootAnswer) in {"2", "3"}
    ensures argv[3..] == BootFlags(bootAnswer)
  {
    [emulatorBin, "-avd", target] + BootFlags(bootAnswer)
  }

  // ---------------------------------------------------------------------------
  // Launch sequence

  /** Everything the launch sequence reads from the outside world. */
  datatype LaunchInputs = LaunchInputs(
    devices: ToolResult,
    avdListing: ToolResult,
    selection: Option<string>,
    bootMode: Option<string>,
    spawn: ToolResult,
    wait: ToolResult)

  /** How the sequence ends; `Crashed` is an exception escaping the script. */
  datatype LaunchOutcome = AlreadyRunning | ToolMissing | NoImages | Launched(argv: seq<string>) | Crashed

  /** The commands run, in order, and how the sequence ended. */
  datatype Run<O> = Run(calls: seq<seq<string>>, outcome: O)

  function ListCall(emulatorBin: string): seq<string> {
    [emulatorBin, "-list-avds"]
  }

  const WaitCall: seq<string> := ["adb", "wait-for-device"]

  /** Whether the sequence gets as far as its two prompts: nothing running, and images listed. */
  predicate AsksPrompts(devices: ToolResult, avdListing: ToolResult) {
    !IsEmulatorRunning(devices) && avdListing.Completed? && ParseAvds(avdListing.stdout) != []
  }

  /**
    `launch_emulator_sequence`. The device prompt's failures are all caught;
    end of input at the boot-mode prompt, a listing error other than a
    missing tool, and a failure to start the emulator or to wait for it all
    escape.
  */
  function LaunchSequence(emulatorBin: string, inp: LaunchInputs): (run: Run<LaunchOutcome>)
    ensures |run.calls| > 0 && run.calls[0] == DevicesCall
    ensures run.outcome == AlreadyRunning <==> IsEmulatorRunning(inp.devices)
    ensures run.outcome == AlreadyRunning ==> run.calls == [DevicesCall]
    ensures run.outcome == ToolMissing <==>
      !IsEmulatorRunning(inp.devices) && inp.avdListing == Raised(FileNotFound)
    ensures run.outcome == NoImages <==>
      !IsEmulatorRunning(inp.devices) && inp.avdListing.Completed? && ParseAvds(inp.avdListing.stdout) == []
    ensures run.outcome == Crashed <==>
      || (!IsEmulatorRunning(inp.devices) && inp.avdListing == Raised(OtherError))
      || (AsksPrompts(inp.devices, inp.avdListing) && (inp.bootMode.None? || inp.spawn.Raised? || inp.wait.Raised?))
    ensures run.outcome.Launched? <==>
      AsksPrompts(inp.devices, inp.avdListing) && inp.bootMode.Some? && inp.spawn.Completed? && inp.wait.Completed?
    ensures run.outcome.Launched? ==>
      && AsksPrompts(inp.devices, inp.avdListing)
      && inp.bootMode.Some?
      && run.outcome.argv == LaunchArgv(emulatorBin, SelectDevice(ParseAvds(inp.avdListing.stdout), inp.selection), inp.bootMode.value)
      && run.calls == [DevicesCall, ListCall(emulatorBin), run.outcome.argv, WaitCall]
  {
    if IsEmulatorRunning(inp.devices) then Run([DevicesCall], AlreadyRunning)
    else
      var listed := [DevicesCall, ListCall(emulatorBin)];
      match inp.avdListing
      case Raised(FileNotFound) => Run(listed, ToolMissing)
      case Raised(OtherError) => Run(listed, Crashed)
      case Completed(_, out) =>
        var avds := ParseAvds(out);
        if |avds| == 0 then Run(listed, NoImages)
        else
          var target := SelectDevice(avds, inp.selection);
          match inp.bootMode
          case None => Run(listed, Crashed)
          case Some(mode) =>
            var argv := LaunchArgv(emulatorBin, target, mode);
            if inp.spawn.Raised? then Run(listed + [argv], Crashed)
            else if inp.wait.Raised? then Run(listed + [argv, WaitCall], Crashed)
            else Run(listed + [argv, WaitCall], Launched(argv))
  }

  /**
    When nothing is running and images are listed, the sequence launches
    the chosen image exactly when the boot-mode prompt gets a line and the
    emulator and `adb` can be started.
  */
  lemma LaunchReached(emulatorBin: string, inp: LaunchInputs, k: int)
    requires !IsEmulatorRunning(inp.devices)
    requires inp.avdListing.Completed? && 1 <= k <= |ParseAvds(inp.avdListing.stdout)|
    requires inp.selection == Some(IntToString(k)) && inp.bootMode.Some?
    requires inp.spawn.Completed? && inp.wait.Completed?
    ensures LaunchSequence(emulatorBin, inp).outcome == Launched(LaunchArgv(emulatorBin, ParseAvds(inp.avdListing.stdout)[k - 1], inp.bootMode.value))
  {
    SelectByNumber(ParseAvds(inp.avdListing.stdout), k);
  }

  // ---------------------------------------------------------------------------
  // Build

  /** The Gradle wrapper for the host platform. */
  function GradleCommand(isWindows: bool): string {
    if isWindows then "gradlew.bat" else "./gradlew"
  }

  datatype BuildOutcome = Succeeded | Failed | BuildCrashed

  function UninstallCall(gradle: string): seq<string> {
    [gradle, "uninstallDebug"]
  }

  function InstallCall(gradle: string): seq<string> {
    [gradle, "installUniversalGmsDebug"]
  }

  /**
    `run_build_task`: an optional uninstall whose result (even an exception)
    is ignored, then exactly one install; a non-zero exit reports failure, an
    exception other than a non-zero exit escapes.
  */
  function RunBuildTask(gradle: string, cleanInstall: bool, uninstall: ToolResult, install: ToolResult)
    : (run: Run<BuildOutcome>)
    ensures run.calls == (if cleanInstall then [UninstallCall(gradle)] else []) + [InstallCall(gradle)]
    ensures run.outcome == Succeeded <==> install.Completed? && install.exitCode == 0
    ensures run.outcome == Failed <==> install.Completed? && install.exitCode != 0
    ensures run.outcome == BuildCrashed <==> install.Raised?
  {
    var calls := (if cleanInstall then [UninstallCall(gradle)] else []) + [InstallCall(gradle)];
    match install
    case Raised(_) => Run(calls, BuildCrashed)
    case Completed(code, _) => Run(calls, if code == 0 then Succeeded else Failed)
  }

  /** The uninstall step never changes the outcome of a build. */
  lemma UninstallIrrelevant(gradle: string, u1: ToolResult, u2: ToolResult, install: ToolResult)
    ensures RunBuildTask(gradle, true, u1, install).outcome == RunBuildTask(gradle, false, u2, install).outcome
  {
  }

  // ---------------------------------------------------------------------------
  // Menu

  datatype Command = Build(cleanInstall: bool) | Launch | RestartAdb | Quit | Ignore

  /** The menu reads one line per prompt and lower-cases, then strips, it. */
  function MenuToken(line: string): string {
    PyStrip(PyLower(line))
  }

  /** The command a menu token selects; only `1`-`4` and `q` are recognised. */
  function Dispatch(token: string): (cmd: Command)
    ensures cmd == Quit <==> token == "q"
    ensures cmd == Build(false) <==> token == "1"
    ensures cmd == Launch <==> token == "2"
    ensures cmd == RestartAdb <==> token == "3"
    ensures cmd == Build(true) <==> token == "4"
    ensures cmd == Ignore <==> token !in {"1", "2", "3", "4", "q"}
  {
    if token == "1" then Build(false)
    else if token == "2" then Launch
    else if token == "3" then RestartAdb
    else if token == "4" then Build(true)
    else if token == "q" then Quit
    else Ignore
  }

  function ParseMenu(line: string): Command {
    Dispatch(MenuToken(line))
  }

  /** " Q " quits but "quit" is not a command. */
  lemma MenuTokens()
    ensures MenuToken(" Q ") == "q" && ParseMenu(" Q ") == Quit
    ensures MenuToken("quit") == "quit" && ParseMenu("quit") == Ignore
  {
    PaddedToken();
    WordToken();
  }

  lemma PaddedToken()
    ensures MenuToken(" Q ") == "q"
  {
    assert PyLower(" Q ") == " " + "q" + " ";
    PyStripAround(" ", "q", " ");
  }

  lemma WordToken()
    ensures MenuToken("quit") == "quit"
  {
    assert PyLower("quit") == "" + "quit" + "";
    PyStripAround("", "quit", "");
  }

  /** The commands `3` runs. */
  const AdbRestartCalls: seq<seq<string>> := [["adb", "kill-server"], ["adb", "start-server"]]

  /** One read at the menu prompt. */
  datatype MenuRead = Line(text: string) | EndOfInput | Interrupt

  /** What a read amounts to: end of input and Ctrl-C leave the loop just as `q` does. */
  function MenuStep(r: MenuRead): (cmd: Command)
    ensures !r.Line? ==> cmd == Quit
    ensures r.Line? ==> cmd == ParseMenu(r.text)
  {
    match r
    case Line(text) => ParseMenu(text)
    case _ => Quit
  }

  /** A command that does something when the loop reaches it. */
  predicate IsAction(cmd: Command) {
    cmd != Quit && cmd != Ignore
  }

  /** The loop over the commands read: the actions performed, in order, up to the first `Quit`. */
  function MenuLoop(cmds: seq<Command>): (actions: seq<Command>)
    ensures forall i :: 0 <= i < |actions| ==> IsAction(actions[i])
    ensures |actions| <= |cmds|
  {
    if |cmds| == 0 || cmds[0] == Quit then []
    else (if cmds[0] == Ignore then [] else [cmds[0]]) + MenuLoop(cmds[1..])
  }

  /** The command each read selects. */
  function Commands(inputs: seq<MenuRead>): (cmds: seq<Command>)
    ensures |cmds| == |inputs|
    ensures forall i :: 0 <= i < |inputs| ==> cmds[i] == MenuStep(inputs[i])
  {
    seq(|inputs|, i requires 0 <= i < |inputs| => MenuStep(inputs[i]))
  }

  lemma CommandsAppend(inputs: seq<MenuRead>, more: seq<MenuRead>)
    ensures Commands(inputs + more) == Commands(inputs) + Commands(more)
  {
    var l, r := Commands(inputs + more), Commands(inputs) + Commands(more);
    forall i | 0 <= i < |l| ensures l[i] == r[i] {
      if i < |inputs| { assert (inputs + more)[i] == inputs[i]; }
      else { assert (inputs + more)[i] == more[i - |inputs|]; }
    }
  }

  /** The reference loop over a sequence of reads, each read taken as a menu command. */
  function MainMenu(inputs: seq<MenuRead>): seq<Command> {
    MenuLoop(Commands(inputs))
  }

  /** Index of the first `Quit`, or `|cmds|` if there is none. */
  function StopIndex(cmds: seq<Command>): (k: nat)
    ensures k <= |cmds|
    ensures forall i :: 0 <= i < k ==> cmds[i] != Quit
    ensures k < |cmds| ==> cmds[k] == Quit
  {
    if |cmds| == 0 || cmds[0] == Quit then 0 else 1 + StopIndex(cmds[1..])
  }

  /** The loop performs exactly the actions read before the first `Quit`, in order. */
  lemma {:induction false} MenuLoopActions(cmds: seq<Command>)
    ensures MenuLoop(cmds) == Filter(cmds[..StopIndex(cmds)], IsAction)
  {
    if |cmds| > 0 && cmds[0] != Quit {
      MenuLoopActions(cmds[1..]);
      var prefix := cmds[..StopIndex(cmds)];
      assert prefix[0] == cmds[0];
      assert prefix[1..] == cmds[1..][..StopIndex(cmds[1..])];
    }
  }

  /** Once the loop has stopped, later reads are never consumed. */
  lemma {:induction false} MenuLoopIgnoresLater(cmds: seq<Command>, later: seq<Command>)
    requires StopIndex(cmds) < |cmds|
    ensures MenuLoop(cmds + later) == MenuLoop(cmds)
  {
    assert (cmds + later)[0] == cmds[0];
    if cmds[0] != Quit {
      MenuLoopIgnoresLater(cmds[1..], later);
      assert (cmds + later)[1..] == cmds[1..] + later;
    }
  }

  /** End of input or Ctrl-C at the first prompt performs nothing. */
  lemma MenuStopsAtEof(rest: seq<MenuRead>)
    ensures MainMenu([EndOfInput] + rest) == []
    ensures MainMenu([Interrupt] + rest) == []
  {
  }

  // ---------------------------------------------------------------------------
  // The whole menu session

  /**
    What the outside world answers while the script handles the command
    read at one position of the input: the launch sequence's tools, the
    build's two Gradle calls and the two `adb` server calls.
  */
  datatype Tools = Tools(
    devices: ToolResult, avdListing: ToolResult, spawn: ToolResult, wait: ToolResult,
    uninstall: ToolResult, install: ToolResult, killServer: ToolResult, startServer: ToolResult)

  /** The emulator binary, the Gradle wrapper, and the tools' answers at each input position. */
  datatype Env = Env(emulatorBin: string, gradle: string, tools: nat -> Tools)

  /** How the script ends: `q`, end of input (or Ctrl-C) at the menu prompt, or an escaping exception. */
  datatype Ending = QuitCommand | InputClosed | ScriptCrashed

  /**
    The actions performed, in order, how the script ended, and whether it
    tried to read past the end of the given input (so that more input could
    have changed the result).
  */
  datatype Session = Session(actions: seq<Command>, ending: Ending, exhausted: bool)

  /** The reply a prompt gets at position `i`: a line, or `None` for end of input, Ctrl-C or no more input. */
  function ReplyAt(inputs: seq<MenuRead>, i: nat): (r: Option<string>)
    ensures r.Some? <==> i < |inputs| && inputs[i].Line?
    ensures r.Some? ==> r.value == inputs[i].text
  {
    if i < |inputs| && inputs[i].Line? then Some(inputs[i].text) else None
  }

  /**
    The launch sequence with its two prompts answered by the reads at
    positions 1 and 2 of `inputs` (position 0 is the line that asked for it).
  */
  function LaunchFromInput(emulatorBin: string, t: Tools, inputs: seq<MenuRead>): (run: Run<LaunchOutcome>)
    requires |inputs| > 0
    ensures run.outcome.Launched? ==> 3 <= |inputs|
  {
    LaunchSequence(emulatorBin, LaunchInputs(t.devices, t.avdListing, ReplyAt(inputs, 1), ReplyAt(inputs, 2), t.spawn, t.wait))
  }

  /**
    What matters to the menu about one position's tools: whether a launch
    asks its prompts, whether the image listing raises, whether the spawn
    or the wait raises, whether the install call raises and whether either
    `adb` server call raises.
  */
  datatype Effects = Effects(asksPrompts: bool, listingRaises: bool, bootRaises: bool, installRaises: bool, adbRaises: bool)

  function EffectsOf(t: Tools): Effects {
    Effects(
      AsksPrompts(t.devices, t.avdListing),
      !IsEmulatorRunning(t.devices) && t.avdListing == Raised(OtherError),
      t.spawn.Raised? || t.wait.Raised?,
      t.install.Raised?,
      t.killServer.Raised? || t.startServer.Raised?)
  }

  /** Whether handling one command raised, and how many further reads it consumed. */
  datatype Step = Step(crashed: bool, consumed: nat)

  /**
    One menu command, read as `inputs[0]`: a build raises only when the
    install call does, `3` when either `adb` call does, and a launch when
    the listing raises or, once the prompts are asked, the boot-mode read,
    the spawn or the wait raises. The device-choice read never raises.
  */
  function CommandStep(e: Effects, cmd: Command, inputs: seq<MenuRead>): (st: Step)
    requires |inputs| > 0
    ensures st.consumed == (if cmd == Launch && e.asksPrompts then 2 else 0)
    ensures !st.crashed ==> 1 + st.consumed <= |inputs|
    ensures cmd.Build? ==> st.crashed == e.installRaises
    ensures cmd == RestartAdb ==> st.crashed == e.adbRaises
    ensures cmd == Quit || cmd == Ignore ==> !st.crashed
  {
    match cmd
    case Build(_) => Step(e.installRaises, 0)
    case RestartAdb => Step(e.adbRaises, 0)
    case Launch =>
      Step(e.listingRaises || (e.asksPrompts && (ReplyAt(inputs, 2).None? || e.bootRaises)), if e.asksPrompts then 2 else 0)
    case _ => Step(false, 0)
  }

  /**
    The menu's view of a command agrees with the operations themselves: a
    launch step raises exactly when the launch sequence, fed the next two
    reads, ends `Crashed`, and a build step exactly when `RunBuildTask` does.
  */
  lemma StepMatchesOperations(env: Env, inputs: seq<MenuRead>, pos: nat, clean: bool)
    requires |inputs| > 0
    ensures CommandStep(EffectsOf(env.tools(pos)), Launch, inputs).crashed <==>
            LaunchFromInput(env.emulatorBin, env.tools(pos), inputs).outcome == Crashed
    ensures CommandStep(EffectsOf(env.tools(pos)), Build(clean), inputs).crashed <==>
            var t := env.tools(pos); RunBuildTask(env.gradle, clean, t.uninstall, t.install).outcome == BuildCrashed
  {
  }

  /** `cmd` performed, followed by the rest of the session. */
  function Then(cmd: Command, rest: Session): Session {
    Session([cmd] + rest.actions, rest.ending, rest.exhausted)
  }

  /**
    `main_menu` over the remaining reads `inputs`, the first of them at
    position `pos`, where `cmds` is what each read selects and `effects`
    what the tools do at each position. A launch consumes the replies to
    its own prompts from the same input, and an exception raised by a
    command ends the script.
  */
  function MenuRun(effects: nat -> Effects, inputs: seq<MenuRead>, cmds: seq<Command>, pos: nat): (s: Session)
    requires |cmds| == |inputs|
    ensures |s.actions| <= |inputs|
    ensures s.ending == ScriptCrashed ==> |s.actions| > 0
    ensures s.exhausted && s.ending != ScriptCrashed ==> s.ending == InputClosed
    decreases |inputs|
  {
    if |inputs| == 0 then Session([], InputClosed, true)
    else if !inputs[0].Line? then Session([], InputClosed, false)
    else
      var cmd := cmds[0];
      if cmd == Quit then Session([], QuitCommand, false)
      else if cmd == Ignore then MenuRun(effects, inputs[1..], cmds[1..], pos + 1)
      else
        var st := CommandStep(effects(pos), cmd, inputs);
        if st.crashed then Session([cmd], ScriptCrashed, 1 + st.consumed > |inputs|)
        else Then(cmd, MenuRun(effects, inputs[1 + st.consumed..], cmds[1 + st.consumed..], pos + 1 + st.consumed))
  }

  /** The whole menu session over the reads `inputs`, the first at position `pos`. */
  function MenuSession(env: Env, inputs: seq<MenuRead>, pos: nat): (s: Session)
    ensures forall i :: 0 <= i < |s.actions| ==> IsAction(s.actions[i])
    ensures |s.actions| <= |inputs|
    ensures s.ending == ScriptCrashed ==> |s.actions| > 0
    ensures s.exhausted && s.ending != ScriptCrashed ==> s.ending == InputClosed
  {
    var effects := (i: nat) => EffectsOf(env.tools(i));
    RunPerformsActions(effects, inputs, Commands(inputs), pos);
    MenuRun(effects, inputs, Commands(inputs), pos)
  }

  /** Only actions are performed: `q` and unrecognised lines are never recorded. */
  lemma {:induction false} RunPerformsActions(effects: nat -> Effects, inputs: seq<MenuRead>, cmds: seq<Command>, pos: nat)
    requires |cmds| == |inputs|
    ensures forall i :: 0 <= i < |MenuRun(effects, inputs, cmds, pos).actions| ==>
      IsAction(MenuRun(effects, inputs, cmds, pos).actions[i])
    decreases |inputs|
  {
    if |inputs| > 0 && inputs[0].Line? && cmds[0] != Quit {
      if cmds[0] == Ignore {
        RunPerformsActions(effects, inputs[1..], cmds[1..], pos + 1);
      } else {
        var st := CommandStep(effects(pos), cmds[0], inputs);
        if !st.crashed {
          RunPerformsActions(effects, inputs[1 + st.consumed..], cmds[1 + st.consumed..], pos + 1 + st.consumed);
        }
      }
    }
  }

  /** A command that did not read past its own input handles the same with more input after it. */
  lemma CommandStepIgnoresLater(e: Effects, cmd: Command, inputs: seq<MenuRead>, more: seq<MenuRead>)
    requires |inputs| > 0
    requires 1 + CommandStep(e, cmd, inputs).consumed <= |inputs|
    ensures CommandStep(e, cmd, inputs + more) == CommandStep(e, cmd, inputs)
  {
    if cmd == Launch && e.asksPrompts {
      assert (inputs + more)[2] == inputs[2];
    }
  }

  /** A run that stopped before the end of its input is unchanged by further input. */
  lemma {:induction false} MenuRunIgnoresLater(
    effects: nat -> Effects, inputs: seq<MenuRead>, cmds: seq<Command>, more: seq<MenuRead>, moreCmds: seq<Command>, pos: nat)
    requires |cmds| == |inputs| && |moreCmds| == |more|
    requires !MenuRun(effects, inputs, cmds, pos).exhausted
    ensures MenuRun(effects, inputs + more, cmds + moreCmds, pos) == MenuRun(effects, inputs, cmds, pos)
    decreases |inputs|
  {
    assert (inputs + more)[0] == inputs[0] && (cmds + moreCmds)[0] == cmds[0];
    if inputs[0].Line? && cmds[0] != Quit {
      var n := if cmds[0] == Ignore then 0 else CommandStep(effects(pos), cmds[0], inputs).consumed;
      if cmds[0] != Ignore {
        CommandStepIgnoresLater(effects(pos), cmds[0], inputs, more);
      }
      if cmds[0] == Ignore || !CommandStep(effects(pos), cmds[0], inputs).crashed {
        assert (inputs + more)[1 + n..] == inputs[1 + n..] + more;
        assert (cmds + moreCmds)[1 + n..] == cmds[1 + n..] + moreCmds;
        MenuRunIgnoresLater(effects, inputs[1 + n..], cmds[1 + n..], more, moreCmds, pos + 1 + n);
      }
    }
  }

  /** A session that stopped before the end of its input is unchanged by further input. */
  lemma MenuSessionIgnoresLater(env: Env, inputs: seq<MenuRead>, more: seq<MenuRead>, pos: nat)
    requires !MenuSession(env, inputs, pos).exhausted
    ensures MenuSession(env, inputs + more, pos) == MenuSession(env, inputs, pos)
  {
    CommandsAppend(inputs, more);
    MenuRunIgnoresLater((i: nat) => EffectsOf(env.tools(i)), inputs, Commands(inputs), more, Commands(more), pos);
  }

  /**
    Tools that never fail: an emulator is already up, and the install call
    and both `adb` calls complete (whatever their exit codes).
  */
  predicate Quiet(t: Tools) {
    IsEmulatorRunning(t.devices) && t.install.Completed? && t.killServer.Completed? && t.startServer.Completed?
  }

  /** Effects under which no command raises or asks anything. */
  predicate Harmless(e: Effects) {
    !e.asksPrompts && !e.listingRaises && !e.installRaises && !e.adbRaises
  }

  /**
    When nothing raises or prompts, the run performs exactly the reference
    loop's actions.
  */
  lemma {:induction false} HarmlessRunIsMenuLoop(effects: nat -> Effects, inputs: seq<MenuRead>, cmds: seq<Command>, pos: nat)
    requires |cmds| == |inputs|
    requires forall i :: 0 <= i < |inputs| && !inputs[i].Line? ==> cmds[i] == Quit
    requires forall i: nat :: pos <= i ==> Harmless(effects(i))
    ensures MenuRun(effects, inputs, cmds, pos).actions == MenuLoop(cmds)
    ensures MenuRun(effects, inputs, cmds, pos).ending != ScriptCrashed
    decreases |inputs|
  {
    if |inputs| > 0 && inputs[0].Line? && cmds[0] != Quit {
      assert Harmless(effects(pos));
      assert forall i :: 0 <= i < |inputs[1..]| && !inputs[1..][i].Line? ==> cmds[1..][i] == Quit by {
        forall i | 0 <= i < |inputs[1..]| && !inputs[1..][i].Line? ensures cmds[1..][i] == Quit {
          assert inputs[1..][i] == inputs[i + 1];
        }
      }
      HarmlessRunIsMenuLoop(effects, inputs[1..], cmds[1..], pos + 1);
    } else if |inputs| > 0 {
      assert !inputs[0].Line? ==> cmds[0] == Quit;
    }
  }

  /**
    With tools that never fail, no launch asks anything and no command
    raises, so the session performs exactly `MainMenu`'s actions.
  */
  lemma QuietSessionIsMenuLoop(env: Env, inputs: seq<MenuRead>, pos: nat)
    requires forall i: nat :: pos <= i ==> Quiet(env.tools(i))
    ensures MenuSession(env, inputs, pos).actions == MainMenu(inputs)
    ensures MenuSession(env, inputs, pos).ending != ScriptCrashed
  {
    var effects := (i: nat) => EffectsOf(env.tools(i));
    forall i: nat | pos <= i ensures Harmless(effects(i)) {
      assert Quiet(env.tools(i));
    }
    HarmlessRunIsMenuLoop(effects, inputs, Commands(inputs), pos);
  }

  /** A launch that asks its prompts and succeeds consumes exactly the next two reads. */
  lemma RunLaunchConsumesPrompts(effects: nat -> Effects, inputs: seq<MenuRead>, cmds: seq<Command>, pos: nat)
    requires |cmds| == |inputs| && 3 <= |inputs|
    requires inputs[0].Line? && cmds[0] == Launch && inputs[2].Line?
    requires effects(pos).asksPrompts && !effects(pos).listingRaises && !effects(pos).bootRaises
    ensures MenuRun(effects, inputs, cmds, pos) == Then(Launch, MenuRun(effects, inputs[3..], cmds[3..], pos + 3))
  {
    assert CommandStep(effects(pos), Launch, inputs) == Step(false, 2);
  }

  /** Plain menu tokens select their commands. */
  lemma PlainTokens()
    ensures ParseMenu("2") == Launch && ParseMenu("q") == Quit
  {
    PlainToken("2");
    PlainToken("q");
  }

  /** A one-character token that is already lower case is its own menu token. */
  lemma PlainToken(t: string)
    requires |t| == 1 && !PyIsSpace(t[0]) && !('A' <= t[0] <= 'Z')
    ensures MenuToken(t) == t
  {
    assert PyLower(t) == "" + t + "";
    PyStripAround("", t, "");
  }

  /**
    A launch that asks its two prompts takes their replies from the next two
    reads, and the menu carries on after them.
  */
  lemma LaunchConsumesPrompts(env: Env, pos: nat, line: string, reply1: MenuRead, reply2: string, rest: seq<MenuRead>)
    requires ParseMenu(line) == Launch
    requires AsksPrompts(env.tools(pos).devices, env.tools(pos).avdListing)
    requires env.tools(pos).spawn.Completed? && env.tools(pos).wait.Completed?
    ensures MenuSession(env, [Line(line), reply1, Line(reply2)] + rest, pos) ==
            Then(Launch, MenuSession(env, rest, pos + 3))
  {
    var three := [Line(line), reply1, Line(reply2)];
    var effects := (i: nat) => EffectsOf(env.tools(i));
    CommandsAppend(three, rest);
    var cmds := Commands(three) + Commands(rest);
    assert cmds[0] == MenuStep(Line(line));
    assert cmds[3..] == Commands(rest);
    assert (three + rest)[3..] == rest;
    RunLaunchConsumesPrompts(effects, three + rest, cmds, pos);
  }

  /**
    "2", "1", "1", "q" with no emulator running and one or more images: the
    two ones answer the launch prompts, so the script launches once and quits.
  */
  lemma LaunchThenQuit(env: Env)
    requires AsksPrompts(env.tools(0).devices, env.tools(0).avdListing)
    requires env.tools(0).spawn.Completed? && env.tools(0).wait.Completed?
    ensures MenuSession(env, [Line("2"), Line("1"), Line("1"), Line("q")], 0) == Session([Launch], QuitCommand, false)
  {
    PlainTokens();
    LaunchConsumesPrompts(env, 0, "2", Line("1"), "1", [Line("q")]);
    assert [Line("2"), Line("1"), Line("1"), Line("q")] == [Line("2"), Line("1"), Line("1")] + [Line("q")];
    assert Commands([Line("q")])[0] == Quit;
  }

  // ---------------------------------------------------------------------------
  // Startup

  datatype Startup = MenuOnly | LaunchFirst | StartupCrashed

  /**
    Before the menu: if nothing is running, ask; launch only on an answer
    that lower-cases to exactly "y" (no trimming). End of input at this
    prompt is not caught.
  */
  function StartupDecision(devices: ToolResult, answer: Option<string>): (d: Startup)
    ensures IsEmulatorRunning(devices) ==> d == MenuOnly
    ensures d == LaunchFirst <==> !IsEmulatorRunning(devices) && answer.Some? && PyLower(answer.value) == "y"
    ensures d == StartupCrashed <==> !IsEmulatorRunning(devices) && answer.None?
  {
    if IsEmulatorRunning(devices) then MenuOnly
    else
      match answer
      case None => StartupCrashed
      case Some(a) => if PyLower(a) == "y" then LaunchFirst else MenuOnly
  }

  /** "Y" launches; " y" and "yes" do not. */
  lemma StartupAnswers(devices: ToolResult)
    requires !IsEmulatorRunning(devices)
    ensures StartupDecision(devices, Some("Y")) == LaunchFirst
    ensures StartupDecision(devices, Some(" y")) == MenuOnly
    ensures StartupDecision(devices, Some("yes")) == MenuOnly
  {
    assert PyLower("Y") == "y";
  }

  /**
    The whole script: the readiness probe's answer `startupDevices`, the
    startup question answered by the first read, an optional launch whose
    prompts take the next two reads, then the menu. End of input or Ctrl-C
    at the startup question is not caught.
  */
  function ScriptRun(env: Env, startupDevices: ToolResult, inputs: seq<MenuRead>): (s: Session)
    ensures StartupDecision(startupDevices, ReplyAt(inputs, 0)) == StartupCrashed <==>
            s.ending == ScriptCrashed && s.actions == []
    ensures StartupDecision(startupDevices, ReplyAt(inputs, 0)) == LaunchFirst ==>
            |s.actions| > 0 && s.actions[0] == Launch
    ensures IsEmulatorRunning(startupDevices) ==> s == MenuSession(env, inputs, 0)
  {
    match StartupDecision(startupDevices, ReplyAt(inputs, 0))
    case StartupCrashed => Session([], ScriptCrashed, |inputs| == 0)
    case MenuOnly =>
      if IsEmulatorRunning(startupDevices) then MenuSession(env, inputs, 0)
      else MenuSession(env, inputs[1..], 1)
    case LaunchFirst =>
      var st := CommandStep(EffectsOf(env.tools(0)), Launch, inputs);
      if st.crashed then Session([Launch], ScriptCrashed, 1 + st.consumed > |inputs|)
      else Then(Launch, MenuSession(env, inputs[1 + st.consumed..], 1 + st.consumed))
  }
}

=== FILE: task_editor.dfy ===
/**
  The two task editors: the quick bottom sheet and the full-screen editor.
  Both hold the same form (title, description, optional deadline, chosen
  workspace, priority, tags, notification pin and a checklist), edit the
  checklist by index, and save only a non-blank title. They differ in how
  the form is initialised and in what a missing date is saved as: the
  sheet saves 0 ("no date"), the full screen saves the current time.
*/
module TaskEditor {
  import opened Common
  import opened Entities

  /** The editor state. `selectedDate == None` shows "no date". */
  datatype Form = Form(
    title: string,
    description: string,
    selectedDate: Option<int>,
    workspace: Option<Workspace>,
    priority: int,
    tags: string,
    pinAsNotification: bool,
    checklist: seq<ChecklistItem>)

  /** The arguments passed to the save callback. */
  datatype SavePayload = SavePayload(
    title: string,
    description: string,
    deadline: int,
    workspaceId: Option<int>,
    priority: int,
    tags: string,
    checklist: seq<ChecklistItem>,
    pinAsNotification: bool)

  /** A draft restored into the full-screen editor; absent fields are `None`. */
  datatype TaskDraft = TaskDraft(
    title: string,
    description: string,
    deadline: Option<int>,
    workspaceId: Option<int>,
    priority: int,
    tags: string,
    pinAsNotification: bool)

  // ---------------------------------------------------------------------------
  // Workspace lookup (`workspaces.find { it.id == id }`)

  /** Index of the first workspace with the given id, or -1. */
  function FindIndex(workspaces: seq<Workspace>, id: int): (k: int)
    ensures -1 <= k < |workspaces|
    ensures k == -1 <==> forall j :: 0 <= j < |workspaces| ==> workspaces[j].id != id
    ensures k >= 0 ==> workspaces[k].id == id && forall j :: 0 <= j < k ==> workspaces[j].id != id
  {
    if |workspaces| == 0 then -1
    else if workspaces[0].id == id then 0
    else
      var k := FindIndex(workspaces[1..], id);
      if k == -1 then -1 else k + 1
  }

  /** The first workspace with the given id; a missing id finds nothing. */
  function FindWorkspace(workspaces: seq<Workspace>, id: Option<int>): (r: Option<Workspace>)
    ensures r.Some? ==> id.Some? && r.value in workspaces && r.value.id == id.value
    ensures r.None? <==> id.None? || forall w :: w in workspaces ==> w.id != id.value
  {
    if id.None? then None
    else
      var k := FindIndex(workspaces, id.value);
      if k == -1 then None else Some(workspaces[k])
  }

  // ---------------------------------------------------------------------------
  // Bottom sheet initialisation

  /**
    The sheet's first date: an edited task's deadline, with 0 meaning no
    date; for a new task, the date it was opened for.
  */
  function InitialDeadline(taskToEdit: Option<Task>, initialDate: Option<int>): (r: Option<int>)
    ensures taskToEdit.Some? ==> (r.None? <==> taskToEdit.value.deadline == 0)
    ensures taskToEdit.Some? && r.Some? ==> r.value == taskToEdit.value.deadline
    ensures taskToEdit.None? ==> r == initialDate
  {
    match taskToEdit
    case Some(t) => if t.deadline == 0 then None else Some(t.deadline)
    case None => initialDate
  }

  /** What the sheet saves for a date selection: no date is 0. */
  function SheetDeadline(selected: Option<int>): (d: int)
    ensures selected.Some? ==> d == selected.value
    ensures selected.None? ==> d == 0
  {
    selected.GetOr(0)
  }

  /** Opening a task and saving without touching the date keeps its deadline, 0 included. */
  lemma DeadlineRoundTrip(t: Task, initialDate: Option<int>)
    ensures SheetDeadline(InitialDeadline(Some(t), initialDate)) == t.deadline
  {
  }

  /** Any date the sheet can hold other than 0 survives a save and a reopen. */
  lemma DateRoundTrip(t: Task, selected: Option<int>, initialDate: Option<int>)
    requires selected != Some(0)
    ensures InitialDeadline(Some(t.(deadline := SheetDeadline(selected))), initialDate) == selected
  {
  }

  /**
    The workspace preselection effect: the edited task's workspace, else the
    one the sheet was opened for; no target or -1 leaves the selection
    alone, any other id selects the first workspace with it (or nothing).
  */
  function Preselect(workspaces: seq<Workspace>, taskToEdit: Option<Task>, initialWorkspaceId: Option<int>,
                     current: Option<Workspace>): (r: Option<Workspace>)
    ensures var target := if taskToEdit.Some? then OrElse(taskToEdit.value.workspaceId, initialWorkspaceId) else initialWorkspaceId;
      && (target.None? || target == Some(-1) ==> r == current)
      && (target.Some? && target != Some(-1) ==>
            (r.Some? ==> r.value in workspaces && r.value.id == target.value)
            && (r.None? <==> forall w :: w in workspaces ==> w.id != target.value))
  {
    var target := match taskToEdit
      case Some(t) => OrElse(t.workspaceId, initialWorkspaceId)
      case None => initialWorkspaceId;
    if target.None? || target.value == -1 then current else FindWorkspace(workspaces, target)
  }

  /**
    The bottom sheet's form when it opens (after the preselection effect,
    which starts from no selection): the workspace is the listed one with
    the edited task's workspace id, else the sheet's initial id, and none
    when that id is missing, -1 or not listed.
  */
  function OpenSheet(workspaces: seq<Workspace>, taskToEdit: Option<Task>, initialChecklist: seq<ChecklistItem>,
                     initialDate: Option<int>, initialWorkspaceId: Option<int>): (f: Form)
    ensures taskToEdit.Some? ==>
      && f.title == taskToEdit.value.title && f.description == taskToEdit.value.description
      && f.priority == taskToEdit.value.priority && f.tags == taskToEdit.value.tags
      && f.pinAsNotification == taskToEdit.value.pinAsNotification
    ensures taskToEdit.None? ==>
      f.title == "" && f.description == "" && f.priority == 0 && f.tags == "" && !f.pinAsNotification
    ensures f.selectedDate == InitialDeadline(taskToEdit, initialDate)
    ensures f.checklist == initialChecklist
    ensures f.workspace.Some? ==> f.workspace.value in workspaces
    ensures var target := if taskToEdit.Some? then OrElse(taskToEdit.value.workspaceId, initialWorkspaceId) else initialWorkspaceId;
      && (target.None? || target == Some(-1) ==> f.workspace.None?)
      && (f.workspace.Some? ==> Some(f.workspace.value.id) == target)
      && (target.Some? && target != Some(-1) && (exists w :: w in workspaces && w.id == target.value) ==> f.workspace.Some?)
  {
    var t := taskToEdit;
    Form(
      if t.Some? then t.value.title else "",
      if t.Some? then t.value.description else "",
      InitialDeadline(taskToEdit, initialDate),
      Preselect(workspaces, taskToEdit, initialWorkspaceId, None),
      if t.Some? then t.value.priority else 0,
      if t.Some? then t.value.tags else "",
      if t.Some? then t.value.pinAsNotification else false,
      initialChecklist)
  }

  // ---------------------------------------------------------------------------
  // Full-screen initialisation

  /**
    The full screen's form: each field from the edited task, else the
    draft, else the empty default. A task's deadline is kept even when 0;
    the workspace id falls through to the draft's when the task has none.
  */
  function OpenScreen(workspaces: seq<Workspace>, taskToEdit: Option<Task>, draft: Option<TaskDraft>,
                      initialChecklist: seq<ChecklistItem>): (f: Form)
    ensures taskToEdit.Some? ==>
      && f.title == taskToEdit.value.title && f.description == taskToEdit.value.description
      && f.selectedDate == Some(taskToEdit.value.deadline)
      && f.priority == taskToEdit.value.priority && f.tags == taskToEdit.value.tags
      && f.pinAsNotification == taskToEdit.value.pinAsNotification
    ensures taskToEdit.None? && draft.Some? ==>
      && f.title == draft.value.title && f.description == draft.value.description
      && f.selectedDate == draft.value.deadline
      && f.priority == draft.value.priority && f.tags == draft.value.tags
      && f.pinAsNotification == draft.value.pinAsNotification
    ensures taskToEdit.None? && draft.None? ==>
      f.title == "" && f.description == "" && f.selectedDate.None? && f.workspace.None?
      && f.priority == 0 && f.tags == "" && !f.pinAsNotification
    ensures var fromTask := if taskToEdit.Some? then taskToEdit.value.workspaceId else None;
      var fromDraft := if draft.Some? then draft.value.workspaceId else None;
      && (f.workspace.Some? ==> f.workspace.value in workspaces && Some(f.workspace.value.id) == OrElse(fromTask, fromDraft))
      && (OrElse(fromTask, fromDraft).Some? && (exists w :: w in workspaces && w.id == OrElse(fromTask, fromDraft).value) ==> f.workspace.Some?)
    ensures f.checklist == initialChecklist
  {
    var fromTask := if taskToEdit.Some? then taskToEdit.value.workspaceId else None;
    var fromDraft := if draft.Some? then draft.value.workspaceId else None;
    match taskToEdit
    case Some(t) =>
      Form(t.title, t.description, Some(t.deadline), FindWorkspace(workspaces, OrElse(fromTask, fromDraft)),
           t.priority, t.tags, t.pinAsNotification, initialChecklist)
    case None =>
      match draft
      case Some(d) =>
        Form(d.title, d.description, d.deadline, FindWorkspace(workspaces, d.workspaceId),
             d.priority, d.tags, d.pinAsNotification, initialChecklist)
      case None =>
        Form("", "", None, None, 0, "", false, initialChecklist)
  }

  // ---------------------------------------------------------------------------
  // Saving

  /**
    The save button: nothing for a blank title, otherwise the form's
    fields with a missing date replaced by `noDate`.
  */
  function Save(f: Form, noDate: int): (r: Option<SavePayload>)
    ensures r.Some? <==> !IsBlank(f.title)
    ensures r.Some? ==>
      && r.value.title == f.title && r.value.description == f.description
      && (f.selectedDate.Some? ==> r.value.deadline == f.selectedDate.value)
      && (f.selectedDate.None? ==> r.value.deadline == noDate)
      && (f.workspace.Some? ==> r.value.workspaceId == Some(f.workspace.value.id))
      && (f.workspace.None? ==> r.value.workspaceId.None?)
      && r.value.priority == f.priority && r.value.tags == f.tags
      && r.value.checklist == f.checklist && r.value.pinAsNotification == f.pinAsNotification
  {
    if IsBlank(f.title) then None
    else
      var workspaceId := if f.workspace.Some? then Some(f.workspace.value.id) else None;
      Some(SavePayload(f.title, f.description, f.selectedDate.GetOr(noDate), workspaceId,
                       f.priority, f.tags, f.checklist, f.pinAsNotification))
  }

  /** The bottom sheet saves a missing date as 0. */
  function SaveSheet(f: Form): (r: Option<SavePayload>)
    ensures r.Some? <==> !IsBlank(f.title)
    ensures r.Some? ==> r.value.deadline == SheetDeadline(f.selectedDate)
  {
    Save(f, 0)
  }

  /** The full screen saves a missing date as the current time. */
  function SaveScreen(f: Form, now: int): (r: Option<SavePayload>)
    ensures r.Some? <==> !IsBlank(f.title)
    ensures r.Some? ==> r.value.deadline == f.selectedDate.GetOr(now)
  {
    Save(f, now)
  }

  /**
    Opening a task in the sheet and saving at once hands back the task's
    own fields; its workspace survives whenever it is still listed.
  */
  lemma SheetEditUntouched(workspaces: seq<Workspace>, t: Task, checklist: seq<ChecklistItem>,
                           initialDate: Option<int>, initialWorkspaceId: Option<int>)
    requires !IsBlank(t.title)
    requires t.workspaceId.Some? && t.workspaceId.value != -1
    requires exists w :: w in workspaces && w.id == t.workspaceId.value
    ensures var r := SaveSheet(OpenSheet(workspaces, Some(t), checklist, initialDate, initialWorkspaceId));
      && r.Some?
      && r.value == SavePayload(t.title, t.description, t.deadline, t.workspaceId, t.priority, t.tags, checklist, t.pinAsNotification)
  {
  }

  /** The full screen never turns an edited task's deadline into "now", even a deadline of 0. */
  lemma ScreenEditKeepsDeadline(workspaces: seq<Workspace>, t: Task, draft: Option<TaskDraft>,
                                checklist: seq<ChecklistItem>, now: int)
    requires !IsBlank(t.title)
    ensures var r := SaveScreen(OpenScreen(workspaces, Some(t), draft, checklist), now);
      r.Some? && r.value.deadline == t.deadline
  {
  }

  /** A brand-new task on the full screen with no date chosen is saved for now. */
  lemma ScreenNewTaskDefaultsToNow(f: Form, now: int)
    requires !IsBlank(f.title) && f.selectedDate.None?
    ensures SaveScreen(f, now).Some? && SaveScreen(f, now).value.deadline == now
  {
  }

  // ---------------------------------------------------------------------------
  // Form edits

  /** The clear-date button. */
  function ClearDate(f: Form): (r: Form)
    ensures r.selectedDate.None?
    ensures r.(selectedDate := f.selectedDate) == f
  {
    f.(selectedDate := None)
  }

  /** The date picker's result replaces the selection (the picker may also hand back no date). */
  function PickDate(f: Form, picked: Option<int>): (r: Form)
    ensures r.selectedDate == picked
    ensures r.(selectedDate := f.selectedDate) == f
  {
    f.(selectedDate := picked)
  }

  /** Tapping item `i`'s check mark flips that item only. */
  function ToggleAt(items: seq<ChecklistItem>, i: int): (r: seq<ChecklistItem>)
    requires 0 <= i < |items|
    ensures |r| == |items|
    ensures r[i] == ChecklistItem(items[i].id, items[i].taskId, items[i].text, !items[i].isCompleted)
    ensures forall j :: 0 <= j < |items| && j != i ==> r[j] == items[j]
  {
    items[i := items[i].(isCompleted := !items[i].isCompleted)]
  }

  /** Tapping the same check mark twice restores the list. */
  lemma ToggleAtInvolution(items: seq<ChecklistItem>, i: int)
    requires 0 <= i < |items|
    ensures ToggleAt(ToggleAt(items, i), i) == items
  {
  }

  /** The remove button of item `i`: the others keep their order. */
  function RemoveAt(items: seq<ChecklistItem>, i: int): (r: seq<ChecklistItem>)
    requires 0 <= i < |items|
    ensures |r| == |items| - 1
    ensures forall j :: 0 <= j < i ==> r[j] == items[j]
    ensures forall j :: i <= j < |r| ==> r[j] == items[j + 1]
  {
    items[..i] + items[i + 1..]
  }

  /** Adding a line from the checklist sheet: unsaved (id 0), not done, at the end. */
  function AddItem(items: seq<ChecklistItem>, text: string, taskId: int): (r: seq<ChecklistItem>)
    ensures |r| == |items| + 1 && r[..|items|] == items
    ensures r[|items|].id == 0 && r[|items|].taskId == taskId && r[|items|].text == text && !r[|items|].isCompleted
  {
    items + [ChecklistItem(0, taskId, text, false)]
  }

  /** Removing the line just added gives back the list. */
  lemma AddThenRemove(items: seq<ChecklistItem>, text: string, taskId: int)
    ensures RemoveAt(AddItem(items, text, taskId), |items|) == items
  {
  }

  /** The sheet tags new lines with 0; the full screen with the edited task's id, else 0. */
  function ScreenItemTaskId(taskToEdit: Option<Task>): (id: int)
    ensures taskToEdit.Some? ==> id == taskToEdit.value.id
    ensures taskToEdit.None? ==> id == 0
  {
    if taskToEdit.Some? then taskToEdit.value.id else 0
  }

  // ---------------------------------------------------------------------------
  // Priority label

  const PriorityNames: seq<string> := ["None", "Low", "Medium", "High"]

  /**
    The priority row's text: "Set priority" for 0, otherwise "Priority: "
    and the level's name. Any other value than 0..3 indexes past the
    names and fails, which is `None` here.
  */
  function PriorityLabel(p: int): (r: Option<string>)
    ensures r.Some? <==> 0 <= p <= 3
    ensures p == 0 ==> r == Some("Set priority")
    ensures 1 <= p <= 3 ==> r.Some? && |r.value| > 10 && r.value[..10] == "Priority: " && r.value[10..] == PriorityNames[p]
  {
    if p == 0 then Some("Set priority")
    else if 0 <= p < |PriorityNames| then Some("Priority: " + PriorityNames[p])
    else None
  }

  /** Distinct priorities get distinct labels. */
  lemma PriorityLabelInjective(p: int, q: int)
    requires 0 <= p <= 3 && 0 <= q <= 3 && p != q
    ensures PriorityLabel(p) != PriorityLabel(q)
  {
    var lp, lq := PriorityLabel(p).value, PriorityLabel(q).value;
    if p != 0 && q != 0 {
      assert lp[10..] != lq[10..];
    } else if p == 0 {
      assert lp[0] != lq[0];
    } else {
      assert lp[0] != lq[0];
    }
  }
}

=== FILE: task_screen.dfy ===
/**
  The main screen's small rules: the workspace grid (archive toggle and
  per-workspace counts), the "add at date" mapping from the timeline, the
  edit hand-off, the search bar (scroll target, match counter, leaving
  search) and the timeline colour mode read from preferences.
*/
module TaskScreen {
  import opened Common
  import opened Entities
  import ViewModel
  import TaskEditor

  // ---------------------------------------------------------------------------
  // Workspace grid

  predicate IsArchived(w: Workspace) {
    w.isArchived
  }

  predicate IsActive(w: Workspace) {
    !w.isArchived
  }

  /**
    The grid's workspaces, in list order: the archived ones when the toggle
    is on, the active ones otherwise.
  */
  function VisibleWorkspaces(workspaces: seq<Workspace>, showArchivedOnly: bool): (r: seq<Workspace>)
    ensures showArchivedOnly ==> r == Filter(workspaces, IsArchived)
    ensures !showArchivedOnly ==> r == Filter(workspaces, IsActive)
    ensures forall w :: w in r <==> w in workspaces && w.isArchived == showArchivedOnly
    ensures |r| <= |workspaces|
  {
    var p := if showArchivedOnly then IsArchived else IsActive;
    FilterMembershipAll(workspaces, p);
    Filter(workspaces, p)
  }

  lemma FilterMembershipAll<T>(s: seq<T>, p: T -> bool)
    ensures forall x :: x in Filter(s, p) <==> x in s && p(x)
  {
    forall x ensures x in Filter(s, p) <==> x in s && p(x) {
      FilterMembership(s, p, x);
    }
  }

  /** The two toggle states together show every workspace exactly once. */
  lemma {:induction false} ArchiveTogglePartition(workspaces: seq<Workspace>)
    ensures multiset(VisibleWorkspaces(workspaces, true)) + multiset(VisibleWorkspaces(workspaces, false)) == multiset(workspaces)
    ensures |VisibleWorkspaces(workspaces, true)| + |VisibleWorkspaces(workspaces, false)| == |workspaces|
  {
    if |workspaces| > 0 {
      ArchiveTogglePartition(workspaces[1..]);
      assert workspaces == [workspaces[0]] + workspaces[1..];
    }
  }

  /** The grid's title. */
  function GridTitle(showArchivedOnly: bool): string {
    if showArchivedOnly then "Archived Workspaces" else "Workspace Progress"
  }

  /** A workspace card's counts: its tasks, and how many of them are completed. */
  datatype Stats = Stats(total: nat, completed: nat)

  /** The property a card counts as completed. */
  predicate TaskDone(e: TaskWithChecklist) {
    e.task.isCompleted
  }

  /**
    `total` and `completed` for one workspace, from all tasks: the size of
    the workspace's task list (the one the view model shows for that
    workspace) and how many tasks in it are completed.
  */
  function WorkspaceStats(tasks: seq<TaskWithChecklist>, id: int): (r: Stats)
    ensures r.total == |Filter(tasks, ViewModel.InWorkspacePred(id))|
    ensures r.completed == Count(Filter(tasks, ViewModel.InWorkspacePred(id)), TaskDone)
    ensures r.completed <= r.total <= |tasks|
    ensures r.total == 0 <==> forall i :: 0 <= i < |tasks| ==> tasks[i].task.workspaceId != Some(id)
    ensures r.completed == r.total <==> forall i :: 0 <= i < |tasks| && tasks[i].task.workspaceId == Some(id) ==> tasks[i].task.isCompleted
    decreases |tasks|
  {
    if |tasks| == 0 then Stats(0, 0)
    else
      var rest := WorkspaceStats(tasks[1..], id);
      var t := tasks[0].task;
      var mine := t.workspaceId == Some(id);
      assert forall i :: 1 <= i < |tasks| ==> tasks[i] == tasks[1..][i - 1];
      Stats(rest.total + (if mine then 1 else 0), rest.completed + (if mine && t.isCompleted then 1 else 0))
  }

  /** A card's total is the size of the task list the view model shows for that workspace. */
  lemma StatsMatchFilter(tasks: seq<TaskWithChecklist>, id: int)
    requires id != ViewModel.AllWorkspaces
    ensures WorkspaceStats(tasks, id).total == |ViewModel.FilteredTasks(tasks, id)|
  {
  }

  // ---------------------------------------------------------------------------
  // Timeline hand-offs

  /** "Add task" on a timeline day: 0 (the unplanned section) opens the sheet without a date. */
  function AddAtDate(date: int): (r: Option<int>)
    ensures r.None? <==> date == 0
    ensures r.Some? ==> r.value == date
  {
    if date == 0 then None else Some(date)
  }

  /** Saving straight away from a sheet opened this way stores the day's date, 0 included. */
  lemma AddAtDateRoundTrip(date: int)
    ensures TaskEditor.SheetDeadline(AddAtDate(date)) == date
  {
  }

  /** Editing a task hands over the checklist of the first listed entry with its id, or none. */
  function ChecklistForEdit(tasks: seq<TaskWithChecklist>, task: Task): (r: seq<ChecklistItem>)
    ensures (forall i :: 0 <= i < |tasks| ==> tasks[i].task.id != task.id) ==> r == []
    ensures forall i :: 0 <= i < |tasks| && tasks[i].task.id == task.id && (forall j :: 0 <= j < i ==> tasks[j].task.id != task.id) ==> r == tasks[i].checklist
    decreases |tasks|
  {
    if |tasks| == 0 then []
    else if tasks[0].task.id == task.id then tasks[0].checklist
    else
      assert forall i :: 1 <= i < |tasks| ==> tasks[i] == tasks[1..][i - 1];
      ChecklistForEdit(tasks[1..], task)
  }

  // ---------------------------------------------------------------------------
  // Search

  /**
    The task the timeline scrolls to: the current match while searching
    with matches, otherwise none. The current index is kept within the
    matches by the view model.
  */
  function ScrollTarget(isSearchActive: bool, matches: seq<int>, current: int): (r: Option<int>)
    requires isSearchActive && |matches| > 0 ==> 0 <= current < |matches|
    ensures r.Some? <==> isSearchActive && |matches| > 0
    ensures r.Some? ==> r.value in matches && r.value == matches[current]
  {
    if isSearchActive && |matches| > 0 then Some(matches[current]) else None
  }

  /** The match counter: "0/0" without matches, else the 1-based position and the count. */
  function MatchCounter(matches: seq<int>, current: int): (r: string)
    ensures |matches| == 0 ==> r == "0/0"
    ensures |matches| > 0 ==> r == IntToString(current + 1) + "/" + IntToString(|matches|)
  {
    if |matches| == 0 then "0/0" else IntToString(current + 1) + "/" + IntToString(|matches|)
  }

  /** The counter text reads back as the 1-based position and the number of matches. */
  lemma MatchCounterReadsBack(matches: seq<int>, current: int)
    requires 0 <= current < |matches|
    ensures var parts := Split(MatchCounter(matches, current), '/');
      |parts| == 2 && ParseInt(parts[0]) == Some(current + 1) && ParseInt(parts[1]) == Some(|matches|)
  {
    var a, b := IntToString(current + 1), IntToString(|matches|);
    SlashFree(current + 1);
    SlashFree(|matches|);
    SplitPrefix(a, b, '/');
    SplitPrefix(b, "", '/');
    assert b + [] == b;
    assert a + "/" + b == a + ['/'] + b;
    IntToStringRoundTrip(current + 1);
    IntToStringRoundTrip(|matches|);
  }

  lemma SlashFree(n: nat)
    ensures forall j :: 0 <= j < |IntToString(n)| ==> IntToString(n)[j] != '/'
  {
  }

  /** The search bar: whether it is open and the query. */
  datatype Search = Search(active: bool, query: string)

  /** The back arrow closes the bar and clears the query; the clear button only clears. */
  function ExitSearch(s: Search): (r: Search)
    ensures !r.active && r.query == ""
  {
    Search(false, "")
  }

  function ClearQuery(s: Search): (r: Search)
    ensures r.active == s.active && r.query == ""
  {
    s.(query := "")
  }

  /** The search icon opens the bar with whatever query the view model holds. */
  function EnterSearch(s: Search): (r: Search)
    ensures r.active && r.query == s.query
  {
    s.(active := true)
  }
  // ---------------------------------------------------------------------------
  // Timeline mode

  datatype TimelineMode = Default | Color

  /** The stored preference string, "DEFAULT" when absent. */
  function ModeName(m: TimelineMode): string {
    match m
    case Default => "DEFAULT"
    case Color => "COLOR"
  }

  /** Only the exact string "COLOR" selects colour mode. */
  function TimelineModeOf(stored: string): (m: TimelineMode)
    ensures m == Color <==> stored == "COLOR"
  {
    if stored == "COLOR" then Color else Default
  }
}

=== FILE: timeline.dfy ===
/**
  The timeline screen: tasks with a deadline are grouped by day and shown
  under one header per day of a date range; tasks without a deadline go to
  an "Unplanned" section. Two helper functions predict the position of a
  day's header and of a task's row in the lazily built list, and must agree
  with the list actually emitted: per day a header, a summary card on
  today only, the day's tasks, and an add-task row.

  Day keys are epoch days (see `Clock`); "today" is the day key of `now`.
*/
module Timeline {
  import opened Common
  import opened Clock
  import opened Entities

  type Entry = TaskWithChecklist

  // ---------------------------------------------------------------------------
  // Partition

  predicate IsPlanned(e: Entry) {
    e.task.deadline != 0
  }

  predicate IsUnplanned(e: Entry) {
    e.task.deadline == 0
  }

  /**
    Kotlin `partition { deadline != 0 }` in a single pass: the planned entries
    and the unplanned ones, each in input order, together exactly the input.
  */
  function Partition(entries: seq<Entry>): (r: (seq<Entry>, seq<Entry>))
    ensures r.0 == Filter(entries, IsPlanned) && r.1 == Filter(entries, IsUnplanned)
    ensures multiset(r.0) + multiset(r.1) == multiset(entries)
    ensures forall i :: 0 <= i < |r.0| ==> r.0[i].task.deadline != 0
    ensures forall i :: 0 <= i < |r.1| ==> r.1[i].task.deadline == 0
  {
    if |entries| == 0 then ([], [])
    else
      var rest := Partition(entries[1..]);
      assert entries == [entries[0]] + entries[1..];
      if IsPlanned(entries[0]) then ([entries[0]] + rest.0, rest.1)
      else (rest.0, [entries[0]] + rest.1)
  }

  // ---------------------------------------------------------------------------
  // Stable sort by deadline

  predicate SortedByDeadline(s: seq<Entry>) {
    forall i, j :: 0 <= i < j < |s| ==> s[i].task.deadline <= s[j].task.deadline
  }

  /** Inserts `x` before the first entry whose deadline is not earlier. */
  function Insert(x: Entry, s: seq<Entry>): (r: seq<Entry>)
    requires SortedByDeadline(s)
    ensures SortedByDeadline(r)
    ensures multiset(r) == multiset(s) + multiset{x}
    ensures |r| == |s| + 1
    ensures forall i :: 0 <= i < |r| ==> r[i] == x || r[i] in s
  {
    if |s| == 0 || x.task.deadline <= s[0].task.deadline then
      SortedCons(x, s);
      [x] + s
    else
      var rest := Insert(x, s[1..]);
      assert s == [s[0]] + s[1..];
      assert forall i :: 0 <= i < |rest| ==> s[0].task.deadline <= rest[i].task.deadline by {
        forall i | 0 <= i < |rest| ensures s[0].task.deadline <= rest[i].task.deadline {
          assert rest[i] == x || rest[i] in s[1..];
        }
      }
      SortedCons(s[0], rest);
      [s[0]] + rest
  }

  /** Putting an entry no later than all others in front keeps the order. */
  lemma SortedCons(h: Entry, s: seq<Entry>)
    requires SortedByDeadline(s)
    requires forall i :: 0 <= i < |s| ==> h.task.deadline <= s[i].task.deadline
    ensures SortedByDeadline([h] + s)
  {
    var r := [h] + s;
    assert forall i :: 1 <= i < |r| ==> r[i] == s[i - 1];
  }

  /** Kotlin `sortedBy { deadline }`: sorted, a permutation, and stable (see `SortStable`). */
  function SortByDeadline(s: seq<Entry>): (r: seq<Entry>)
    ensures SortedByDeadline(r)
    ensures multiset(r) == multiset(s)
    ensures |r| == |s|
  {
    if |s| == 0 then []
    else
      assert s == [s[0]] + s[1..];
      Insert(s[0], SortByDeadline(s[1..]))
  }

  /** The entries whose deadline is exactly `t`, in order. */
  function OnDeadline(s: seq<Entry>, t: int): seq<Entry> {
    if |s| == 0 then []
    else OnDeadlineOne(s[0], t) + OnDeadline(s[1..], t)
  }

  function OnDeadlineOne(e: Entry, t: int): seq<Entry> {
    if e.task.deadline == t then [e] else []
  }

  lemma OnDeadlineCons(e: Entry, s: seq<Entry>, t: int)
    ensures OnDeadline([e] + s, t) == OnDeadlineOne(e, t) + OnDeadline(s, t)
  {
    assert ([e] + s)[1..] == s;
  }

  /** Two pieces of which one is empty can be swapped in front of a tail. */
  lemma SwapEmpty(a: seq<Entry>, b: seq<Entry>, tail: seq<Entry>)
    requires a == [] || b == []
    ensures a + (b + tail) == b + (a + tail)
  {
  }

  lemma {:induction false} InsertOnDeadline(x: Entry, s: seq<Entry>, t: int)
    requires SortedByDeadline(s)
    ensures OnDeadline(Insert(x, s), t) == OnDeadlineOne(x, t) + OnDeadline(s, t)
  {
    if |s| == 0 || x.task.deadline <= s[0].task.deadline {
      OnDeadlineCons(x, s, t);
    } else {
      var rest := Insert(x, s[1..]);
      assert Insert(x, s) == [s[0]] + rest;
      InsertOnDeadline(x, s[1..], t);
      OnDeadlineCons(s[0], rest, t);
      OnDeadlineCons(s[0], s[1..], t);
      assert s == [s[0]] + s[1..];
      SwapEmpty(OnDeadlineOne(s[0], t), OnDeadlineOne(x, t), OnDeadline(s[1..], t));
    }
  }

  /** Stability: entries with equal deadlines keep their input order. */
  lemma {:induction false} SortStable(s: seq<Entry>, t: int)
    ensures OnDeadline(SortByDeadline(s), t) == OnDeadline(s, t)
  {
    if |s| > 0 {
      SortStable(s[1..], t);
      InsertOnDeadline(s[0], SortByDeadline(s[1..]), t);
    }
  }

  // ---------------------------------------------------------------------------
  // Grouping by day

  function DayOf(e: Entry): int {
    EpochDay(e.task.deadline)
  }

  /** The entries that fall on day `d`, in order. */
  function FilterDay(s: seq<Entry>, d: int): (r: seq<Entry>)
    ensures |r| <= |s|
    ensures forall i :: 0 <= i < |r| ==> DayOf(r[i]) == d
  {
    if |s| == 0 then []
    else (if DayOf(s[0]) == d then [s[0]] else []) + FilterDay(s[1..], d)
  }

  lemma {:induction false} FilterDayCount(s: seq<Entry>, d: int, e: Entry)
    ensures multiset(FilterDay(s, d))[e] == if DayOf(e) == d then multiset(s)[e] else 0
  {
    if |s| > 0 {
      FilterDayCount(s[1..], d, e);
      assert s == [s[0]] + s[1..];
    }
  }

  lemma {:induction false} FilterDaySorted(s: seq<Entry>, d: int)
    requires SortedByDeadline(s)
    ensures SortedByDeadline(FilterDay(s, d))
  {
    if |s| > 0 {
      FilterDaySorted(s[1..], d);
      var rest := FilterDay(s[1..], d);
      forall e | e in rest ensures s[0].task.deadline <= e.task.deadline {
        FilterDayCount(s[1..], d, e);
        assert e in multiset(rest);
        assert e in s[1..];
      }
    }
  }

  lemma {:induction false} FilterDayAbsent(s: seq<Entry>, d: int)
    requires forall i :: 0 <= i < |s| ==> DayOf(s[i]) != d
    ensures FilterDay(s, d) == []
  {
    if |s| > 0 {
      FilterDayAbsent(s[1..], d);
    }
  }

  /** The set of day keys of the given entries. */
  function DaysOf(s: seq<Entry>): set<int> {
    set i | 0 <= i < |s| :: DayOf(s[i])
  }

  /** Kotlin `groupBy { day key }` over the deadline-sorted planned entries. */
  function Grouped(planned: seq<Entry>): map<int, seq<Entry>> {
    var sorted := SortByDeadline(planned);
    map d | d in DaysOf(planned) :: FilterDay(sorted, d)
  }

  /** `groupedTasks[day] ?: emptyList()` */
  function GroupFor(groups: map<int, seq<Entry>>, d: int): seq<Entry> {
    if d in groups then groups[d] else []
  }

  /**
    Each day's group holds exactly the planned entries of that day (with
    multiplicity), sorted by deadline; so every planned entry sits in the
    group of its own day and in no other.
  */
  lemma {:induction false} GroupingCorrect(planned: seq<Entry>, d: int)
    ensures multiset(GroupFor(Grouped(planned), d)) == multiset(FilterDay(planned, d))
    ensures SortedByDeadline(GroupFor(Grouped(planned), d))
    ensures forall e :: e in GroupFor(Grouped(planned), d) <==> e in planned && DayOf(e) == d
  {
    var sorted := SortByDeadline(planned);
    var g := GroupFor(Grouped(planned), d);
    forall e ensures multiset(FilterDay(sorted, d))[e] == multiset(FilterDay(planned, d))[e] {
      FilterDayCount(sorted, d, e);
      FilterDayCount(planned, d, e);
    }
    assert multiset(FilterDay(sorted, d)) == multiset(FilterDay(planned, d));
    if d !in DaysOf(planned) {
      assert forall i :: 0 <= i < |planned| ==> DayOf(planned[i]) in DaysOf(planned);
      FilterDayAbsent(planned, d);
      assert multiset(FilterDay(sorted, d)) == multiset{};
      assert g == [];
    } else {
      assert g == FilterDay(sorted, d);
      FilterDaySorted(sorted, d);
    }
    forall e ensures e in g <==> e in planned && DayOf(e) == d {
      FilterDayCount(planned, d, e);
      assert e in g <==> e in multiset(g);
      assert e in planned <==> e in multiset(planned);
    }
  }

  // ---------------------------------------------------------------------------
  // Date range

  /** `minOfOrNull { deadline } ?: now` */
  function Earliest(planned: seq<Entry>, now: int): (t: int)
    ensures forall i :: 0 <= i < |planned| ==> t <= planned[i].task.deadline
    ensures |planned| == 0 ==> t == now
    ensures |planned| > 0 ==> exists i :: 0 <= i < |planned| && t == planned[i].task.deadline
  {
    if |planned| == 0 then now
    else if |planned| == 1 then planned[0].task.deadline
    else
      var rest := Earliest(planned[1..], now);
      assert forall i :: 1 <= i < |planned| ==> planned[i] == planned[1..][i - 1];
      if planned[0].task.deadline <= rest then planned[0].task.deadline else rest
  }

  /** `maxOfOrNull { deadline } ?: now` */
  function Latest(planned: seq<Entry>, now: int): (t: int)
    ensures forall i :: 0 <= i < |planned| ==> planned[i].task.deadline <= t
    ensures |planned| == 0 ==> t == now
    ensures |planned| > 0 ==> exists i :: 0 <= i < |planned| && t == planned[i].task.deadline
  {
    if |planned| == 0 then now
    else if |planned| == 1 then planned[0].task.deadline
    else
      var rest := Latest(planned[1..], now);
      assert forall i :: 1 <= i < |planned| ==> planned[i] == planned[1..][i - 1];
      if planned[0].task.deadline >= rest then planned[0].task.deadline else rest
  }

  datatype Span = Span(startTime: int, endTime: int)

  /**
    The shown span: from the earlier of the earliest deadline and one month
    ago, to the later of a week after the latest deadline and fifteen days
    from now. `monthAgo` is the calendar's "now minus one month".
  */
  function TimelineSpan(planned: seq<Entry>, now: int, monthAgo: int): (r: Span)
    ensures r.startTime == Min(Earliest(planned, now), monthAgo)
    ensures r.endTime == Max(Latest(planned, now) + 7 * MsPerDay, now + 15 * MsPerDay)
    ensures forall i :: 0 <= i < |planned| ==> r.startTime <= planned[i].task.deadline <= r.endTime
    ensures r.startTime <= monthAgo && now + 15 * MsPerDay <= r.endTime
  {
    Span(Min(Earliest(planned, now), monthAgo), Max(Latest(planned, now) + 7 * MsPerDay, now + 15 * MsPerDay))
  }

  function Min(a: int, b: int): int {
    if a <= b then a else b
  }

  function Max(a: int, b: int): int {
    if a >= b then a else b
  }

  /** The consecutive day keys `first..last`, empty when `last < first`. */
  function DayRange(first: int, last: int): (days: seq<int>)
    ensures |days| == if last < first then 0 else last - first + 1
    ensures forall i :: 0 <= i < |days| ==> days[i] == first + i
  {
    seq(if last < first then 0 else last - first + 1, i => first + i)
  }

  lemma DayRangeMembers(first: int, last: int, d: int)
    ensures d in DayRange(first, last) <==> first <= d <= last
  {
    if first <= d <= last {
      assert DayRange(first, last)[d - first] == d;
    }
  }

  /**
    The header dates: both ends normalised to midnight, then one day at a
    time while the current day is not after the end day.
  */
  method DateList(startTime: int, endTime: int) returns (dates: seq<int>)
    ensures dates == DayRange(EpochDay(startTime), EpochDay(endTime))
  {
    var first := EpochDay(startTime);
    var last := EpochDay(endTime);
    dates := [];
    var current := first;
    while current <= last
      invariant first <= current
      invariant last < first ==> current == first
      invariant first <= last ==> current <= last + 1
      invariant |dates| == current - first
      invariant forall i :: 0 <= i < |dates| ==> dates[i] == first + i
      decreases last + 1 - current
    {
      dates := dates + [current];
      current := current + 1;
    }
  }

  lemma {:induction false} EpochDayMonotone(a: int, b: int)
    requires a <= b
    ensures EpochDay(a) <= EpochDay(b)
  {
    var da, db := EpochDay(a), EpochDay(b);
    assert a == da * MsPerDay + TimeOfDay(a);
    assert b == db * MsPerDay + TimeOfDay(b);
    assert (db - da + 1) * MsPerDay > 0;
  }

  /**
    Every planned task's day is listed, and so are today and the next 15
    days whenever one month ago is not in the future.
  */
  lemma {:induction false} DatesCover(planned: seq<Entry>, now: int, monthAgo: int)
    requires monthAgo <= now
    ensures var span := TimelineSpan(planned, now, monthAgo);
            var dates := DayRange(EpochDay(span.startTime), EpochDay(span.endTime));
            && EpochDay(now) in dates
            && (forall d :: EpochDay(now) <= d <= EpochDay(now) + 15 ==> d in dates)
            && forall i :: 0 <= i < |planned| ==> DayOf(planned[i]) in dates
  {
    var span := TimelineSpan(planned, now, monthAgo);
    var first, last := EpochDay(span.startTime), EpochDay(span.endTime);
    EpochDayMonotone(span.startTime, now);
    EpochDayMonotone(now, span.endTime);
    DayRangeMembers(first, last, EpochDay(now));
    ShiftDays(now, 15);
    EpochDayMonotone(now + 15 * MsPerDay, span.endTime);
    forall d | EpochDay(now) <= d <= EpochDay(now) + 15 ensures d in DayRange(first, last) {
      DayRangeMembers(first, last, d);
    }
    forall i | 0 <= i < |planned| ensures DayOf(planned[i]) in DayRange(first, last) {
      EpochDayMonotone(span.startTime, planned[i].task.deadline);
      EpochDayMonotone(planned[i].task.deadline, span.endTime);
      DayRangeMembers(first, last, DayOf(planned[i]));
    }
  }

  // ---------------------------------------------------------------------------
  // Emitted list

  datatype Item =
    | Header(day: int)
    | Summary(day: int)
    | TaskRow(taskId: int)
    | AddRow(day: int)
    | UnplannedHeader
    | UnplannedAdd

  function TaskRows(entries: seq<Entry>): (rows: seq<Item>)
    ensures |rows| == |entries|
    ensures forall i :: 0 <= i < |entries| ==> rows[i] == TaskRow(entries[i].task.id)
  {
    seq(|entries|, i requires 0 <= i < |entries| => TaskRow(entries[i].task.id))
  }

  /**
    The items emitted for one date: its header, the summary cards when the
    date is the same calendar day as `now`, its tasks, its add row.
  */
  function DayItems(groups: map<int, seq<Entry>>, now: int, d: int): seq<Item> {
    var isToday := IsSameDay(d * MsPerDay, now);
    [Header(d)] + (if isToday then [Summary(d)] else []) + TaskRows(GroupFor(groups, d)) + [AddRow(d)]
  }

  function Layout(dates: seq<int>, groups: map<int, seq<Entry>>, now: int): seq<Item> {
    if |dates| == 0 then [] else DayItems(groups, now, dates[0]) + Layout(dates[1..], groups, now)
  }

  /** The whole list: the dated part, then the unplanned section when there is something unplanned. */
  function FullLayout(dates: seq<int>, groups: map<int, seq<Entry>>, unplanned: seq<Entry>, now: int)
    : (items: seq<Item>)
    ensures |Layout(dates, groups, now)| <= |items|
    ensures items[..|Layout(dates, groups, now)|] == Layout(dates, groups, now)
    ensures |unplanned| == 0 ==> items == Layout(dates, groups, now)
  {
    Layout(dates, groups, now)
      + (if |unplanned| == 0 then [] else [UnplannedHeader] + TaskRows(unplanned) + [UnplannedAdd])
  }

  /** Items the index helpers count for one date, comparing day keys with today's key. */
  function DaySize(groups: map<int, seq<Entry>>, today: int, d: int): nat {
    1 + (if d == today then 1 else 0) + |GroupFor(groups, d)| + 1
  }

  /** The layout's "same calendar day" test agrees with comparing day keys. */
  lemma {:induction false} IsTodayByKey(d: int, now: int)
    ensures IsSameDay(d * MsPerDay, now) <==> d == EpochDay(now)
  {
    TimeOfDayOf(d, 0);
  }

  /** The counted size of a date is the number of items emitted for it. */
  lemma {:induction false} DayItemsSize(groups: map<int, seq<Entry>>, now: int, d: int)
    ensures |DayItems(groups, now, d)| == DaySize(groups, EpochDay(now), d)
    ensures DayItems(groups, now, d)[0] == Header(d)
  {
    IsTodayByKey(d, now);
  }

  /** The `j`-th task of a date sits after its header and, on today, the summary card. */
  lemma DayRow(groups: map<int, seq<Entry>>, now: int, d: int, j: int)
    requires 0 <= j < |GroupFor(groups, d)|
    ensures var o := 1 + (if d == EpochDay(now) then 1 else 0) + j;
      o < |DayItems(groups, now, d)| && DayItems(groups, now, d)[o] == TaskRow(GroupFor(groups, d)[j].task.id)
  {
    IsTodayByKey(d, now);
    var head := [Header(d)] + (if IsSameDay(d * MsPerDay, now) then [Summary(d)] else []);
    var rows := TaskRows(GroupFor(groups, d));
    assert DayItems(groups, now, d) == head + rows + [AddRow(d)];
    MiddleIndex(head, rows, [AddRow(d)], j);
  }

  lemma {:induction false} LayoutConcat(a: seq<int>, b: seq<int>, groups: map<int, seq<Entry>>, now: int)
    ensures Layout(a + b, groups, now) == Layout(a, groups, now) + Layout(b, groups, now)
  {
    if |a| == 0 {
      assert a + b == b;
    } else {
      var x, rest, tail := DayItems(groups, now, a[0]), Layout(a[1..], groups, now), Layout(b, groups, now);
      assert (a + b)[0] == a[0] && (a + b)[1..] == a[1..] + b;
      LayoutConcat(a[1..], b, groups, now);
      calc {
        Layout(a + b, groups, now);
        x + Layout(a[1..] + b, groups, now);
        x + (rest + tail);
        { ConcatAssoc(x, rest, tail); }
        (x + rest) + tail;
      }
    }
  }

  lemma LayoutSingle(d: int, groups: map<int, seq<Entry>>, now: int)
    ensures Layout([d], groups, now) == DayItems(groups, now, d)
  {
    assert [d][1..] == [];
  }

  lemma LayoutAppend(dates: seq<int>, d: int, groups: map<int, seq<Entry>>, now: int)
    ensures Layout(dates + [d], groups, now) == Layout(dates, groups, now) + DayItems(groups, now, d)
  {
    LayoutConcat(dates, [d], groups, now);
    LayoutSingle(d, groups, now);
  }

  lemma LayoutSplit(dates: seq<int>, k: int, groups: map<int, seq<Entry>>, now: int)
    requires 0 <= k < |dates|
    ensures Layout(dates, groups, now)
         == Layout(dates[..k], groups, now) + DayItems(groups, now, dates[k]) + Layout(dates[k + 1..], groups, now)
  {
    var pre, post := dates[..k], dates[k + 1..];
    assert dates == pre + ([dates[k]] + post);
    LayoutConcat(pre, [dates[k]] + post, groups, now);
    LayoutConcat([dates[k]], post, groups, now);
    LayoutSingle(dates[k], groups, now);
  }

  /** Counting one more date adds that date's size. */
  lemma LayoutStep(dates: seq<int>, i: int, groups: map<int, seq<Entry>>, now: int)
    requires 0 <= i < |dates|
    ensures |Layout(dates[..i + 1], groups, now)| == |Layout(dates[..i], groups, now)| + DaySize(groups, EpochDay(now), dates[i])
  {
    assert dates[..i + 1] == dates[..i] + [dates[i]];
    LayoutAppend(dates[..i], dates[i], groups, now);
    DayItemsSize(groups, now, dates[i]);
  }

  /** The items counted for the dates before `k` are followed by the header of `dates[k]`. */
  lemma HeaderPosition(dates: seq<int>, k: int, groups: map<int, seq<Entry>>, now: int)
    requires 0 <= k < |dates|
    ensures var p := |Layout(dates[..k], groups, now)|;
      p < |Layout(dates, groups, now)| && Layout(dates, groups, now)[p] == Header(dates[k])
  {
    LayoutSplit(dates, k, groups, now);
    DayItemsSize(groups, now, dates[k]);
    MiddleIndex(Layout(dates[..k], groups, now), DayItems(groups, now, dates[k]), Layout(dates[k + 1..], groups, now), 0);
  }

  lemma ItemInMiddle(whole: seq<Item>, pre: seq<Item>, day: seq<Item>, post: seq<Item>, o: int, item: Item)
    requires whole == pre + day + post && 0 <= o < |day| && day[o] == item
    ensures |pre| + o < |whole| && whole[|pre| + o] == item
  {
    MiddleIndex(pre, day, post, o);
  }

  /** Where the row of the `j`-th task of `dates[k]` lies in the layout. */
  function RowPos(dates: seq<int>, k: int, j: int, groups: map<int, seq<Entry>>, now: int): int
    requires 0 <= k < |dates|
  {
    |Layout(dates[..k], groups, now)| + 1 + (if dates[k] == EpochDay(now) then 1 else 0) + j
  }

  lemma RowPosition(dates: seq<int>, k: int, j: int, groups: map<int, seq<Entry>>, now: int)
    requires 0 <= k < |dates| && 0 <= j < |GroupFor(groups, dates[k])|
    ensures RowPos(dates, k, j, groups, now) < |Layout(dates, groups, now)|
    ensures Layout(dates, groups, now)[RowPos(dates, k, j, groups, now)] == TaskRow(GroupFor(groups, dates[k])[j].task.id)
  {
    var pre, day, post := Layout(dates[..k], groups, now), DayItems(groups, now, dates[k]), Layout(dates[k + 1..], groups, now);
    var o := 1 + (if dates[k] == EpochDay(now) then 1 else 0) + j;
    DayRow(groups, now, dates[k], j);
    LayoutSplit(dates, k, groups, now);
    ItemInMiddle(Layout(dates, groups, now), pre, day, post, o, TaskRow(GroupFor(groups, dates[k])[j].task.id));
    assert RowPos(dates, k, j, groups, now) == |pre| + o;
  }

  /** Index of the first occurrence of `d`, or `|dates|`. */
  function FirstIndex(dates: seq<int>, d: int): (k: nat)
    ensures k <= |dates|
    ensures forall i :: 0 <= i < k ==> dates[i] != d
    ensures k < |dates| ==> dates[k] == d
  {
    if |dates| == 0 || dates[0] == d then 0 else 1 + FirstIndex(dates[1..], d)
  }

  /**
    `calculateIndexForDate`: the number of items emitted for the dates before
    the first occurrence of the target (all dates if it is absent); when the
    target is listed, that position holds its header.
  */
  method IndexForDate(target: int, dates: seq<int>, groups: map<int, seq<Entry>>, now: int) returns (index: int)
    ensures index == |Layout(dates[..FirstIndex(dates, target)], groups, now)|
    ensures index >= 0
    ensures target in dates ==> index < |Layout(dates, groups, now)| && Layout(dates, groups, now)[index] == Header(target)
  {
    var today := EpochDay(now);
    index := 0;
    var i := 0;
    while i < |dates|
      invariant 0 <= i <= |dates|
      invariant forall j :: 0 <= j < i ==> dates[j] != target
      invariant index == |Layout(dates[..i], groups, now)|
    {
      if dates[i] == target {
        break;
      }
      var tasksForDate := GroupFor(groups, dates[i]);
      index := index + 1;
      if dates[i] == today {
        index := index + 1;
      }
      index := index + |tasksForDate|;
      index := index + 1;
      LayoutStep(dates, i, groups, now);
      i := i + 1;
    }
    assert i == FirstIndex(dates, target);
    if target in dates {
      HeaderPosition(dates, i, groups, now);
    }
  }

  /** Kotlin `indexOfFirst { task.id == id }`. */
  function IndexOfTask(entries: seq<Entry>, id: int): (k: int)
    ensures -1 <= k < |entries|
    ensures k == -1 <==> forall i :: 0 <= i < |entries| ==> entries[i].task.id != id
    ensures k >= 0 ==> entries[k].task.id == id && forall i :: 0 <= i < k ==> entries[i].task.id != id
  {
    if |entries| == 0 then -1
    else if entries[0].task.id == id then 0
    else
      var k := IndexOfTask(entries[1..], id);
      assert forall i :: 1 <= i < |entries| ==> entries[i] == entries[1..][i - 1];
      if k == -1 then -1 else k + 1
  }

  predicate HasTask(groups: map<int, seq<Entry>>, d: int, id: int) {
    IndexOfTask(GroupFor(groups, d), id) != -1
  }

  /** `dates[k]` is the first listed date whose group holds the task. */
  predicate FirstWithTask(dates: seq<int>, groups: map<int, seq<Entry>>, id: int, k: int) {
    && 0 <= k < |dates|
    && HasTask(groups, dates[k], id)
    && forall j :: 0 <= j < k ==> !HasTask(groups, dates[j], id)
  }

  /**
    The position `index` holds the row of task `id`, reached through
    `dates[k]`, the first listed date holding it.
  */
  predicate TaskRowAt(dates: seq<int>, groups: map<int, seq<Entry>>, now: int, id: int, k: int, index: int) {
    && FirstWithTask(dates, groups, id, k)
    && FirstIndex(dates, dates[k]) == k
    && index == RowPos(dates, k, IndexOfTask(GroupFor(groups, dates[k]), id), groups, now)
    && index < |Layout(dates, groups, now)|
    && Layout(dates, groups, now)[index] == TaskRow(id)
  }

  /**
    `calculateIndexForTaskId`: -1 exactly when no listed date's group holds
    the task; otherwise, with `k` the first such date, the header position
    of that date (as `IndexForDate` computes it) plus one, plus one more on
    today, plus the task's place in the group, and that position holds the
    task's row.
  */
  method IndexForTaskId(id: int, dates: seq<int>, groups: map<int, seq<Entry>>, now: int) returns (index: int)
    ensures index == -1 <==> forall k :: 0 <= k < |dates| ==> !HasTask(groups, dates[k], id)
    ensures index != -1 ==> exists k :: TaskRowAt(dates, groups, now, id, k, index)
  {
    var today := EpochDay(now);
    var acc := 0;
    var i := 0;
    while i < |dates|
      invariant 0 <= i <= |dates|
      invariant forall j :: 0 <= j < i ==> !HasTask(groups, dates[j], id)
      invariant acc == |Layout(dates[..i], groups, now)|
    {
      var tasksForDate := GroupFor(groups, dates[i]);
      var taskIndex := IndexOfTask(tasksForDate, id);
      if taskIndex != -1 {
        index := acc + 1 + (if dates[i] == today then 1 else 0) + taskIndex;
        assert index == RowPos(dates, i, taskIndex, groups, now);
        TaskRowAtFirst(dates, groups, now, id, i);
        return;
      }
      acc := acc + 1;
      if dates[i] == today {
        acc := acc + 1;
      }
      acc := acc + |tasksForDate|;
      acc := acc + 1;
      LayoutStep(dates, i, groups, now);
      i := i + 1;
    }
    index := -1;
  }

  /** The row position computed through the first date holding a task holds that task's row. */
  lemma TaskRowAtFirst(dates: seq<int>, groups: map<int, seq<Entry>>, now: int, id: int, k: int)
    requires FirstWithTask(dates, groups, id, k)
    ensures TaskRowAt(dates, groups, now, id, k, RowPos(dates, k, IndexOfTask(GroupFor(groups, dates[k]), id), groups, now))
  {
    var j := IndexOfTask(GroupFor(groups, dates[k]), id);
    FirstOccurrence(dates, k, groups, id);
    RowPosition(dates, k, j, groups, now);
  }

  /** The first date holding a task is also the first occurrence of that date. */
  lemma FirstOccurrence(dates: seq<int>, k: int, groups: map<int, seq<Entry>>, id: int)
    requires 0 <= k < |dates| && HasTask(groups, dates[k], id)
    requires forall j :: 0 <= j < k ==> !HasTask(groups, dates[j], id)
    ensures FirstIndex(dates, dates[k]) == k
  {
    assert forall j :: 0 <= j < k ==> dates[j] != dates[k];
  }

  // ---------------------------------------------------------------------------
  // Summary counters

  /** `count { !isCompleted && deadline != 0 && deadline < now }` over every entry. */
  function OverdueCount(entries: seq<Entry>, now: int): (n: nat)
    ensures n <= |entries|
  {
    if |entries| == 0 then 0
    else
      var e := entries[0].task;
      (if !e.isCompleted && e.deadline != 0 && e.deadline < now then 1 else 0) + OverdueCount(entries[1..], now)
  }

  /** `count { !isCompleted }` */
  function OpenCount(entries: seq<Entry>): (n: nat)
    ensures n <= |entries|
  {
    if |entries| == 0 then 0
    else (if entries[0].task.isCompleted then 0 else 1) + OpenCount(entries[1..])
  }

  /** The summary cards shown on today's date. */
  datatype SummaryCounts = SummaryCounts(todo: nat, overdue: nat, unplanned: nat)

  /** An entry still to do. */
  predicate IsOpen(e: Entry) {
    !e.task.isCompleted
  }

  /** An open entry whose deadline is set and has passed at `now`. */
  function OverdueAt(now: int): Entry -> bool {
    (e: Entry) => !e.task.isCompleted && e.task.deadline != 0 && e.task.deadline < now
  }

  /**
    The cards count, exactly: the open tasks of today's group, the overdue
    tasks among all entries, and the open tasks without a deadline.
  */
  function Summarize(entries: seq<Entry>, groups: map<int, seq<Entry>>, now: int): (c: SummaryCounts)
    ensures c.todo == Count(GroupFor(groups, EpochDay(now)), IsOpen)
    ensures c.overdue == Count(entries, OverdueAt(now))
    ensures c.unplanned == Count(Partition(entries).1, IsOpen)
    ensures c.todo <= |GroupFor(groups, EpochDay(now))| && c.overdue <= |entries| && c.unplanned <= |Partition(entries).1|
  {
    OpenCountIsCount(GroupFor(groups, EpochDay(now)));
    OverdueCountIsCount(entries, now);
    OpenCountIsCount(Partition(entries).1);
    SummaryCounts(OpenCount(GroupFor(groups, EpochDay(now))), OverdueCount(entries, now), OpenCount(Partition(entries).1))
  }

  /** The running tally of open entries is the size of their filter. */
  lemma {:induction false} OpenCountIsCount(entries: seq<Entry>)
    ensures OpenCount(entries) == Count(entries, IsOpen)
  {
    if |entries| > 0 {
      OpenCountIsCount(entries[1..]);
    }
  }

  /** The running tally of overdue entries is the size of their filter. */
  lemma {:induction false} OverdueCountIsCount(entries: seq<Entry>, now: int)
    ensures OverdueCount(entries, now) == Count(entries, OverdueAt(now))
  {
    if |entries| > 0 {
      OverdueCountIsCount(entries[1..], now);
    }
  }

  /** Only planned tasks can be overdue: counting over the planned part gives the same number. */
  lemma {:induction false} OverdueOnlyPlanned(entries: seq<Entry>, now: int)
    ensures OverdueCount(entries, now) == OverdueCount(Partition(entries).0, now)
  {
    if |entries| > 0 {
      OverdueOnlyPlanned(entries[1..], now);
    }
  }

  /** Overdue and unplanned tasks are disjoint kinds of open task. */
  lemma {:induction false} OpenSplit(entries: seq<Entry>, now: int)
    ensures OverdueCount(entries, now) + OpenCount(Partition(entries).1) <= OpenCount(entries)
  {
    if |entries| > 0 {
      OpenSplit(entries[1..], now);
    }
  }
}

=== FILE: view_model.dfy ===
/**
  The task view model over an in-memory store standing in for the Room
  database: the workspace filter, checklist toggling with the auto-complete
  rule, inserting a task with its checklist, and the checklist sync run
  when an edited task is saved.

  The store keeps tasks and checklist items by id. Inserting with id 0
  allocates a fresh id above every id used so far; inserting with another
  id replaces whatever is stored there; updating or deleting an id that is
  not stored does nothing. Each operation is one atomic step.
*/
module ViewModel {
  import opened Common
  import opened Entities

  // ---------------------------------------------------------------------------
  // Workspace filter

  /** The workspace id meaning "all workspaces"; the view model starts with it. */
  const AllWorkspaces: int := -1
  const InitialWorkspaceId: int := AllWorkspaces

  /** The test `it.task.workspaceId == id`; a task without a workspace never passes. */
  function InWorkspacePred(id: int): TaskWithChecklist -> bool {
    (e: TaskWithChecklist) => e.task.workspaceId == Some(id)
  }

  /**
    The tasks stored under workspace `id`, as the workspace query returns
    them: the entries of `all` that pass `InWorkspacePred(id)`, in order and
    with their multiplicity.
  */
  function InWorkspace(all: seq<TaskWithChecklist>, id: int): (r: seq<TaskWithChecklist>)
    ensures r == Filter(all, InWorkspacePred(id))
    ensures forall e :: e in r <==> e in all && e.task.workspaceId == Some(id)
  {
    if |all| == 0 then []
    else
      var rest := InWorkspace(all[1..], id);
      assert all == [all[0]] + all[1..];
      (if all[0].task.workspaceId == Some(id) then [all[0]] else []) + rest
  }

  /** `filteredTasks`: everything for -1, otherwise the tasks of that workspace. */
  function FilteredTasks(all: seq<TaskWithChecklist>, workspaceId: int): (r: seq<TaskWithChecklist>)
    ensures workspaceId == AllWorkspaces ==> r == all
    ensures workspaceId != AllWorkspaces ==> r == Filter(all, InWorkspacePred(workspaceId))
    ensures workspaceId != AllWorkspaces ==>
      forall e :: e in r <==> e in all && e.task.workspaceId == Some(workspaceId)
  {
    if workspaceId == AllWorkspaces then all else InWorkspace(all, workspaceId)
  }

  // ---------------------------------------------------------------------------
  // Store

  datatype Store = Store(tasks: map<int, Task>, items: map<int, ChecklistItem>, nextTaskId: int, nextItemId: int)

  /** Ids are never 0, agree with their keys, and lie below the next fresh id. */
  predicate Valid(s: Store) {
    && s.nextTaskId >= 1 && s.nextItemId >= 1
    && (forall id :: id in s.tasks ==> id != 0 && id < s.nextTaskId && s.tasks[id].id == id)
    && (forall id :: id in s.items ==> id != 0 && id < s.nextItemId && s.items[id].id == id)
  }

  function Max(a: int, b: int): int {
    if a >= b then a else b
  }

  /** `@Insert(onConflict = REPLACE)` of a task; returns the store and the task's row id. */
  function InsertTask(s: Store, task: Task): (r: (Store, int))
    requires Valid(s)
    ensures Valid(r.0)
    ensures r.1 != 0 && r.1 in r.0.tasks && r.0.tasks[r.1] == task.(id := r.1)
    ensures task.id == 0 ==> r.1 !in s.tasks
    ensures task.id != 0 ==> r.1 == task.id
    ensures r.0.items == s.items
    ensures forall id :: id in s.tasks && id != r.1 ==> id in r.0.tasks && r.0.tasks[id] == s.tasks[id]
    ensures r.0.tasks.Keys == s.tasks.Keys + {r.1}
  {
    var id := if task.id == 0 then s.nextTaskId else task.id;
    (s.(tasks := s.tasks[id := task.(id := id)], nextTaskId := Max(s.nextTaskId, id + 1)), id)
  }

  /** `@Update` of a task: replaces it if stored, otherwise nothing happens. */
  function UpdateTask(s: Store, task: Task): (r: Store)
    requires Valid(s)
    ensures Valid(r)
    ensures r.items == s.items && r.tasks.Keys == s.tasks.Keys
    ensures task.id in s.tasks ==> r.tasks[task.id] == task
    ensures forall id :: id in s.tasks && id != task.id ==> r.tasks[id] == s.tasks[id]
  {
    if task.id in s.tasks then s.(tasks := s.tasks[task.id := task]) else s
  }

  /** `@Insert(onConflict = REPLACE)` of a checklist item; returns the store and the item's row id. */
  function InsertItem(s: Store, item: ChecklistItem): (r: (Store, int))
    requires Valid(s)
    ensures Valid(r.0)
    ensures r.1 != 0 && r.1 in r.0.items && r.0.items[r.1] == item.(id := r.1)
    ensures item.id == 0 ==> r.1 !in s.items && r.1 >= s.nextItemId
    ensures item.id != 0 ==> r.1 == item.id
    ensures r.0.tasks == s.tasks
    ensures r.0.nextItemId >= s.nextItemId
    ensures forall id :: id in s.items && id != r.1 ==> id in r.0.items && r.0.items[id] == s.items[id]
    ensures r.0.items.Keys == s.items.Keys + {r.1}
  {
    var id := if item.id == 0 then s.nextItemId else item.id;
    (s.(items := s.items[id := item.(id := id)], nextItemId := Max(s.nextItemId, id + 1)), id)
  }

  /** `@Update` of a checklist item: replaces it if stored, otherwise nothing happens. */
  function UpdateItem(s: Store, item: ChecklistItem): (r: Store)
    requires Valid(s)
    ensures Valid(r)
    ensures r.tasks == s.tasks && r.items.Keys == s.items.Keys
    ensures item.id in s.items ==> r.items[item.id] == item
    ensures forall id :: id in s.items && id != item.id ==> r.items[id] == s.items[id]
  {
    if item.id in s.items then s.(items := s.items[item.id := item]) else s
  }

  /** The ids of the checklist items attached to a task. */
  function ItemsOf(s: Store, taskId: int): set<int> {
    set id | id in s.items && s.items[id].taskId == taskId
  }

  /** The auto-complete condition: a non-empty checklist whose items are all done. */
  predicate ChecklistDone(s: Store, taskId: int) {
    && ItemsOf(s, taskId) != {}
    && forall id :: id in ItemsOf(s, taskId) ==> s.items[id].isCompleted
  }

  /** `UPDATE tasks SET isCompleted = :done WHERE id = :taskId` */
  function UpdateTaskStatus(s: Store, taskId: int, done: bool): (r: Store)
    requires Valid(s)
    ensures Valid(r)
    ensures r.items == s.items && r.tasks.Keys == s.tasks.Keys
    ensures taskId in s.tasks ==> r.tasks[taskId] == s.tasks[taskId].(isCompleted := done)
    ensures forall id :: id in s.tasks && id != taskId ==> r.tasks[id] == s.tasks[id]
  {
    if taskId in s.tasks then s.(tasks := s.tasks[taskId := s.tasks[taskId].(isCompleted := done)]) else s
  }

  /** A store change that leaves the items alone and never un-completes a task. */
  predicate OnlyCompletes(s: Store, r: Store) {
    && r.items == s.items
    && r.tasks.Keys == s.tasks.Keys
    && forall id :: id in s.tasks ==>
         r.tasks[id] == s.tasks[id].(isCompleted := r.tasks[id].isCompleted)
         && (s.tasks[id].isCompleted ==> r.tasks[id].isCompleted)
  }

  /**
    `checkTaskCompletion`: marks the task completed exactly when its
    checklist is non-empty and fully done; it never marks a task incomplete
    and touches no other task.
  */
  function CheckTaskCompletion(s: Store, taskId: int): (r: Store)
    requires Valid(s)
    ensures Valid(r)
    ensures OnlyCompletes(s, r)
    ensures taskId in s.tasks ==> r.tasks[taskId].isCompleted == (s.tasks[taskId].isCompleted || ChecklistDone(s, taskId))
    ensures forall id :: id in s.tasks && id != taskId ==> r.tasks[id] == s.tasks[id]
  {
    if ChecklistDone(s, taskId) then UpdateTaskStatus(s, taskId, true) else s
  }

  /** Checking twice is the same as checking once. */
  lemma CheckTaskCompletionIdempotent(s: Store, taskId: int)
    requires Valid(s)
    ensures CheckTaskCompletion(CheckTaskCompletion(s, taskId), taskId) == CheckTaskCompletion(s, taskId)
  {
    var r := CheckTaskCompletion(s, taskId);
    assert ItemsOf(r, taskId) == ItemsOf(s, taskId);
    if ChecklistDone(s, taskId) && taskId in s.tasks {
      assert r.tasks[taskId].isCompleted;
      assert r.tasks[taskId := r.tasks[taskId].(isCompleted := true)] == r.tasks;
    }
  }

  /**
    `toggleChecklistItem`: stores the item with its completion flipped and
    nothing else changed; only when the item becomes done is the task's
    completion checked.
  */
  function ToggleChecklistItem(s: Store, item: ChecklistItem): (r: Store)
    requires Valid(s)
    ensures Valid(r)
    ensures r.items.Keys == s.items.Keys && r.tasks.Keys == s.tasks.Keys
    ensures item.id in s.items ==> r.items[item.id] == ChecklistItem(item.id, item.taskId, item.text, !item.isCompleted)
    ensures forall id :: id in s.items && id != item.id ==> r.items[id] == s.items[id]
    ensures item.isCompleted ==> r.tasks == s.tasks
    ensures forall id :: id in s.tasks && id != item.taskId ==> r.tasks[id] == s.tasks[id]
    ensures forall id :: id in s.tasks ==> (s.tasks[id].isCompleted ==> r.tasks[id].isCompleted)
  {
    var updated := item.(isCompleted := !item.isCompleted);
    var s1 := UpdateItem(s, updated);
    if updated.isCompleted then CheckTaskCompletion(s1, item.taskId) else s1
  }

  /** Toggling a stored item and then toggling it back restores every item. */
  lemma ToggleTwice(s: Store, item: ChecklistItem)
    requires Valid(s) && item.id in s.items && s.items[item.id] == item
    ensures ToggleChecklistItem(ToggleChecklistItem(s, item), item.(isCompleted := !item.isCompleted)).items == s.items
  {
    var r1 := ToggleChecklistItem(s, item);
    var r2 := ToggleChecklistItem(r1, item.(isCompleted := !item.isCompleted));
    assert r2.items.Keys == s.items.Keys;
    assert r2.items[item.id] == item;
  }

  /** Checking the last open item of a task completes it. */
  lemma CheckingLastItemCompletes(s: Store, item: ChecklistItem)
    requires Valid(s) && item.id in s.items && s.items[item.id] == item && !item.isCompleted
    requires item.taskId in s.tasks
    requires forall id :: id in ItemsOf(s, item.taskId) && id != item.id ==> s.items[id].isCompleted
    ensures ToggleChecklistItem(s, item).tasks[item.taskId].isCompleted
  {
    var s1 := UpdateItem(s, item.(isCompleted := true));
    assert item.id in ItemsOf(s1, item.taskId);
    assert ItemsOf(s1, item.taskId) == ItemsOf(s, item.taskId);
  }

  // ---------------------------------------------------------------------------
  // Inserting a new task with its checklist

  /** Inserts each item, in order, re-tagged with `taskId`; returns the row id each item received. */
  function InsertItems(s: Store, items: seq<ChecklistItem>, taskId: int): (r: (Store, seq<int>))
    requires Valid(s)
    ensures Valid(r.0)
    ensures r.0.tasks == s.tasks
    ensures r.0.nextItemId >= s.nextItemId
    ensures |r.1| == |items|
    ensures forall i :: 0 <= i < |items| ==> r.1[i] in r.0.items && r.0.items[r.1[i]].taskId == taskId
    ensures forall i :: 0 <= i < |items| && items[i].id != 0 ==> r.1[i] == items[i].id
    ensures forall i :: 0 <= i < |items| && items[i].id == 0 ==> s.nextItemId <= r.1[i] < r.0.nextItemId
    ensures forall id :: id in r.0.items && id !in s.items ==> r.0.items[id].taskId == taskId
    ensures forall id :: id in s.items && id !in r.1 ==> id in r.0.items && r.0.items[id] == s.items[id]
    decreases |items|
  {
    if |items| == 0 then (s, [])
    else
      var (s1, id) := InsertItem(s, items[0].(taskId := taskId));
      var (s2, ids) := InsertItems(s1, items[1..], taskId);
      (s2, [id] + ids)
  }

  /** Unsaved items (id 0) get strictly increasing ids. */
  lemma {:induction false} InsertNewIdsIncrease(s: Store, items: seq<ChecklistItem>, taskId: int, r: Store, ids: seq<int>)
    requires Valid(s)
    requires forall i :: 0 <= i < |items| ==> items[i].id == 0
    requires (r, ids) == InsertItems(s, items, taskId)
    ensures forall i, j :: 0 <= i < j < |items| ==> ids[i] < ids[j]
    decreases |items|
  {
    if |items| > 0 {
      var (s1, id) := InsertItem(s, items[0].(taskId := taskId));
      var (s2, rest) := InsertItems(s1, items[1..], taskId);
      InsertNewIdsIncrease(s1, items[1..], taskId, s2, rest);
      assert forall i :: 0 <= i < |rest| ==> items[1..][i].id == 0;
      IncreasingCons(id, rest);
    }
  }

  /**
    Unsaved items (id 0) get the next fresh ids in order, the i-th of them
    `s.nextItemId + i`, and are stored as submitted, re-tagged.
  */
  lemma {:induction false} InsertNewItems(s: Store, items: seq<ChecklistItem>, taskId: int, r: Store, ids: seq<int>)
    requires Valid(s)
    requires forall i :: 0 <= i < |items| ==> items[i].id == 0
    requires (r, ids) == InsertItems(s, items, taskId)
    ensures r.nextItemId == s.nextItemId + |items|
    ensures forall i :: 0 <= i < |items| ==> ids[i] == s.nextItemId + i
    ensures forall i :: 0 <= i < |items| ==> ids[i] !in s.items && r.items[ids[i]] == items[i].(id := ids[i], taskId := taskId)
    decreases |items|
  {
    if |items| > 0 {
      var (s1, id) := InsertItem(s, items[0].(taskId := taskId));
      var (s2, rest) := InsertItems(s1, items[1..], taskId);
      InsertNewItems(s1, items[1..], taskId, s2, rest);
      assert forall i :: 0 <= i < |rest| ==> items[1..][i].id == 0;
      assert forall i :: 0 <= i < |rest| ==> id < s1.nextItemId <= rest[i];
      forall i | 0 <= i < |items|
        ensures ids[i] == s.nextItemId + i
        ensures ids[i] !in s.items && r.items[ids[i]] == items[i].(id := ids[i], taskId := taskId)
      {
        if i == 0 {
          assert id !in rest;
        } else {
          assert ids[i] == rest[i - 1] && items[i] == items[1..][i - 1];
        }
      }
    }
  }

  lemma IncreasingCons(x: int, xs: seq<int>)
    requires forall i, j :: 0 <= i < j < |xs| ==> xs[i] < xs[j]
    requires forall i :: 0 <= i < |xs| ==> x < xs[i]
    ensures forall i, j :: 0 <= i < j < |[x] + xs| ==> ([x] + xs)[i] < ([x] + xs)[j]
  {
  }

  /**
    `insertTaskWithChecklist`: inserts the task, then each item re-tagged
    with the task's new row id. Returns the store and that id.
  */
  function InsertTaskWithChecklist(s: Store, task: Task, items: seq<ChecklistItem>): (r: (Store, int))
    requires Valid(s)
    ensures Valid(r.0)
    ensures r.1 in r.0.tasks && r.0.tasks[r.1] == task.(id := r.1)
    ensures task.id == 0 ==> r.1 !in s.tasks
    ensures forall id :: id in r.0.items && !(id in s.items && r.0.items[id] == s.items[id]) ==> r.0.items[id].taskId == r.1
  {
    var (s1, taskId) := InsertTask(s, task);
    var (s2, ids) := InsertItems(s1, items, taskId);
    (s2, taskId)
  }

  /** A new checklist of n unsaved items leaves at least n items attached to the new task, each a copy of one submitted item. */
  lemma NewChecklistAttached(s: Store, task: Task, items: seq<ChecklistItem>)
    requires Valid(s)
    requires forall i :: 0 <= i < |items| ==> items[i].id == 0
    ensures var (r, taskId) := InsertTaskWithChecklist(s, task, items);
      && |ItemsOf(r, taskId)| >= |items|
      && forall i :: 0 <= i < |items| ==>
           exists id :: id in ItemsOf(r, taskId) && r.items[id] == items[i].(id := id, taskId := taskId)
  {
    var (s1, taskId) := InsertTask(s, task);
    var (s2, ids) := InsertItems(s1, items, taskId);
    InsertNewIdsIncrease(s1, items, taskId, s2, ids);
    InsertNewItems(s1, items, taskId, s2, ids);
    DistinctIdsCount(ids);
    var allotted := set i | 0 <= i < |ids| :: ids[i];
    assert allotted <= ItemsOf(s2, taskId);
    SubsetCard(allotted, ItemsOf(s2, taskId));
    forall i | 0 <= i < |items|
      ensures exists id :: id in ItemsOf(s2, taskId) && s2.items[id] == items[i].(id := id, taskId := taskId)
    {
      assert ids[i] in ItemsOf(s2, taskId);
    }
  }

  lemma SubsetCard(a: set<int>, b: set<int>)
    requires a <= b
    ensures |a| <= |b|
  {
    assert b == a + (b - a);
  }

  lemma {:induction false} DistinctIdsCount(ids: seq<int>)
    requires forall i, j :: 0 <= i < j < |ids| ==> ids[i] < ids[j]
    ensures |(set i | 0 <= i < |ids| :: ids[i])| == |ids|
  {
    if |ids| > 0 {
      DistinctIdsCount(ids[1..]);
      var rest := set i | 0 <= i < |ids[1..]| :: ids[1..][i];
      assert (set i | 0 <= i < |ids| :: ids[i]) == {ids[0]} + rest;
      assert ids[0] !in rest;
    }
  }

  // ---------------------------------------------------------------------------
  // Checklist sync on update

  /** What the sync does with the edited checklist. */
  datatype SyncPlan = SyncPlan(newItems: seq<ChecklistItem>, updatedItems: seq<ChecklistItem>, deletedIds: set<int>)

  predicate IsNew(item: ChecklistItem) {
    item.id == 0
  }

  predicate IsStored(item: ChecklistItem) {
    item.id != 0
  }

  function IdsOf(items: seq<ChecklistItem>): set<int> {
    set i | 0 <= i < |items| :: items[i].id
  }

  /**
    Items with id 0 are new, the others are updates, and every current
    item whose id is not among the updates is deleted.
  */
  function PlanSync(current: set<int>, items: seq<ChecklistItem>): (p: SyncPlan)
    requires 0 !in current
    ensures multiset(p.newItems) + multiset(p.updatedItems) == multiset(items)
    ensures forall i :: 0 <= i < |p.newItems| ==> p.newItems[i].id == 0
    ensures forall i :: 0 <= i < |p.updatedItems| ==> p.updatedItems[i].id != 0
    ensures forall id :: id in p.deletedIds <==> id in current && id !in IdsOf(items)
    ensures forall i :: 0 <= i < |items| && items[i].id != 0 ==> items[i].id !in p.deletedIds
  {
    var newItems := Filter(items, IsNew);
    var updated := Filter(items, IsStored);
    SplitNewStored(items);
    var updatedIds := IdsOf(updated);
    assert forall id :: id in updatedIds <==> id in IdsOf(items) && id != 0 by {
      forall id ensures id in updatedIds <==> id in IdsOf(items) && id != 0 {
        if id in IdsOf(items) && id != 0 {
          var i :| 0 <= i < |items| && items[i].id == id;
          FilterMembership(items, IsStored, items[i]);
          var j :| 0 <= j < |updated| && updated[j] == items[i];
        }
        if id in updatedIds {
          var j :| 0 <= j < |updated| && updated[j].id == id;
          FilterMembership(items, IsStored, updated[j]);
          var i :| 0 <= i < |items| && items[i] == updated[j];
        }
      }
    }
    SyncPlan(newItems, updated, set id | id in current && id !in updatedIds)
  }

  lemma {:induction false} SplitNewStored(items: seq<ChecklistItem>)
    ensures multiset(Filter(items, IsNew)) + multiset(Filter(items, IsStored)) == multiset(items)
  {
    if |items| > 0 {
      SplitNewStored(items[1..]);
      assert items == [items[0]] + items[1..];
    }
  }

  /** Applies the item updates in order. */
  function UpdateItems(s: Store, items: seq<ChecklistItem>): (r: Store)
    requires Valid(s)
    ensures Valid(r)
    ensures r.tasks == s.tasks && r.items.Keys == s.items.Keys
    ensures r.nextItemId == s.nextItemId
    ensures forall id :: id in s.items && id !in IdsOf(items) ==> r.items[id] == s.items[id]
    ensures forall id :: id in s.items && id in IdsOf(items) ==> r.items[id] in items
    decreases |items|
  {
    if |items| == 0 then s
    else
      var r := UpdateItems(UpdateItem(s, items[0]), items[1..]);
      assert forall id :: id in IdsOf(items[1..]) ==> id in IdsOf(items) by {
        forall id | id in IdsOf(items[1..]) ensures id in IdsOf(items) {
          var i :| 0 <= i < |items[1..]| && items[1..][i].id == id;
          assert items[i + 1].id == id;
        }
      }
      assert items[0].id in IdsOf(items);
      assert forall x :: x in items[1..] ==> x in items;
      r
  }

  /**
    The item half of the sync: inserts the new items tagged with `taskId`,
    applies the updates, then deletes the planned ids.
  */
  function ApplySync(s: Store, taskId: int, plan: SyncPlan): (r: Store)
    requires Valid(s)
    requires forall i :: 0 <= i < |plan.newItems| ==> plan.newItems[i].id == 0
    ensures Valid(r)
    ensures r.tasks == s.tasks
    ensures forall id :: id in plan.deletedIds ==> id !in r.items
    ensures forall id :: id in s.items && id !in plan.deletedIds && id in IdsOf(plan.updatedItems) ==>
      id in r.items && r.items[id] in plan.updatedItems
    ensures forall id :: id in s.items && id !in plan.deletedIds && id !in IdsOf(plan.updatedItems) ==>
      id in r.items && r.items[id] == s.items[id]
    ensures forall id :: id in r.items && id !in s.items ==> r.items[id].taskId == taskId || r.items[id] in plan.updatedItems
  {
    var (s2, newIds) := InsertItems(s, plan.newItems, taskId);
    InsertNewItems(s, plan.newItems, taskId, s2, newIds);
    var s3 := UpdateItems(s2, plan.updatedItems);
    var r := s3.(items := s3.items - plan.deletedIds);
    assert forall id :: id in s.items ==> id !in newIds;
    r
  }

  /**
    `updateTaskWithChecklist`: updates the task, inserts the new items
    tagged with the task's id, applies the updates, deletes the current
    items of the task that were not kept, then re-checks completion.
  */
  function UpdateTaskWithChecklist(s: Store, task: Task, items: seq<ChecklistItem>): (r: Store)
    requires Valid(s)
    ensures Valid(r)
    ensures r.tasks.Keys == s.tasks.Keys
    ensures var current := ItemsOf(s, task.id);
      && (forall id :: id in current && id !in IdsOf(items) ==> id !in r.items)
      && (forall id :: id in s.items && id in IdsOf(items) ==> id in r.items && r.items[id] in items)
      && (forall id :: id in s.items && id !in current && id !in IdsOf(items) ==> id in r.items && r.items[id] == s.items[id])
    ensures forall id :: id in r.items && id !in s.items ==> r.items[id].taskId == task.id || r.items[id] in items
    ensures forall id :: id in s.tasks && id != task.id ==> r.tasks[id] == s.tasks[id]
    ensures task.id in s.tasks ==> r.tasks[task.id] == task.(isCompleted := task.isCompleted || ChecklistDone(r, task.id))
  {
    var s1 := UpdateTask(s, task);
    assert ItemsOf(s1, task.id) == ItemsOf(s, task.id);
    var plan := PlanSync(ItemsOf(s1, task.id), items);
    UpdatedIdsAreStored(items, plan);
    var s4 := ApplySync(s1, task.id, plan);
    var r := CheckTaskCompletion(s4, task.id);
    assert ItemsOf(r, task.id) == ItemsOf(s4, task.id);
    r
  }

  /**
    The unsaved items `news` sit in `r` under the consecutive ids from
    `base`, each stored as submitted and re-tagged with `taskId`, except
    that one whose id is in `overwritten` may hold something else.
  */
  predicate NewItemsStored(r: Store, base: int, news: seq<ChecklistItem>, taskId: int, overwritten: set<int>) {
    forall i :: 0 <= i < |news| ==> NewItemAt(r, base, news, taskId, overwritten, i)
  }

  /** The `i`-th new item is stored under `base + i`, as submitted unless overwritten. */
  predicate NewItemAt(r: Store, base: int, news: seq<ChecklistItem>, taskId: int, overwritten: set<int>, i: int)
    requires 0 <= i < |news|
  {
    && base + i in r.items
    && (base + i !in overwritten ==> r.items[base + i] == news[i].(id := base + i, taskId := taskId))
  }

  /**
    The sync inserts the unsaved items in order under the next fresh ids,
    the i-th of them `s.nextItemId + i`, re-tagged with the task; such an
    item is stored as submitted unless an update names the same id.
  */
  lemma ApplySyncInsertsNew(s: Store, taskId: int, plan: SyncPlan)
    requires Valid(s)
    requires forall i :: 0 <= i < |plan.newItems| ==> plan.newItems[i].id == 0
    requires forall id :: id in plan.deletedIds ==> id in s.items
    ensures ApplySync(s, taskId, plan).nextItemId == s.nextItemId + |plan.newItems|
    ensures NewItemsStored(ApplySync(s, taskId, plan), s.nextItemId, plan.newItems, taskId, IdsOf(plan.updatedItems))
  {
    var (s2, newIds) := InsertItems(s, plan.newItems, taskId);
    InsertNewItems(s, plan.newItems, taskId, s2, newIds);
    assert NewItemsStored(s2, s.nextItemId, plan.newItems, taskId, {}) by {
      forall i | 0 <= i < |plan.newItems|
        ensures NewItemAt(s2, s.nextItemId, plan.newItems, taskId, {}, i)
      {
        assert newIds[i] == s.nextItemId + i;
      }
    }
    var s3 := UpdateItems(s2, plan.updatedItems);
    NewItemsAfterUpdate(s2, plan.updatedItems, s.nextItemId, plan.newItems, taskId);
    forall k | k in plan.deletedIds ensures !(s.nextItemId <= k) {
      assert k in s.items;
    }
    NewItemsAfterDelete(s3, plan.deletedIds, s.nextItemId, plan.newItems, taskId, IdsOf(plan.updatedItems));
  }

  lemma NewItemsAfterUpdate(a: Store, items: seq<ChecklistItem>, base: int, news: seq<ChecklistItem>, taskId: int)
    requires Valid(a) && NewItemsStored(a, base, news, taskId, {})
    ensures NewItemsStored(UpdateItems(a, items), base, news, taskId, IdsOf(items))
  {
    var b := UpdateItems(a, items);
    forall i | 0 <= i < |news| ensures NewItemAt(b, base, news, taskId, IdsOf(items), i) {
      assert NewItemAt(a, base, news, taskId, {}, i);
    }
  }

  lemma NewItemsAfterDelete(a: Store, del: set<int>, base: int, news: seq<ChecklistItem>, taskId: int, o: set<int>)
    requires NewItemsStored(a, base, news, taskId, o)
    requires forall k :: k in del ==> k < base
    ensures NewItemsStored(a.(items := a.items - del), base, news, taskId, o)
  {
    var b := a.(items := a.items - del);
    forall i | 0 <= i < |news| ensures NewItemAt(b, base, news, taskId, o, i) {
      assert NewItemAt(a, base, news, taskId, o, i);
    }
  }

  /** The same new items, with fewer of them possibly overwritten, in a store with the same items. */
  lemma NewItemsStoredTransfer(a: Store, b: Store, base: int, news: seq<ChecklistItem>, taskId: int, o1: set<int>, o2: set<int>)
    requires NewItemsStored(a, base, news, taskId, o1)
    requires b.items == a.items && o1 <= o2
    ensures NewItemsStored(b, base, news, taskId, o2)
  {
    forall i | 0 <= i < |news| ensures NewItemAt(b, base, news, taskId, o2, i) {
      assert NewItemAt(a, base, news, taskId, o1, i);
    }
  }

  /**
    Saving an edited task inserts its unsaved checklist lines in order
    under the next fresh ids (never stored before, by `Valid`), re-tagged
    with the task, and raises the next free id by exactly their number.
    No stored item is deleted under such an id, and each is stored as
    submitted unless the list also names the same id (a stale id the store
    has just handed out again).
  */
  lemma UpdateInsertsNewItems(s: Store, task: Task, items: seq<ChecklistItem>)
    requires Valid(s)
    ensures UpdateTaskWithChecklist(s, task, items).nextItemId == s.nextItemId + |Filter(items, IsNew)|
    ensures NewItemsStored(UpdateTaskWithChecklist(s, task, items), s.nextItemId, Filter(items, IsNew), task.id, IdsOf(items))
  {
    var s1 := UpdateTask(s, task);
    assert ItemsOf(s1, task.id) == ItemsOf(s, task.id);
    var plan := PlanSync(ItemsOf(s1, task.id), items);
    UpdatedIdsAreStored(items, plan);
    ApplySyncInsertsNew(s1, task.id, plan);
    var s4 := ApplySync(s1, task.id, plan);
    var r := CheckTaskCompletion(s4, task.id);
    assert r.items == s4.items && r.nextItemId == s4.nextItemId;
    UpdatedIdsSubset(items, plan.updatedItems);
    NewItemsStoredTransfer(s4, r, s.nextItemId, plan.newItems, task.id, IdsOf(plan.updatedItems), IdsOf(items));
  }

  lemma UpdatedIdsSubset(items: seq<ChecklistItem>, updated: seq<ChecklistItem>)
    requires forall x :: x in updated ==> x in items
    ensures IdsOf(updated) <= IdsOf(items)
  {
    forall id | id in IdsOf(updated) ensures id in IdsOf(items) {
      var j :| 0 <= j < |updated| && updated[j].id == id;
      assert updated[j] in items;
      var k :| 0 <= k < |items| && items[k] == updated[j];
    }
  }

  lemma UpdatedIdsAreStored(items: seq<ChecklistItem>, plan: SyncPlan)
    requires multiset(plan.newItems) + multiset(plan.updatedItems) == multiset(items)
    requires forall i :: 0 <= i < |plan.newItems| ==> plan.newItems[i].id == 0
    requires forall i :: 0 <= i < |plan.updatedItems| ==> plan.updatedItems[i].id != 0
    ensures forall id :: id != 0 && id in IdsOf(items) ==> id in IdsOf(plan.updatedItems)
    ensures forall x :: x in plan.updatedItems ==> x in items
  {
    forall id | id != 0 && id in IdsOf(items) ensures id in IdsOf(plan.updatedItems) {
      var i :| 0 <= i < |items| && items[i].id == id;
      assert items[i] in multiset(items);
      assert items[i] !in multiset(plan.newItems);
      assert items[i] in multiset(plan.updatedItems);
      var j :| 0 <= j < |plan.updatedItems| && plan.updatedItems[j] == items[i];
    }
    forall x | x in plan.updatedItems ensures x in items {
      assert x in multiset(plan.updatedItems);
      assert x in multiset(items);
    }
  }

  /** Updating items with exactly their stored values changes nothing. */
  lemma {:induction false} UpdateWithStored(s: Store, items: seq<ChecklistItem>)
    requires Valid(s)
    requires forall i :: 0 <= i < |items| ==> items[i].id in s.items && s.items[items[i].id] == items[i]
    ensures UpdateItems(s, items) == s
    decreases |items|
  {
    if |items| > 0 {
      assert s.items[items[0].id := items[0]] == s.items;
      assert UpdateItem(s, items[0]) == s;
      UpdateWithStored(s, items[1..]);
    }
  }

  /**
    Saving a task with its checklist exactly as stored leaves every
    checklist item as it was.
  */
  lemma SaveUnchangedChecklist(s: Store, task: Task, items: seq<ChecklistItem>)
    requires Valid(s)
    requires forall i :: 0 <= i < |items| ==> items[i].id in s.items && s.items[items[i].id] == items[i]
    requires forall id :: id in ItemsOf(s, task.id) ==> id in IdsOf(items)
    ensures UpdateTaskWithChecklist(s, task, items).items == s.items
  {
    var s1 := UpdateTask(s, task);
    assert ItemsOf(s1, task.id) == ItemsOf(s, task.id);
    var plan := PlanSync(ItemsOf(s1, task.id), items);
    UpdatedIdsAreStored(items, plan);
    assert forall id :: id !in plan.deletedIds;
    assert plan.deletedIds == {};
    assert forall x :: x in items ==> x.id != 0;
    FilterNone(items, IsNew);
    assert plan.newItems == [];
    assert forall i :: 0 <= i < |plan.updatedItems| ==> plan.updatedItems[i] in items;
    ApplySyncNoop(s1, task.id, plan);
  }

  lemma ApplySyncNoop(s: Store, taskId: int, plan: SyncPlan)
    requires Valid(s)
    requires plan.newItems == [] && plan.deletedIds == {}
    requires forall i :: 0 <= i < |plan.updatedItems| ==>
      plan.updatedItems[i].id in s.items && s.items[plan.updatedItems[i].id] == plan.updatedItems[i]
    ensures ApplySync(s, taskId, plan) == s
  {
    UpdateWithStored(s, plan.updatedItems);
    assert s.items - {} == s.items;
  }
}

=== FILE: workspace_sheet.dfy ===
/**
  The workspace selection sheet: a list mode offering "No Workspace", each
  workspace and a "Create new workspace" button, and a create mode with a
  name field and a 16-colour palette. The colour a create mode opens with
  is chosen at random by the app; here that choice is a parameter of the
  event that opens it.
*/
module WorkspaceSheet {
  import opened Common
  import opened Entities

  /** The palette as unsigned ARGB literals. */
  const Palette: seq<int> := [
    0xFFF44336, 0xFFE91E63, 0xFF9C27B0, 0xFF673AB7,
    0xFF3F51B5, 0xFF2196F3, 0xFF03A9F4, 0xFF00BCD4,
    0xFF009688, 0xFF4CAF50, 0xFF8BC34A, 0xFFCDDC39,
    0xFFFFEB3B, 0xFFFFC107, 0xFFFF9800, 0xFFFF5722]

  /** Palette entry `i` as the signed `Int` the sheet stores and hands on. */
  function PaletteColor(i: int): (c: int)
    requires 0 <= i < |Palette|
    ensures c < 0 && c % TwoTo32 == Palette[i]
  {
    ToInt32(Palette[i])
  }

  /** The name being typed survives mode changes; the colour lives only in create mode. */
  datatype Sheet =
    | Listing(name: string)
    | Creating(name: string, color: int)

  predicate Valid(s: Sheet) {
    s.Creating? ==> exists i :: 0 <= i < |Palette| && s.color == PaletteColor(i)
  }

  /** The sheet opens on the list with an empty name. */
  function Open(): (s: Sheet)
    ensures s.Listing? && s.name == "" && Valid(s)
  {
    Listing("")
  }

  /** The heading names the mode. */
  function Title(s: Sheet): (t: string)
    ensures t == "Create New Workspace" <==> s.Creating?
    ensures t == "Select Workspace" <==> s.Listing?
  {
    if s.Creating? then "Create New Workspace" else "Select Workspace"
  }

  /** The list mode's rows, in order: "No Workspace" (no selection), then each workspace. */
  function ListRows(workspaces: seq<Workspace>): (rows: seq<Option<Workspace>>)
    ensures |rows| == |workspaces| + 1
    ensures rows[0] == None
    ensures forall i :: 0 <= i < |workspaces| ==> rows[i + 1] == Some(workspaces[i])
  {
    [None] + seq(|workspaces|, i requires 0 <= i < |workspaces| => Some(workspaces[i]))
  }

  /** Every row is "No Workspace" or one of the workspaces, and every workspace has a row. */
  lemma ListRowsCover(workspaces: seq<Workspace>)
    ensures forall r :: r in ListRows(workspaces) ==> r.None? || r.value in workspaces
    ensures forall w :: w in workspaces ==> Some(w) in ListRows(workspaces)
  {
    var rows := ListRows(workspaces);
    forall w | w in workspaces ensures Some(w) in rows {
      var i :| 0 <= i < |workspaces| && workspaces[i] == w;
      assert rows[i + 1] == Some(w);
    }
  }

  datatype Event =
    | StartCreate(randomIndex: int)
    | SetName(text: string)
    | PickColor(index: int)
    | Cancel
    | Create
    | SelectRow(row: Option<Workspace>)

  predicate ValidEvent(e: Event) {
    match e
    case StartCreate(i) => 0 <= i < |Palette|
    case PickColor(i) => 0 <= i < |Palette|
    case _ => true
  }

  /** What the sheet reports to its caller. */
  datatype Callback = Created(name: string, color: int) | Selected(choice: Option<Workspace>)

  /**
    One event. Buttons and the name field of the mode not on screen do
    nothing; opening the form picks a palette colour at random (the index
    is a parameter), and a colour chip picks its own. "Create" with
    a blank name does nothing; otherwise it reports the name and colour,
    clears the name and returns to the list. "Cancel" returns to the list
    without reporting and keeps the typed name.
  */
  function Step(s: Sheet, e: Event): (r: (Sheet, Option<Callback>))
    requires ValidEvent(e)
    ensures Valid(s) ==> Valid(r.0)
    ensures e.Create? && s.Creating? && !IsBlank(s.name) ==> r == (Listing(""), Some(Created(s.name, s.color)))
    ensures e.Create? && (s.Listing? || IsBlank(s.name)) ==> r == (s, None)
    ensures e.Cancel? ==> r == (Listing(s.name), None)
    ensures r.1.Some? && r.1.value.Created? ==> e.Create? && !IsBlank(r.1.value.name)
    ensures r.1.Some? && r.1.value.Selected? ==> s.Listing? && e == SelectRow(r.1.value.choice)
    ensures e.SelectRow? ==> (r.1.Some? <==> s.Listing?) && r.0 == s
    ensures e.SetName? && s.Creating? ==> r == (Creating(e.text, s.color), None)
    ensures e.StartCreate? && s.Listing? ==> r == (Creating(s.name, PaletteColor(e.randomIndex)), None)
    ensures e.PickColor? && s.Creating? ==> r == (Creating(s.name, PaletteColor(e.index)), None)
    ensures (e.SetName? || e.StartCreate? || e.PickColor?) && !(s.Listing? == e.StartCreate?) ==> r == (s, None)
  {
    match e
    case StartCreate(i) =>
      if s.Listing? then (Creating(s.name, PaletteColor(i)), None) else (s, None)
    case SetName(t) =>
      if s.Creating? then (s.(name := t), None) else (s, None)
    case PickColor(i) =>
      if s.Creating? then (s.(color := PaletteColor(i)), None) else (s, None)
    case Cancel =>
      (Listing(s.name), None)
    case Create =>
      if s.Creating? && !IsBlank(s.name) then (Listing(""), Some(Created(s.name, s.color)))
      else (s, None)
    case SelectRow(row) =>
      if s.Listing? then (s, Some(Selected(row))) else (s, None)
  }

  /** Runs a sequence of events, collecting the callbacks in order. */
  function Run(s: Sheet, events: seq<Event>): (r: (Sheet, seq<Callback>))
    requires forall i :: 0 <= i < |events| ==> ValidEvent(events[i])
    ensures Valid(s) ==> Valid(r.0)
    ensures |r.1| <= |events|
    decreases |events|
  {
    if |events| == 0 then (s, [])
    else
      var step := Step(s, events[0]);
      var rest := Run(step.0, events[1..]);
      (rest.0, (if step.1.Some? then [step.1.value] else []) + rest.1)
  }

  /** Every workspace the sheet asks to create has a non-blank name and a palette colour. */
  lemma {:induction false} CreatedAreWellFormed(s: Sheet, events: seq<Event>)
    requires Valid(s)
    requires forall i :: 0 <= i < |events| ==> ValidEvent(events[i])
    ensures forall c :: c in Run(s, events).1 && c.Created? ==>
      !IsBlank(c.name) && exists i :: 0 <= i < |Palette| && c.color == PaletteColor(i)
    decreases |events|
  {
    if |events| > 0 {
      CreatedAreWellFormed(Step(s, events[0]).0, events[1..]);
    }
  }

  /** Naming a workspace and creating it reports exactly that name and returns to an empty list. */
  lemma CreateRoundTrip(name: string, pick: int)
    requires 0 <= pick < |Palette| && !IsBlank(name)
    ensures var r := Run(Open(), [StartCreate(pick), SetName(name), Create]);
      r.0 == Open() && r.1 == [Created(name, PaletteColor(pick))]
  {
    var s1 := Step(Open(), StartCreate(pick)).0;
    var s2 := Step(s1, SetName(name)).0;
    assert s2 == Creating(name, PaletteColor(pick));
    var c := Created(name, PaletteColor(pick));
    assert Run(s2, [Create]).0 == Open() && Run(s2, [Create]).1 == [c] by {
      assert [Create][1..] == [];
    }
    assert Run(s1, [SetName(name), Create]).1 == [c] by {
      assert [SetName(name), Create][1..] == [Create];
    }
    assert Run(s1, [SetName(name), Create]).0 == Open() by {
      assert [SetName(name), Create][1..] == [Create];
    }
    assert [StartCreate(pick), SetName(name), Create][1..] == [SetName(name), Create];
  }
}
